=== FILE: README.md ===
# ProjectApp core in Dafny

A model of the core of ProjectApp, a small Trello-like project tracker. It has two halves.

The Spring backend:
- the permission rules that decide who may view, edit and delete projects and tasks, and who may manage a project's members;
- the services for projects, project members, tasks, labels, and registration, login and refresh tokens.

The Next.js frontend:
- the API client's header and response handling;
- the authentication context and the route guard;
- the kanban board;
- the task, project and members dialogs;
- the task and project filter panels and the hooks that apply them.

The backend is modelled as pure functions over an immutable database value (`Entities.Db`).
- Every service operation returns a `Step`: the database after the call, and either the response or the error the service throws.
- A refused call returns the database unchanged, as the transaction's rollback does.
- Generated ids, the current instant and generated token values are parameters.
- So are the password encoder, the authentication manager's password check and the access-token issuer.

The integrity invariant `Entities.Valid` says two things:
- every foreign key resolves;
- there is at most one membership per user and project.

Lemmas prove that every mutating operation keeps `Valid`. For the project services they also prove that every project's creator stays its OWNER.

On the frontend:
- A component's state is a datatype.
- An API call is an outcome passed in as a parameter.
- Browser storage is a map.
- The clock is a `Clock` record of precomputed instants.

Each handler returns the new state together with the requests it sends, so its contract can say which calls are made, when, and with what.

Layout, one module per file:

| module | models |
|---|---|
| `Wrappers`, `Seqs`, `Text`, `Sorting` | option/result types, sequence filtering and de-duplication, ASCII case mapping and substring search, a stable insertion sort |
| `Wire` | the enums and request/response shapes shared by both halves |
| `Entities` | the tables, the repository lookups and the integrity invariant |
| `Permissions` | `PermissionService` |
| `MemberService`, `ProjectService`, `TaskService`, `LabelService`, `AuthService` | the services of the same names |
| `ApiClient`, `AuthContext`, `AuthGuard` | `api.ts`, `auth-context.tsx`, `auth-guard.tsx` |
| `Kanban`, `TaskDialog`, `ProjectDialog`, `MembersDialog` | the board and the three dialogs |
| `TaskFilterPanel`, `TaskFilterHook`, `ProjectFilterPanel`, `ProjectFilterHook` | the filter panels and their hooks |

Two cross-layer consequences are proved (`TaskService.BoardDropUnassigns`, `TaskService.DialogSaveUnassigns`):
- moving a card on the board clears the task's assignee;
- so does saving the task dialog untouched.

In both cases the frontend sends no assignee, and the backend treats a missing assignee as "unassign".

## Model

| member | source | states |
|---|---|---|
| ApiClient.StoredToken | frontend/lib/api.ts:86-91 | a token is used exactly when the `token` key is stored with a non-empty value, and then it is that value |
| ApiClient.AuthHeaders | frontend/lib/api.ts:86-92 | the JSON content type always comes first; an `Authorization` header is present iff a non-empty token is stored, and then it is `Bearer <token>` |
| ApiClient.RequestHeaders | frontend/lib/api.ts:106-140 | login, register and refresh send only the content type; every other call carries a credential iff a token is stored |
| ApiClient.ClearTokens | frontend/lib/api.ts:97-98 | both token keys are gone and every other stored entry is kept with its value |
| ApiClient.HandleResponse | frontend/lib/api.ts:94-104 | the call succeeds exactly when the status is 2xx and a body came back, and then yields that body; a 2xx with no body (a 204) fails to parse (see Findings); any other status is an error carrying the status; a 401 also clears both tokens and moves to `/login`; nothing else touches the browser |
| ApiClient.HandleVoidResponse | frontend/lib/api.ts:94-104 | the corrected handler for calls that return nothing: succeeds exactly on a 2xx, with or without a body, whenever `HandleResponse` would, and treats the browser and failures as `HandleResponse` does |
| ApiClient.NoContentReply | frontend/lib/api.ts:94-104 | on a 204 with no body, `HandleResponse` fails with a parse error and the browser is unchanged, while `HandleVoidResponse` succeeds |
| ApiClient.UnauthorizedEndsSession | frontend/lib/api.ts:94-104 | after a 401 no later non-public call carries a credential, and a second 401 changes nothing further |
| AuthContext.Initial | frontend/contexts/auth-context.tsx:17-18 | the provider starts loading and not authenticated |
| AuthContext.Mount | frontend/contexts/auth-context.tsx:20-26 | mounting ends loading and authenticates exactly when a non-empty token is stored (or the session already was) |
| AuthContext.MountFromInitial | frontend/contexts/auth-context.tsx:17-26 | right after mounting, the session is authenticated iff a non-empty token is stored |
| AuthContext.Login | frontend/contexts/auth-context.tsx:28-37 | success, a 2xx reply with a body, stores exactly the two returned tokens and sets the flag; a 2xx without a body changes nothing and fails; any other status is rethrown and only the response handling touches the browser |
| AuthContext.LoginFailureKeepsSession | frontend/contexts/auth-context.tsx:28-37 | a failed login keeps the flag; it changes nothing unless the status is 401, which clears the stored tokens |
| AuthContext.LoginAuthorizesLaterCalls | frontend/contexts/auth-context.tsx:30-33 | after a successful login every authenticated call sends the new access token as its bearer credential |
| AuthContext.LoginAfterRegister | frontend/contexts/auth-context.tsx:43 | the automatic login uses the registered email as `usernameOrEmail` and the same password |
| AuthContext.Register | frontend/contexts/auth-context.tsx:39-47 | the login request is sent iff the registration reply was a 2xx with a body; a failed registration rethrows its error; otherwise the outcome is the login's; the whole call succeeds iff both calls do |
| AuthContext.Logout | frontend/contexts/auth-context.tsx:49-53 | both tokens are removed, the flag is cleared, loading and location are kept |
| AuthContext.LogoutIdempotent | frontend/contexts/auth-context.tsx:49-53 | logging out twice equals once, and a reload after logging out is not authenticated |
| AuthContext.LoginThenLogout | frontend/contexts/auth-context.tsx:28-53 | login followed by logout leaves storage as before minus the two token keys |
| AuthContext.UseAuth | frontend/contexts/auth-context.tsx:62-68 | inside a provider it returns the provider's session, outside it fails with the provider message |
| AuthGuard.Redirect | frontend/components/auth-guard.tsx:16-24 | no navigation while loading; anonymous users off the public routes go to `/login`; authenticated users on them go to `/dashboard`; otherwise none |
| AuthGuard.Render | frontend/components/auth-guard.tsx:26-40 | the spinner iff loading; the children iff loaded and authenticated or on `/login` or `/register`; otherwise nothing |
| AuthGuard.GuardSettles | frontend/components/auth-guard.tsx:9-40 | rendering nothing always comes with a redirect to `/login`, and every redirect target renders children without redirecting again |
| Kanban.InitialFilters | frontend/components/kanban-board.tsx:40-50 | the board opens with a badge count of 0 and its filter hook returns every task unchanged |
| Kanban.ColumnTasks | frontend/components/kanban-board.tsx:134-151 | a column holds, in order, exactly the visible cards whose status is the column's id |
| Kanban.ColumnsPartition | frontend/components/kanban-board.tsx:19-24 | the four columns together hold every visible card exactly once (as multisets) |
| Kanban.ColumnsExclusive | frontend/components/kanban-board.tsx:19-24 | a card is in a column iff its status is that column's id, and every status has a column |
| Kanban.FindTask | frontend/components/kanban-board.tsx:69-70 | none iff no loaded task has the id; otherwise the first task with that id |
| Kanban.LabelIds | frontend/components/kanban-board.tsx:80 | the label ids, position by position |
| Kanban.StatusRequest | frontend/components/kanban-board.tsx:72-81 | the request carries the task's title, description, priority, due date and label ids, the new status and the board's project, and no assignee |
| Kanban.SetStatus | frontend/components/kanban-board.tsx:83 | tasks with the id get the new status and nothing else changes; other tasks are unchanged |
| Kanban.HandleTaskUpdate | frontend/components/kanban-board.tsx:67-87 | nothing is sent for an unknown id; otherwise the status request is sent; the local list changes only when the call succeeds |
| Kanban.HandleDrop | frontend/components/kanban-board.tsx:103-109 | the drag always ends; a request is sent iff a loaded card is dropped on a different column, and it is that card's status request for the target column; on success only that card's status changes and all its other fields are kept |
| Kanban.MovedCardChangesColumn | frontend/components/kanban-board.tsx:149-150 | after a successful move no copy of the card remains in any other column |
| TaskDialog.BlankForm | frontend/components/task-dialog.tsx:48-55 | a new task's form is empty text, TODO, MEDIUM, the dialog's project, an empty label list, no assignee and no due date |
| TaskDialog.EditForm | frontend/components/task-dialog.tsx:38-46 | the edit form copies title, description, status, priority and due date, lists the label ids in order, uses the dialog's project and has no assignee |
| TaskDialog.OnOpen | frontend/components/task-dialog.tsx:34-58 | a closed dialog keeps its form; an open one is reset to the edit form of its task, or the blank form without one; either way it targets the dialog's project |
| TaskDialog.Submit | frontend/components/task-dialog.tsx:69-85 | exactly one call: an update of the given task iff there is one, else a create, both with the form; `onSave` runs iff the call succeeded |
| TaskDialog.Delete | frontend/components/task-dialog.tsx:87-99 | without a task nothing happens; otherwise that task is deleted and `onSave` runs iff the call succeeded |
| TaskDialog.DeleteAsWrittenNeverSaves | frontend/components/task-dialog.tsx:87-99 | when the server answers the delete with 204 and no body, the shipped handler makes the call fail, so the task is deleted but `onSave` never runs |
| TaskDialog.DeleteSavesOnNoContent | frontend/components/task-dialog.tsx:87-99 | with the corrected handler the same 204 reply deletes the task and runs `onSave` |
| TaskDialog.EditFormAgreesWithBoard | frontend/components/task-dialog.tsx:38-46 | the opened edit form is the request the board sends for the same task, status for status |
| TaskDialog.ReopenedSubmitTargetsProject | frontend/components/task-dialog.tsx:34-85 | whatever the form held, a submit after reopening targets the dialog's project |
| ProjectDialog.EditForm | frontend/components/project-dialog.tsx:31-36 | the edit form copies the project's name, description and status |
| ProjectDialog.OnOpen | frontend/components/project-dialog.tsx:29-45 | a closed dialog keeps its form; an open one shows the project's fields, or empty text and ACTIVE without a project; an open form always has a status |
| ProjectDialog.Submit | frontend/components/project-dialog.tsx:47-63 | exactly one call: an update of the given project iff there is one, else a create, both with the form; `onSave` runs iff the call succeeded |
| ProjectDialog.Delete | frontend/components/project-dialog.tsx:65-77 | without a project nothing happens; otherwise that project is deleted and `onSave` runs iff the call succeeded |
| ProjectDialog.DeleteAsWrittenNeverSaves | frontend/components/project-dialog.tsx:65-77 | when the server answers the delete with 204 and no body, the shipped handler makes the call fail, so the project is deleted but `onSave` never runs |
| ProjectDialog.DeleteSavesOnNoContent | frontend/components/project-dialog.tsx:65-77 | with the corrected handler the same 204 reply deletes the project and runs `onSave` |
| ProjectDialog.UntouchedEditRoundTrips | frontend/components/project-dialog.tsx:29-63 | saving an opened project untouched updates that project with exactly the name, description and status it showed |
| MembersDialog.GetRoleInfo | frontend/components/project-members-dialog.tsx:150-152 | the entry whose value is the role when the catalogue has one, otherwise the Team Member entry; always a catalogue entry |
| MembersDialog.FindRole | frontend/components/project-members-dialog.tsx:151 | a found entry is in the list and has the role's value; none iff no entry has it |
| MembersDialog.RoleInfoCoversProjectRoles | frontend/components/project-members-dialog.tsx:26-50 | each of the five project roles has its own catalogue entry, and unknown text falls back to Team Member |
| MembersDialog.GetInitials | frontend/components/project-members-dialog.tsx:154-156 | at most the first two characters, each upper-cased |
| MembersDialog.RoleChoices | frontend/components/project-members-dialog.tsx:213 | the offered choices are exactly the catalogue entries other than OWNER |
| MembersDialog.HandleAddMember | frontend/components/project-members-dialog.tsx:86-109 | nothing is sent iff the username is blank; otherwise the form's username and role are sent, and the form resets to empty/TEAM_MEMBER only on success |
| MembersDialog.AddResetsForm | frontend/components/project-members-dialog.tsx:88-94 | after a successful add the form is the initial one, so a second submit sends nothing |
| MembersDialog.FormNeverRequestsOwner | frontend/components/project-members-dialog.tsx:207-213 | a role picked from the offered choices is never OWNER |
| MembersDialog.StartEditing | frontend/components/project-members-dialog.tsx:304 | clicking a badge edits that member, except that an owner's click changes nothing |
| MembersDialog.OwnersNeverEnterEditing | frontend/components/project-members-dialog.tsx:304 | no sequence of badge clicks puts an owner into edit mode |
| MembersDialog.HandleUpdateRole | frontend/components/project-members-dialog.tsx:111-128 | edit mode ends exactly when the role update succeeded |
| MembersDialog.HandleRemoveMember | frontend/components/project-members-dialog.tsx:130-134 | the remove call is made iff the user confirmed, for that username |
| TaskFilterHook.PassesAllIsKeeps | frontend/hooks/use-task-filters.ts:11-90 | passing every active stage in the hook's order is the same as satisfying every active criterion at once |
| TaskFilterHook.StagedIsConjunction | frontend/hooks/use-task-filters.ts:8-93 | the stage-by-stage filtering keeps exactly the tasks the conjunction of the active criteria keeps, in order |
| TaskFilterHook.FilterTasks | frontend/hooks/use-task-filters.ts:7-96 | the visible tasks are a subsequence of the loaded ones and contain a loaded task iff it meets every active criterion |
| TaskFilterHook.FilterTasksCleared | frontend/hooks/use-task-filters.ts:12-90 | with no criterion active every task is shown in loaded order |
| TaskFilterHook.SearchCriterion | frontend/hooks/use-task-filters.ts:12-21 | an active search adds "the lower-cased query occurs in the title, description, assignee (if any) or creator" |
| TaskFilterHook.AssigneeCriterion | frontend/hooks/use-task-filters.ts:24-30 | "unassigned" adds "no or empty assignee"; any other value, including "all", is compared literally |
| TaskFilterHook.LabelsCriterion | frontend/hooks/use-task-filters.ts:38-42 | a non-empty label list adds "some label of the task carries a selected name" |
| TaskFilterHook.DueDateCriterion | frontend/hooks/use-task-filters.ts:50-84 | "no-date" adds "no due date"; every other bucket drops undated tasks; an unknown bucket adds exactly "has a due date" |
| TaskFilterHook.OverdueTwiceIsOverdue | frontend/hooks/use-task-filters.ts:64-90 | with the overdue bucket selected the overdue toggle changes nothing, and every kept task is overdue |
| TaskFilterHook.FilterTasksNarrows | frontend/hooks/use-task-filters.ts:8-93 | activating one more criterion gives a subsequence of the previous result |
| TaskFilterPanel.UpdateFilter | frontend/components/task-filters.tsx:32-34 | the edited field holds the new value and every other field is unchanged |
| TaskFilterPanel.UpdateFilterUnique | frontend/components/task-filters.tsx:32-34 | the updated spec is the only one that holds the new value and agrees with the old spec everywhere else |
| TaskFilterPanel.UpdateFilterIdempotent | frontend/components/task-filters.tsx:32-34 | writing the value a field already holds changes nothing (and only then), and repeating an edit is a no-op |
| TaskFilterPanel.ToggleLabel | frontend/components/task-filters.tsx:36-41 | only the label list changes; the name is selected afterwards iff it was not before; a selected name is removed with every copy and every other name is kept, in order, with as many copies; an unselected one is appended |
| TaskFilterPanel.ToggleLabelTwice | frontend/components/task-filters.tsx:36-41 | toggling twice touches only the label list, and restores the spec exactly when the name was not selected |
| TaskFilterPanel.ToggleLabelTwiceKeepsSelection | frontend/components/task-filters.tsx:36-41 | toggling a name twice restores whether every name is selected |
| TaskFilterPanel.ClearFilters | frontend/components/task-filters.tsx:43-53 | after clearing no field is active |
| TaskFilterPanel.ActiveFiltersCount | frontend/components/task-filters.tsx:71-81 | the badge is at most 7 and is 0 exactly for the cleared spec |
| TaskFilterPanel.ActiveFiltersCountIsActiveFields | frontend/components/task-filters.tsx:71-81 | the badge equals the number of active fields |
| TaskFilterPanel.AssigneeNames | frontend/components/task-filters.tsx:56 | the names are the non-empty assignees of the tasks, and every non-empty assignee is listed |
| TaskFilterPanel.UniqueAssignees | frontend/components/task-filters.tsx:55-58 | the assignee options are sorted, without duplicates, non-empty, each some task's assignee, and include every task's non-empty assignee |
| TaskFilterPanel.UniqueCreators | frontend/components/task-filters.tsx:60-63 | the creator options are sorted, without duplicates, and are exactly the tasks' creators |
| TaskFilterPanel.UniqueLabels | frontend/components/task-filters.tsx:65-69 | the chips are sorted by name (in character order, see Left out) and are a permutation of the labels kept at the first occurrence of their id; chips with equal names keep their first-seen order |
| TaskFilterPanel.UniqueLabelsDistinct | frontend/components/task-filters.tsx:67 | no two chips share an id |
| TaskFilterPanel.UniqueLabelsFirstSeen | frontend/components/task-filters.tsx:66-67 | each chip is the first label with its id in task order |
| TaskFilterPanel.UniqueLabelsCover | frontend/components/task-filters.tsx:65-69 | every label id carried by a task has a chip |
| ProjectFilterPanel.UpdateFilter | frontend/components/project-filters.tsx:31-33 | the edited field holds the new value and every other field is unchanged |
| ProjectFilterPanel.UpdateFilterUnique | frontend/components/project-filters.tsx:31-33 | the updated spec is the only one that holds the new value and agrees with the old one everywhere else |
| ProjectFilterPanel.ClearFilters | frontend/components/project-filters.tsx:35-44 | after a reset no criterion is active and the list is ordered newest first |
| ProjectFilterPanel.ToggleSortOrder | frontend/components/project-filters.tsx:46-48 | the direction flips and nothing else changes |
| ProjectFilterPanel.ToggleSortOrderInvolution | frontend/components/project-filters.tsx:46-48 | pressing the sort button twice restores the spec |
| ProjectFilterPanel.ActiveFiltersCount | frontend/components/project-filters.tsx:55-62 | the badge is at most 4 and is 0 exactly when search, status, creator and date range are all empty |
| ProjectFilterPanel.ActiveFiltersCountIgnoresSort | frontend/components/project-filters.tsx:55-62 | changing the sort key or direction never changes the badge |
| ProjectFilterPanel.UniqueCreators | frontend/components/project-filters.tsx:50-53 | the creator options are sorted, without duplicates, and are exactly the projects' creators |
| ProjectFilterHook.StagedIsConjunction | frontend/hooks/use-project-filters.ts:9-64 | applying the active criteria one after another keeps exactly the projects that meet all of them, in input order |
| ProjectFilterHook.FilterProjects | frontend/hooks/use-project-filters.ts:7-106 | the result is a permutation of the projects meeting every active criterion, sorted by the chosen key in the chosen direction |
| ProjectFilterHook.FilterProjectsStable | frontend/hooks/use-project-filters.ts:67-100 | projects with equal sort keys keep their input order |
| ProjectFilterHook.FilterProjectsUnfiltered | frontend/hooks/use-project-filters.ts:9-64 | with no active criterion every project is listed |
| ProjectFilterHook.UnknownSortByIsCreatedAt | frontend/hooks/use-project-filters.ts:92-94 | an unrecognised sort key orders exactly as "createdAt" |
| ProjectFilterHook.DateRangeCriterion | frontend/hooks/use-project-filters.ts:33-63 | "today" adds "created on today's date"; an unrecognised range adds nothing |
| ProjectFilterHook.SearchCriterion | frontend/hooks/use-project-filters.ts:12-20 | the search keeps a project iff the lower-cased query occurs at some position of its lower-cased name, description or creator |
| ProjectFilterHook.EqualityCriteria | frontend/hooks/use-project-filters.ts:23-30 | status and creator keep exactly the projects whose wire value equals the chosen one |
| Permissions.RoleInProject | src/main/java/com/davivienda/projectapp/service/PermissionService.java:105-108 | no role exactly when no membership row links the user to the project; otherwise the role of such a row |
| Permissions.RoleAllows | src/main/java/com/davivienda/projectapp/service/PermissionService.java:36-48 | a role check passes only if some row linking the user to the project has an allowed role, and always passes when such a row exists and every linking row has an allowed role; the role-based `Can*` contracts are stated through it |
| Permissions.RoleAllowsUnique | src/main/java/com/davivienda/projectapp/service/PermissionService.java:36-48 | with one membership row per user and project, a role check passes exactly when a linking row has an allowed role |
| Permissions.CanCreateProject | src/main/java/com/davivienda/projectapp/service/PermissionService.java:21-24 | allowed exactly for a user holding the global role ADMIN or USER |
| Permissions.CanViewProject | src/main/java/com/davivienda/projectapp/service/PermissionService.java:26-34 | the creator or any member, whatever the role |
| Permissions.CanEditProject | src/main/java/com/davivienda/projectapp/service/PermissionService.java:36-48 | the creator, or a member whose role is OWNER, ADMIN or PROJECT_MANAGER |
| Permissions.CanDeleteProject | src/main/java/com/davivienda/projectapp/service/PermissionService.java:50-53 | only the creator |
| Permissions.CanCreateTask | src/main/java/com/davivienda/projectapp/service/PermissionService.java:55-62 | exactly those who may view the project |
| Permissions.CanEditTask | src/main/java/com/davivienda/projectapp/service/PermissionService.java:64-82 | the task's creator, its assignee, or an OWNER, ADMIN or PROJECT_MANAGER of its project |
| Permissions.CanDeleteTask | src/main/java/com/davivienda/projectapp/service/PermissionService.java:84-95 | the task's creator, or an OWNER or ADMIN of its project |
| Permissions.CanManageProjectMembers | src/main/java/com/davivienda/projectapp/service/PermissionService.java:97-103 | only an OWNER or ADMIN member; creating the project grants nothing here |
| Permissions.PermissionsNest | src/main/java/com/davivienda/projectapp/service/PermissionService.java:26-103 | deleting or managing members implies editing, editing implies viewing, and deleting a task implies editing it |
| Permissions.CreatorPowers | src/main/java/com/davivienda/projectapp/service/PermissionService.java:26-62 | the creator may view, edit, delete and add tasks, but manages members only through an OWNER or ADMIN membership |
| Permissions.MemberPowers | src/main/java/com/davivienda/projectapp/service/PermissionService.java:26-103 | for a member who is not the creator, the role alone decides each permission |
| Permissions.OutsiderPowers | src/main/java/com/davivienda/projectapp/service/PermissionService.java:26-103 | someone who is neither creator nor member may do nothing with the project, and with a task only what its creator or assignee may |
| MemberService.MemberResponse | src/main/java/com/davivienda/projectapp/service/ProjectMemberService.java:158-165 | the response carries the member's username and email and the membership's role and join time |
| MemberService.AddMember | src/main/java/com/davivienda/projectapp/service/ProjectMemberService.java:29-57 | succeeds exactly for a managing caller adding an existing non-member; then one row with the requested role, or TEAM_MEMBER, is appended; each refusal has its message and leaves the database as it was |
| MemberService.RowsOf | src/main/java/com/davivienda/projectapp/service/ProjectMemberService.java:71 | the project's rows are exactly the membership rows with that project id |
| MemberService.GetProjectMembers | src/main/java/com/davivienda/projectapp/service/ProjectMemberService.java:59-75 | anyone who may view the project gets one response per membership row of it, in row order, with that row's role and join time and its user's name and email; the helpers `MemberResponses` and `AppendRowRoles` carry the stream mapping |
| MemberService.LoadMember | src/main/java/com/davivienda/projectapp/service/ProjectMemberService.java:90-94 | the member must exist ("Miembro no encontrado") and hold a membership ("El usuario no es miembro del proyecto") |
| MemberService.UpdateMemberRole | src/main/java/com/davivienda/projectapp/service/ProjectMemberService.java:77-104 | succeeds exactly for a managing caller and a non-OWNER member; only that pair's row gets the new role; an OWNER row is refused |
| MemberService.RemoveMember | src/main/java/com/davivienda/projectapp/service/ProjectMemberService.java:106-130 | succeeds exactly for a managing caller and a non-OWNER member; then that pair's row is gone; an OWNER row is refused |
| MemberService.EnsureCreatorIsOwner | src/main/java/com/davivienda/projectapp/service/ProjectMemberService.java:132-156 | only the creator may call it; a creator without a membership gets an OWNER row, one with a membership gets it back unchanged |
| MemberService.AddMemberThenMember | src/main/java/com/davivienda/projectapp/service/ProjectMemberService.java:29-57 | after an add the user is a member with the requested role or TEAM_MEMBER, and repeating the add is refused |
| MemberService.OwnersAreProtected | src/main/java/com/davivienda/projectapp/service/ProjectMemberService.java:96-99 | an OWNER membership is neither changed by a role update nor removed |
| MemberService.UpdateMemberRoleEffect | src/main/java/com/davivienda/projectapp/service/ProjectMemberService.java:77-104 | after an update the member holds exactly the new role and every other user-project pair keeps its role |
| MemberService.RemoveMemberEffect | src/main/java/com/davivienda/projectapp/service/ProjectMemberService.java:106-130 | after a removal the member has no role in the project and every other pair keeps its role |
| MemberService.EnsureCreatorIsOwnerIdempotent | src/main/java/com/davivienda/projectapp/service/ProjectMemberService.java:132-156 | a second call changes nothing and answers with the same membership |
| MemberService.EnsureCreatorIsOwnerEffect | src/main/java/com/davivienda/projectapp/service/ProjectMemberService.java:132-156 | afterwards the creator is a member, an OWNER if they had no membership before |
| MemberService.AddMemberKeepsValid | src/main/java/com/davivienda/projectapp/service/ProjectMemberService.java:29-57 | an add keeps every reference resolvable and at most one membership per user and project |
| MemberService.UpdateMemberRoleKeepsValid | src/main/java/com/davivienda/projectapp/service/ProjectMemberService.java:77-104 | a role update keeps references and membership uniqueness |
| MemberService.RemoveMemberKeepsValid | src/main/java/com/davivienda/projectapp/service/ProjectMemberService.java:106-130 | a removal keeps references and membership uniqueness |
| MemberService.EnsureCreatorIsOwnerKeepsValid | src/main/java/com/davivienda/projectapp/service/ProjectMemberService.java:132-156 | the owner row it may add keeps references and membership uniqueness |
| MemberService.AddMemberKeepsOwners | src/main/java/com/davivienda/projectapp/service/ProjectMemberService.java:29-57 | if every creator is an OWNER of their project, an add keeps it so |
| MemberService.UpdateMemberRoleKeepsOwners | src/main/java/com/davivienda/projectapp/service/ProjectMemberService.java:96-101 | a role update keeps every creator an OWNER, because an OWNER row is never the one updated |
| MemberService.RemoveMemberKeepsOwners | src/main/java/com/davivienda/projectapp/service/ProjectMemberService.java:124-129 | a removal keeps every creator an OWNER, because an OWNER row is never the one removed |
| MemberService.EnsureCreatorIsOwnerKeepsOwners | src/main/java/com/davivienda/projectapp/service/ProjectMemberService.java:142-155 | when every creator is already an OWNER the call changes nothing |
| TaskService.FoundLabels | src/main/java/com/davivienda/projectapp/service/TaskService.java:65 | the label ids kept are exactly the requested ids that name existing labels, each once |
| TaskService.TaskResponseOf | src/main/java/com/davivienda/projectapp/service/TaskService.java:175-203 | the response copies the row's fields, resolves assignee, creator and project to their names, and lists the stored label (id, name and colour) for each stored label id, in order; no labels when the list is null |
| TaskService.InitialLabels | src/main/java/com/davivienda/projectapp/service/TaskService.java:63-67 | a new task has a label list only when a non-empty list of ids was sent |
| TaskService.NewTask | src/main/java/com/davivienda/projectapp/service/TaskService.java:52-61 | the inserted row takes the request's fields, with TODO and MEDIUM when status or priority is missing, the caller as creator and the given creation instant |
| TaskService.CreateTask | src/main/java/com/davivienda/projectapp/service/TaskService.java:34-71 | succeeds exactly for a caller who may add tasks to an existing project and an assignee that exists, if one is given; then exactly the new row is appended and answered; refusals leave the database as it was |
| TaskService.CreateThenGetTask | src/main/java/com/davivienda/projectapp/service/TaskService.java:34-86 | a task just created under an unused id reads back, for its creator, as exactly the response the creation returned |
| TaskService.GetTask | src/main/java/com/davivienda/projectapp/service/TaskService.java:73-86 | succeeds exactly when the caller may view the task's project; answers that task's response |
| TaskService.TaskResponsesCover | src/main/java/com/davivienda/projectapp/service/TaskService.java:101-103 | every listed task's response appears in the list |
| TaskService.TaskResponsesOrigin | src/main/java/com/davivienda/projectapp/service/TaskService.java:101-103 | every response in the list is the response of a listed task |
| TaskService.GetProjectTasks | src/main/java/com/davivienda/projectapp/service/TaskService.java:88-104 | for a caller who may view the project, the responses are those of the project's tasks, one per task, in table order; the helper `TaskResponses` carries the stream mapping |
| TaskService.GetUserTasks | src/main/java/com/davivienda/projectapp/service/TaskService.java:106-115 | for any existing caller, the responses are those of the tasks assigned to them in every project, one per task, in table order, with no permission check |
| TaskService.Updated | src/main/java/com/davivienda/projectapp/service/TaskService.java:129-154 | title and description are overwritten; status, priority and due date only when given; the assignee always, so a missing one unassigns; labels only when a list is given; id, project, creator and creation time are kept |
| TaskService.UpdateTask | src/main/java/com/davivienda/projectapp/service/TaskService.java:117-158 | succeeds exactly for a caller who may edit the task and an assignee that exists, if one is given; then only rows with that id are replaced |
| TaskService.DeleteTask | src/main/java/com/davivienda/projectapp/service/TaskService.java:160-173 | succeeds exactly for a caller who may delete the task; then the rows with that id are gone, every other row stays in its order with its number of copies, and the other tables are untouched |
| TaskService.UpdateWithOwnFieldsIsIdentity | src/main/java/com/davivienda/projectapp/service/TaskService.java:129-154 | a request repeating the task's own fields, with no label list, writes the row back unchanged |
| TaskService.UpdateNeverMovesTask | src/main/java/com/davivienda/projectapp/service/TaskService.java:117-158 | the request's project id is ignored: every task keeps its project |
| TaskService.BoardDropUnassigns | src/main/java/com/davivienda/projectapp/service/TaskService.java:141-148 | dropping a card on another column stores the new status and clears the assignee, because the board sends no assignee |
| TaskService.DialogSaveUnassigns | src/main/java/com/davivienda/projectapp/service/TaskService.java:141-148 | saving the edit dialog unchanged also clears the assignee |
| TaskService.CreateTaskKeepsValid | src/main/java/com/davivienda/projectapp/service/TaskService.java:34-71 | a creation keeps every reference resolvable |
| TaskService.UpdateTaskKeepsValid | src/main/java/com/davivienda/projectapp/service/TaskService.java:117-158 | an update keeps every reference resolvable, since the new assignee and labels exist |
| TaskService.DeleteTaskKeepsValid | src/main/java/com/davivienda/projectapp/service/TaskService.java:160-173 | a deletion keeps every reference resolvable, since no row refers to a task |
| ProjectService.MemberNamesCover | src/main/java/com/davivienda/projectapp/service/ProjectService.java:143-146 | every membership row's user has their name in the member list |
| ProjectService.MemberNamesOrigin | src/main/java/com/davivienda/projectapp/service/ProjectService.java:143-146 | every name in the member list belongs to a membership row's user |
| ProjectService.ProjectResponseOf | src/main/java/com/davivienda/projectapp/service/ProjectService.java:129-151 | the response copies the project's fields and creator name; the task count is the number of its tasks (0 exactly when none belongs to it); the member count is the number of its membership rows, and the member list names those rows' users in row order |
| ProjectService.NewProject | src/main/java/com/davivienda/projectapp/service/ProjectService.java:40-47 | the inserted row takes the request's fields, ACTIVE when no status is given, and the caller as creator |
| ProjectService.CreateProjectAsWritten | src/main/java/com/davivienda/projectapp/service/ProjectService.java:31-64 | succeeds exactly for an existing caller holding ADMIN or USER; saves the project and the creator's OWNER row, yet answers with no tasks and no members |
| ProjectService.CreateProject | src/main/java/com/davivienda/projectapp/service/ProjectService.java:31-64 | the same effect and refusals, answering with the project as the database holds it after the save, and keeping integrity |
| ProjectService.GetProject | src/main/java/com/davivienda/projectapp/service/ProjectService.java:66-79 | succeeds exactly when the caller may view the project; answers that project's response |
| ProjectService.ProjectResponsesCover | src/main/java/com/davivienda/projectapp/service/ProjectService.java:87-89 | every listed project's response appears in the list |
| ProjectService.ProjectResponsesOrigin | src/main/java/com/davivienda/projectapp/service/ProjectService.java:87-89 | every response in the list is the response of a listed project |
| ProjectService.GetUserProjects | src/main/java/com/davivienda/projectapp/service/ProjectService.java:81-90 | the responses are those of the projects the caller holds a membership in, one per project, in table order; the helpers `JoinedBy`, `MemberNames`, `ProjectResponses` and `JoinedResponses` carry the stream mappings, and `ListsJoined` names the list property |
| ProjectService.UpdatedProject | src/main/java/com/davivienda/projectapp/service/ProjectService.java:104-108 | name and description are overwritten and the status only when given; id, creator and creation time are kept |
| ProjectService.UpdateProject | src/main/java/com/davivienda/projectapp/service/ProjectService.java:92-112 | succeeds exactly when the caller may edit the project; only that project's row changes, integrity is kept, and the answer is the stored result |
| ProjectService.WithoutProject | src/main/java/com/davivienda/projectapp/service/ProjectService.java:126 | deleting a project removes exactly it, its tasks and its memberships; every other row of those tables stays in its order with its number of copies; no other table is touched |
| ProjectService.DeleteProject | src/main/java/com/davivienda/projectapp/service/ProjectService.java:114-127 | succeeds exactly for the creator; then the project, its tasks and its memberships are gone and every other row stays as it was, in order |
| ProjectService.CreatorBecomesOwner | src/main/java/com/davivienda/projectapp/service/ProjectService.java:51-57 | after creation the creator is the project's OWNER and so may manage its members |
| ProjectService.CreateProjectKeepsValid | src/main/java/com/davivienda/projectapp/service/ProjectService.java:31-64 | creating a project keeps every reference resolvable and memberships unique |
| ProjectService.DeleteProjectKeepsValid | src/main/java/com/davivienda/projectapp/service/ProjectService.java:114-127 | deleting a project keeps every reference resolvable, since its tasks and memberships go with it |
| ProjectService.CreateProjectKeepsOwners | src/main/java/com/davivienda/projectapp/service/ProjectService.java:51-57 | if every creator is an OWNER of their project, creating a project keeps it so |
| ProjectService.UpdateProjectKeepsOwners | src/main/java/com/davivienda/projectapp/service/ProjectService.java:92-112 | updating a project keeps every creator an OWNER |
| ProjectService.DeleteProjectKeepsOwners | src/main/java/com/davivienda/projectapp/service/ProjectService.java:114-127 | deleting a project keeps every remaining creator an OWNER |
| ProjectService.NewProjectResponse | src/main/java/com/davivienda/projectapp/service/ProjectService.java:59-63 | a project just saved with its OWNER row, once read back, has no tasks and its creator as the one member |
| ProjectService.CreatedProjectCounts | src/main/java/com/davivienda/projectapp/service/ProjectService.java:59-63 | the corrected create response counts no tasks and one member, the caller |
| ProjectService.CreateResponseMissesOwner | src/main/java/com/davivienda/projectapp/service/ProjectService.java:59-63 | right after the as-written creation, reading the project back reports one member while the create response reported none |
| ProjectService.CreateThenGetAgree | src/main/java/com/davivienda/projectapp/service/ProjectService.java:59-63 | the corrected create response is exactly what reading the project back returns |
| ProjectService.DeleteProjectLeavesNoTrace | src/main/java/com/davivienda/projectapp/service/ProjectService.java:114-127 | after a deletion nothing refers to the project, and every other project keeps its tasks and memberships |
| ProjectService.DialogSaveKeepsProject | src/main/java/com/davivienda/projectapp/service/ProjectService.java:104-108 | saving the project dialog untouched writes the row back unchanged |
| AuthService.IssueToken | src/main/java/com/davivienda/projectapp/service/AuthService.java:110-123 | afterwards the user owns exactly one token, the new one expiring seven days after the given instant; other users' tokens and every other table are untouched |
| AuthService.InitialRole | src/main/java/com/davivienda/projectapp/service/AuthService.java:56-61 | the first account gets ADMIN, every later one USER |
| AuthService.NewUser | src/main/java/com/davivienda/projectapp/service/AuthService.java:63-68 | the saved account has the requested username and email, the encoded password and the single initial role |
| AuthService.Register | src/main/java/com/davivienda/projectapp/service/AuthService.java:39-73 | blank username, email or password are refused in that order with their messages; a taken username or email is refused; otherwise the account is saved and issued a token, and the answer carries the access token and the new refresh token |
| AuthService.Authenticate | src/main/java/com/davivienda/projectapp/service/UserDetailsServiceImpl.java:19-24 | the account is found by username, else by email, and accepted exactly when the password matches its stored encoding |
| AuthService.Login | src/main/java/com/davivienda/projectapp/service/AuthService.java:75-96 | blank fields are refused with their messages and wrong credentials with a bad-credentials error; otherwise the account gets a fresh token and an access token for its username |
| AuthService.RefreshAsWritten | src/main/java/com/davivienda/projectapp/service/AuthService.java:98-108 | an unknown token is refused as invalid and an expired one as expired; the database never changes; a live token yields an access token for its owner |
| AuthService.Refresh | src/main/java/com/davivienda/projectapp/service/AuthService.java:98-108 | the same answers, but an expired token's row is deleted for good |
| AuthService.IssueTokenKeepsValid | src/main/java/com/davivienda/projectapp/service/AuthService.java:110-123 | issuing a token to an existing user keeps every token's owner resolvable |
| AuthService.RegisterKeepsValid | src/main/java/com/davivienda/projectapp/service/AuthService.java:39-73 | registering keeps integrity: the new token's owner is the account just saved |
| AuthService.LoginKeepsValid | src/main/java/com/davivienda/projectapp/service/AuthService.java:75-96 | logging in keeps integrity |
| AuthService.RefreshKeepsValid | src/main/java/com/davivienda/projectapp/service/AuthService.java:98-108 | renewing keeps integrity |
| AuthService.RegisterThenLogin | src/main/java/com/davivienda/projectapp/service/AuthService.java:39-96 | an account just registered can log in at once with its username and password |
| AuthService.IssuedTokenLastsSevenDays | src/main/java/com/davivienda/projectapp/service/AuthService.java:37 | a token issued at an instant renews access until exactly seven days later and is refused after that |
| AuthService.ExpiredTokenSurvives | src/main/java/com/davivienda/projectapp/service/AuthService.java:102-104 | as written, an expired token stays stored and is refused as expired again on every later call |
| AuthService.ExpiredTokenIsRemoved | src/main/java/com/davivienda/projectapp/service/AuthService.java:102-104 | corrected, an expired token is gone and a later call refuses it as invalid |
| LabelService.LoadUser | src/main/java/com/davivienda/projectapp/service/LabelService.java:30-31 | a missing caller is refused with "Usuario no encontrado" |
| LabelService.CreateLabel | src/main/java/com/davivienda/projectapp/service/LabelService.java:28-45 | any existing caller may create a label; exactly one row with the request's name and colour is appended |
| LabelService.GetLabel | src/main/java/com/davivienda/projectapp/service/LabelService.java:47-56 | any existing caller reads the label with the given id; a missing label is refused |
| LabelService.GetAllLabels | src/main/java/com/davivienda/projectapp/service/LabelService.java:58-67 | any existing caller gets the whole catalogue |
| LabelService.GetProjectLabels | src/main/java/com/davivienda/projectapp/service/LabelService.java:69-85 | a caller who may view the project gets the whole catalogue, not only the project's labels |
| LabelService.UpdateLabel | src/main/java/com/davivienda/projectapp/service/LabelService.java:87-103 | any existing caller may rename and recolour an existing label; its id is kept and no other row changes |
| LabelService.DeleteLabel | src/main/java/com/davivienda/projectapp/service/LabelService.java:105-117 | any existing caller may delete an existing label, unless a task still carries it, in which case the database refuses; on success only that label's rows go, and every other label stays in its order with its number of copies |
| LabelService.CreateThenGet | src/main/java/com/davivienda/projectapp/service/LabelService.java:28-56 | a label just created reads back as created |
| LabelService.UpdateThenGet | src/main/java/com/davivienda/projectapp/service/LabelService.java:87-103 | an edited label reads back with the new name and colour |
| LabelService.DeleteThenGet | src/main/java/com/davivienda/projectapp/service/LabelService.java:105-117 | a deleted label reads back as missing |
| LabelService.CreateLabelKeepsValid | src/main/java/com/davivienda/projectapp/service/LabelService.java:28-45 | creating a label keeps integrity |
| LabelService.UpdateLabelKeepsValid | src/main/java/com/davivienda/projectapp/service/LabelService.java:87-103 | editing a label keeps integrity, since ids are untouched |
| LabelService.DeleteLabelKeepsValid | src/main/java/com/davivienda/projectapp/service/LabelService.java:105-117 | deleting a label keeps integrity, since only a label no task carries can go |
| Sorting.Sort | frontend/hooks/use-project-filters.ts:67-100 | the result is a permutation of the input, ordered by the key in the chosen direction |
| Sorting.SortStable | frontend/hooks/use-project-filters.ts:67-100 | elements with equal keys keep their input order, as the language's sort guarantees |
| Sorting.SortedDistinct | frontend/components/task-filters.tsx:55-63 | the options are sorted, hold no duplicates, and are exactly the given names |

## Left out

- Transport, rendering and timing. HTTP, the parsing of a non-empty body (a reply is either its parsed body or no body at all, so a malformed body is not modelled), React re-rendering, effects' scheduling, toasts, spinners and `confirm()` prompts are not modelled. A confirmation is a boolean parameter, and an API call is the response it produced.
- Concurrency. Interleaved requests and two users acting at once are not modelled; each service call is atomic.
- The clock. `new Date()`, `Instant.now()` and timestamps the database layer sets on insert are integer parameters. The date buckets of both filter hooks take their bounds from a `Clock` record (local midnight, a week, month, quarter or year back or ahead), because calendar arithmetic and time zones are not modelled. Invalid or empty date strings, which JavaScript turns into `NaN`, are not modelled.
- Text. Case mapping is ASCII-only. JavaScript's `toLowerCase`/`toUpperCase` map every Unicode letter, and string order compares UTF-16 code units where the model compares characters. Java's `trim()` is modelled as removing characters up to U+0020, as Java does.
- TaskFilterPanel.UniqueLabels: the chips are ordered by `localeCompare`, a locale collation; the model orders names by character code instead, so "Feature" sorts before "bug" here, while a typical locale puts "bug" first. Collation tables are outside the model.
- Randomness and crypto. `UUID.randomUUID()`, the JWT issuer, the password encoder and the authentication manager's password check are parameters. Token values are assumed distinct only in the lemma that needs it (`AuthService.ExpiredTokenIsRemoved`).
- Generated ids. A new id is a parameter. It is assumed unused only where a lemma or `ProjectService.CreateProject` states so, as the database's sequence guarantees.
- Repository ordering. A `findBy…`, `findAll` or `findProjectsByUser` returns rows in table order. `findAllById` returns the found ids in request order, each once. JPA guarantees neither ordering.
- Null request fields. `register` and `login` reject a null username, email, password or username-or-email with the same message as a blank one, so modelling those fields as plain strings loses no case. The task, project and member services test only status, priority, assignee, due date, label ids and member role for null, and those fields are `Option`s. A null task title, project name, description or label name is stored as given by the services; plain strings cannot express it, so that case is not modelled.
- `SecurityContextHolder.setAuthentication` in `login`, and the account-status checks of the authentication manager, are not modelled.
- Unreachable branches. The "Error al crear el proyecto" reload failure and `createLabel`'s `user == null` check cannot happen after a successful save and lookup. The `orElseThrow()` of `login` is kept as `NoSuchElement`, which a valid database never reaches.
- `updateMemberRole` with a null role is not modelled; the role is always one of the five.
- `User.java`, `Role.java`, `RefreshToken.java` and the JPA entity mappings are not part of this model. Their shapes are taken from how the services use them. In particular, a task's label list stays null unless a non-empty id list was sent, because the builder does not apply field initialisers.
- Label deletion. Deleting a label that a task still carries is refused as a constraint violation: the task–label join table keeps its rows, since the label is the association's inverse side. The exact database error is not modelled.
- The task dialog's load of the label catalogue only feeds a display list, so it is not modelled. Form field edits are plain record updates and are not modelled either.
- API endpoints. The individual endpoint functions of `api.ts` are modelled by the headers they send and the shared response handling. Their URLs and bodies are not modelled.
- Reads need integrity. The response mappers follow foreign keys, which a database with enforced constraints always resolves. So the operations that build responses from stored rows require `Entities.Valid`, the invariant every mutating operation is proved to keep: `TaskService.GetTask`, `GetProjectTasks`, `GetUserTasks` and `UpdateTask`; `ProjectService.GetProject`, `GetUserProjects` and `UpdateProject`; `MemberService.GetProjectMembers`; and `AuthService.Refresh` and `RefreshAsWritten`.
- ProjectService.CreateProject: requires, besides `Valid`, that the generated id is unused, as the database's identity column guarantees. `CreateProjectAsWritten` has no such requirement.

## Findings

| source | as written | input that shows it | evidently intended | confidence | as-written member | corrected member |
|---|---|---|---|---|---|---|
| src/main/java/com/davivienda/projectapp/service/AuthService.java:98-108 | an expired refresh token is deleted and then `IllegalArgumentException` is thrown inside the same `@Transactional` method, so the rollback undoes the deletion and the token stays stored | a stored token whose expiry is before now: every call answers "Refresh token expirado" and the row never goes away | the expired token is removed, and later calls find no such token | medium (depends on Spring's default rollback on unchecked exceptions); not executed | AuthService.RefreshAsWritten, AuthService.ExpiredTokenSurvives | AuthService.Refresh, AuthService.ExpiredTokenIsRemoved |
| src/main/java/com/davivienda/projectapp/service/ProjectService.java:40-63 | the project is built with empty task and membership lists. `findById` after the save returns the same managed entity, whose membership list was never told about the OWNER row. So the response says `memberCount` 0 and `members` [] | any successful `createProject`: the response has no members, while an immediate `getProject` lists the creator | the response lists the creator as the one member, as reading the project back does | medium (depends on the persistence context returning the cached entity); not executed | ProjectService.CreateProjectAsWritten, ProjectService.CreateResponseMissesOwner | ProjectService.CreateProject, ProjectService.CreateThenGetAgree |
| frontend/lib/api.ts:94-104 | every 2xx reply is parsed with `response.json()`, including the replies of the void calls `deleteProject`, `deleteTask`, `deleteLabel` and `removeMember` (api.ts:167-172, 215-220, 256-261, 290-295) | the backend answers each of these deletes with 204 No Content and no body (ProjectController.java:83, TaskController.java:94, LabelController.java:94, ProjectMemberController.java:79). Parsing the empty body rejects, so the call throws after the server has deleted: the task and project dialogs never run `onSave`, and the members dialog reports that removing failed | a void call resolves on any 2xx without parsing, so a successful delete reaches `onSave` | high (the empty-body rejection is standard `fetch` behaviour); not executed | ApiClient.HandleResponse, ApiClient.NoContentReply, TaskDialog.DeleteAsWrittenNeverSaves, ProjectDialog.DeleteAsWrittenNeverSaves | ApiClient.HandleVoidResponse, TaskDialog.DeleteSavesOnNoContent, ProjectDialog.DeleteSavesOnNoContent |

=== FILE: api_client.dfy ===
/**
 * The browser API client: the headers each call sends and the shared response handling.
 * The transport is left out: a call is its endpoint plus headers, and a response is its
 * status code with an already-parsed body.
 */
module ApiClient {
  import opened Wrappers

  /** The browser state the client reads and writes: local storage and the current location. */
  datatype Browser = Browser(storage: map<string, string>, location: string)

  datatype Header = Header(name: string, value: string)

  const TokenKey := "token"
  const RefreshTokenKey := "refreshToken"
  const LoginPath := "/login"

  const JsonContentType := Header("Content-Type", "application/json")

  /** The stored access token, when one is stored and non-empty (an empty string is falsy). */
  function StoredToken(storage: map<string, string>): (r: Option<string>)
    ensures r.Some? <==> TokenKey in storage && storage[TokenKey] != ""
    ensures r.Some? ==> r.value == storage[TokenKey]
  {
    if TokenKey in storage && storage[TokenKey] != "" then Some(storage[TokenKey]) else None
  }

  /** The "Bearer" credential of section 2.1 of RFC 6750. */
  function Bearer(token: string): Header {
    Header("Authorization", "Bearer " + token)
  }

  predicate HasAuthorization(headers: seq<Header>) {
    exists i :: 0 <= i < |headers| && headers[i].name == "Authorization"
  }

  /** `getAuthHeaders()`: JSON content type, plus the bearer credential when a token is stored. */
  function AuthHeaders(storage: map<string, string>): (r: seq<Header>)
    ensures |r| >= 1 && r[0] == JsonContentType
    ensures HasAuthorization(r) <==> StoredToken(storage).Some?
    ensures StoredToken(storage).Some? ==> Bearer(storage[TokenKey]) in r
  {
    match StoredToken(storage)
    case None => [JsonContentType]
    case Some(token) =>
      var r := [JsonContentType, Bearer(token)];
      assert r[1].name == "Authorization";
      r
  }

  /** The client's endpoints, one per method of the API service. */
  datatype Endpoint =
    | Login | Register | Refresh
    | GetProjects | GetProject | CreateProject | UpdateProject | DeleteProject
    | GetProjectTasks | GetUserTasks | GetTask | CreateTask | UpdateTask | DeleteTask
    | GetLabels | GetProjectLabels | CreateLabel | UpdateLabel | DeleteLabel
    | GetProjectMembers | AddProjectMember | UpdateMemberRole | RemoveMember
  {
    /** The three authentication calls send only the JSON content type. */
    predicate IsPublic() {
      this == Login || this == Register || this == Refresh
    }
  }

  /** The headers a call to `e` sends with the browser's current storage. */
  function RequestHeaders(e: Endpoint, storage: map<string, string>): (r: seq<Header>)
    ensures |r| >= 1 && r[0] == JsonContentType
    ensures HasAuthorization(r) <==> !e.IsPublic() && StoredToken(storage).Some?
  {
    if e.IsPublic() then [JsonContentType] else AuthHeaders(storage)
  }

  /**
   * A response: its status code and its body, parsed as JSON into the caller's type. `None` is
   * an empty body, such as the backend's 204 No Content reply to a delete, which does not parse.
   */
  datatype Response<T> = Response(status: int, body: Option<T>) {
    /** `response.ok`: a status in the 200 range. */
    predicate Ok() {
      200 <= status <= 299
    }

    /** A successful response whose body parses. */
    predicate Delivered() {
      Ok() && body.Some?
    }
  }

  /** What a call throws: the error for a failed status, or the parse error of an empty body. */
  datatype HttpError = HttpError(status: int) | EmptyBody

  /** Local storage with both tokens removed. */
  function ClearTokens(storage: map<string, string>): (r: map<string, string>)
    ensures TokenKey !in r && RefreshTokenKey !in r
    ensures forall k :: k != TokenKey && k != RefreshTokenKey ==> (k in r <==> k in storage)
    ensures forall k :: k in r ==> r[k] == storage[k]
  {
    storage - {TokenKey, RefreshTokenKey}
  }

  /**
   * `handleResponse(response)` as written: on success the body is parsed, so a successful
   * response without a body still throws; otherwise an error, and on 401 the session is dropped.
   */
  function HandleResponse<T>(b: Browser, resp: Response<T>): (r: (Browser, Result<T, HttpError>))
    ensures r.1.Ok? <==> resp.Delivered()
    ensures resp.Delivered() ==> r.1 == Ok(resp.body.value)
    ensures resp.Ok() && resp.body.None? ==> r.1 == Err(EmptyBody)
    ensures !resp.Ok() ==> r.1 == Err(HttpError(resp.status))
    ensures !resp.Ok() && resp.status == 401 ==> r.0 == Browser(ClearTokens(b.storage), LoginPath)
    ensures resp.status != 401 ==> r.0 == b
  {
    if resp.Ok() then
      match resp.body
      case Some(v) => (b, Ok(v))
      case None => (b, Err(EmptyBody))
    else if resp.status == 401 then (Browser(ClearTokens(b.storage), LoginPath), Err(HttpError(resp.status)))
    else (b, Err(HttpError(resp.status)))
  }

  /**
   * The response handling a call without a result evidently needs: any successful status
   * resolves, with or without a body; failures are handled as `HandleResponse` handles them.
   */
  function HandleVoidResponse<T>(b: Browser, resp: Response<T>): (r: (Browser, Result<(), HttpError>))
    ensures r.1.Ok? <==> resp.Ok()
    ensures HandleResponse(b, resp).1.Ok? ==> r.1.Ok?
    ensures r.0 == HandleResponse(b, resp).0
    ensures !resp.Ok() ==> r.1 == Err(HttpError(resp.status))
  {
    if resp.Ok() then (b, Ok(()))
    else
      var (b', _) := HandleResponse(b, resp);
      (b', Err(HttpError(resp.status)))
  }

  /**
   * The backend answers every delete with 204 and no body: as written the call throws although
   * the delete happened, while the void handling resolves and leaves the browser alone.
   */
  lemma NoContentReply<T>(b: Browser, resp: Response<T>)
    requires resp.status == 204 && resp.body.None?
    ensures HandleResponse(b, resp) == (b, Err(EmptyBody))
    ensures HandleVoidResponse(b, resp) == (b, Ok(()))
  {
  }

  /** After a 401 no later call carries a credential, and a second 401 changes nothing more. */
  lemma UnauthorizedEndsSession<T>(b: Browser, resp: Response<T>, e: Endpoint)
    requires resp.status == 401
    ensures !HasAuthorization(RequestHeaders(e, HandleResponse(b, resp).0.storage))
    ensures HandleResponse(HandleResponse(b, resp).0, resp).0 == HandleResponse(b, resp).0
  {
    var after := HandleResponse(b, resp).0;
    assert StoredToken(after.storage).None?;
    assert ClearTokens(after.storage) == after.storage;
  }
}

=== FILE: auth_context.dfy ===
/**
 * The client's authentication context: a small state machine over the browser's stored
 * tokens, the `isAuthenticated` flag and the `loading` flag. API calls are given by their
 * responses and pass through the client's shared response handling.
 */
module AuthContext {
  import opened Wrappers
  import opened Wire
  import opened ApiClient

  datatype Session = Session(browser: Browser, isAuthenticated: bool, loading: bool)

  /** The provider's state before its mount effect has run. */
  function Initial(b: Browser): (s: Session)
    ensures s.loading && !s.isAuthenticated && s.browser == b
  {
    Session(b, false, true)
  }

  /** The mount effect: a stored (non-empty) token marks the session authenticated; loading ends. */
  function Mount(s: Session): (r: Session)
    ensures !r.loading && r.browser == s.browser
    ensures r.isAuthenticated <==> s.isAuthenticated || StoredToken(s.browser.storage).Some?
  {
    Session(s.browser, s.isAuthenticated || StoredToken(s.browser.storage).Some?, false)
  }

  /** Right after mounting, the session is authenticated exactly when a token is stored. */
  lemma MountFromInitial(b: Browser)
    ensures !Mount(Initial(b)).loading
    ensures Mount(Initial(b)).isAuthenticated <==> TokenKey in b.storage && b.storage[TokenKey] != ""
  {
  }

  /** What an asynchronous action did: the session afterwards and whether it resolved or threw. */
  datatype Outcome = Outcome(session: Session, result: Result<(), HttpError>)

  /** `login(credentials)` given the login call's response: store both tokens on success, rethrow otherwise. */
  function Login(s: Session, resp: Response<AuthResponse>): (r: Outcome)
    ensures r.result.Ok? <==> resp.Delivered()
    ensures resp.Delivered() ==> r.session.isAuthenticated && r.session.loading == s.loading
    ensures resp.Delivered() ==>
              r.session.browser.storage == s.browser.storage[TokenKey := resp.body.value.token][RefreshTokenKey := resp.body.value.refreshToken]
    ensures resp.Delivered() ==> r.session.browser.location == s.browser.location
    ensures resp.Ok() && resp.body.None? ==> r == Outcome(s, Err(EmptyBody))
    ensures !resp.Ok() ==> r.result == Err(HttpError(resp.status))
    ensures !resp.Ok() ==> r.session == s.(browser := HandleResponse(s.browser, resp).0)
  {
    var (b, res) := HandleResponse(s.browser, resp);
    match res
    case Err(e) => Outcome(s.(browser := b), Err(e))
    case Ok(tokens) =>
      var storage := b.storage[TokenKey := tokens.token][RefreshTokenKey := tokens.refreshToken];
      Outcome(Session(b.(storage := storage), true, s.loading), Ok(()))
  }

  /** A failed login keeps the flag, and keeps the stored tokens unless the failure was a 401. */
  lemma LoginFailureKeepsSession(s: Session, resp: Response<AuthResponse>)
    requires !resp.Ok()
    ensures Login(s, resp).session.isAuthenticated == s.isAuthenticated
    ensures resp.status != 401 ==> Login(s, resp).session == s
    ensures resp.status == 401 ==> Login(s, resp).session.browser.storage == ClearTokens(s.browser.storage)
  {
  }

  /** After a successful login the next API call carries the new access token as its credential. */
  lemma LoginAuthorizesLaterCalls(s: Session, resp: Response<AuthResponse>, e: Endpoint)
    requires resp.Delivered() && resp.body.value.token != "" && !e.IsPublic()
    ensures Bearer(resp.body.value.token) in RequestHeaders(e, Login(s, resp).session.browser.storage)
  {
    var storage := Login(s, resp).session.browser.storage;
    assert storage[TokenKey] == resp.body.value.token;
  }

  /** The credentials `register` logs in with: the email it registered and the same password. */
  function LoginAfterRegister(data: RegisterRequest): (req: AuthRequest)
    ensures req.usernameOrEmail == data.email && req.password == data.password
  {
    AuthRequest(data.email, data.password)
  }

  /**
   * `register(data)` given the register call's response and the follow-up login call's
   * response; `sent` is the login request, sent only after the registration succeeded.
   */
  datatype RegisterOutcome = RegisterOutcome(outcome: Outcome, sent: Option<AuthRequest>)

  function Register(s: Session, data: RegisterRequest, registered: Response<AuthResponse>, loggedIn: Response<AuthResponse>): (r: RegisterOutcome)
    ensures r.sent.Some? <==> registered.Delivered()
    ensures r.sent.Some? ==> r.sent.value == LoginAfterRegister(data)
    ensures !registered.Ok() ==> r.outcome == Outcome(s.(browser := HandleResponse(s.browser, registered).0), Err(HttpError(registered.status)))
    ensures registered.Ok() && registered.body.None? ==> r.outcome == Outcome(s, Err(EmptyBody))
    ensures registered.Delivered() ==> r.outcome == Login(s, loggedIn)
    ensures r.outcome.result.Ok? <==> registered.Delivered() && loggedIn.Delivered()
  {
    var (b, res) := HandleResponse(s.browser, registered);
    match res
    case Err(e) => RegisterOutcome(Outcome(s.(browser := b), Err(e)), None)
    case Ok(_) => RegisterOutcome(Login(s, loggedIn), Some(LoginAfterRegister(data)))
  }

  /** `logout()`: drop both tokens and the flag. */
  function Logout(s: Session): (r: Session)
    ensures !r.isAuthenticated && r.loading == s.loading
    ensures r.browser == Browser(ClearTokens(s.browser.storage), s.browser.location)
  {
    Session(Browser(ClearTokens(s.browser.storage), s.browser.location), false, s.loading)
  }

  /** Logging out twice is logging out once; a reload afterwards stays logged out. */
  lemma LogoutIdempotent(s: Session)
    ensures Logout(Logout(s)) == Logout(s)
    ensures !Mount(Logout(s)).isAuthenticated
  {
    assert ClearTokens(ClearTokens(s.browser.storage)) == ClearTokens(s.browser.storage);
  }

  /** Logging in and then out removes exactly the session's tokens from what was stored before. */
  lemma LoginThenLogout(s: Session, resp: Response<AuthResponse>)
    requires resp.Delivered()
    ensures Logout(Login(s, resp).session).browser.storage == ClearTokens(s.browser.storage)
  {
  }

  /** `useAuth()`: the provider's session, or an error outside any provider. */
  function UseAuth(provided: Option<Session>): (r: Result<Session, string>)
    ensures provided.Some? <==> r.Ok?
    ensures r.Ok? ==> r.value == provided.value
    ensures r.Err? ==> r.error == "useAuth must be used within an AuthProvider"
  {
    match provided
    case None => Err("useAuth must be used within an AuthProvider")
    case Some(s) => Ok(s)
  }
}

=== FILE: auth_guard.dfy ===
/** The route guard: what it renders and where it redirects, from the session flags and the path. */
module AuthGuard {
  import opened Wrappers

  const PublicRoutes: seq<string> := ["/login", "/register"]

  datatype View = Spinner | Children | Nothing

  predicate IsPublic(path: string) {
    path in PublicRoutes
  }

  /** The effect's navigation: none while loading; to the login page or the dashboard when on the wrong side. */
  function Redirect(loading: bool, isAuthenticated: bool, path: string): (r: Option<string>)
    ensures loading ==> r == None
    ensures !loading && !isAuthenticated && !IsPublic(path) ==> r == Some("/login")
    ensures !loading && isAuthenticated && IsPublic(path) ==> r == Some("/dashboard")
    ensures r.None? <==> loading || (isAuthenticated != IsPublic(path))
  {
    if loading then None
    else if !isAuthenticated && !IsPublic(path) then Some("/login")
    else if isAuthenticated && IsPublic(path) then Some("/dashboard")
    else None
  }

  /** What the guard renders. */
  function Render(loading: bool, isAuthenticated: bool, path: string): (r: View)
    ensures r == Spinner <==> loading
    ensures r == Children <==> !loading && (isAuthenticated || path == "/login" || path == "/register")
  {
    if loading then Spinner
    else if isAuthenticated || IsPublic(path) then Children
    else Nothing
  }

  /**
   * Nobody is left on a blank page: rendering nothing always comes with a redirect to the
   * login page, and every redirect lands on a path the guard renders without redirecting again.
   */
  lemma GuardSettles(loading: bool, isAuthenticated: bool, path: string)
    ensures Render(loading, isAuthenticated, path) == Nothing ==> Redirect(loading, isAuthenticated, path) == Some("/login")
    ensures Redirect(loading, isAuthenticated, path).Some? ==>
              var target := Redirect(loading, isAuthenticated, path).value;
              Render(loading, isAuthenticated, target) == Children && Redirect(loading, isAuthenticated, target) == None
  {
    assert IsPublic("/login");
    assert !IsPublic("/dashboard");
  }
}

=== FILE: auth_service.dfy ===
/**
 * Registration, login and refresh-token renewal. The password encoder, the access-token
 * issuer and the random token generator are outside the model: the encoder and the issuer
 * are function parameters, a generated token value is a plain parameter.
 */
module AuthService {
  import opened Wrappers
  import opened Seqs
  import opened Wire
  import opened Entities
  import opened Text

  /** How long a refresh token lasts: seven days, in milliseconds. */
  const RefreshTokenDurationMs := 7 * 24 * 60 * 60 * 1000

  /**
   * The collaborators the service calls: `encode` and `matches` are the password encoder's
   * two operations, `accessToken` issues the signed access token for a username.
   */
  datatype Oracles = Oracles(encode: string -> string, matches: (string, string) -> bool, accessToken: string -> string)

  /** The test "belongs to user `userId`" on token rows. */
  function OwnedBy(userId: int): RefreshToken -> bool {
    (k: RefreshToken) => k.userId == userId
  }

  /** The test "belongs to another user than `userId`" on token rows. */
  function NotOwnedBy(userId: int): RefreshToken -> bool {
    (k: RefreshToken) => k.userId != userId
  }

  /**
   * `createRefreshToken`: every token of the user is deleted and one new token, valid for
   * seven days from `now`, is stored; `value` is the generated token.
   */
  function IssueToken(db: Db, userId: int, value: string, now: int): (r: Db)
    ensures r == db.(refreshTokens := r.refreshTokens)
    ensures Filter(r.refreshTokens, OwnedBy(userId)) == [RefreshToken(userId, value, now + RefreshTokenDurationMs)]
    ensures forall k: RefreshToken :: k.userId != userId ==> (k in r.refreshTokens <==> k in db.refreshTokens)
    ensures RefreshToken(userId, value, now + RefreshTokenDurationMs) in r.refreshTokens
  {
    var kept := Filter(db.refreshTokens, NotOwnedBy(userId));
    var issued := RefreshToken(userId, value, now + RefreshTokenDurationMs);
    FilterMembers(db.refreshTokens, NotOwnedBy(userId));
    FilterConcat(kept, [issued], OwnedBy(userId));
    forall i | 0 <= i < |kept| ensures !OwnedBy(userId)(kept[i]) {
      assert kept[i] in kept;
    }
    FilterKeepsNone(kept, OwnedBy(userId));
    assert Filter([issued], OwnedBy(userId)) == [issued] by {
      assert [issued][1..] == [];
    }
    db.(refreshTokens := kept + [issued])
  }

  /** The role a new account gets: ADMIN for the very first account, USER for every later one. */
  function InitialRole(db: Db): (name: string)
    ensures name == "ADMIN" <==> db.users == []
    ensures name == "ADMIN" || name == "USER"
  {
    if |db.users| == 0 then "ADMIN" else "USER"
  }

  /** The account row `register` saves; `id` is the generated id. */
  function NewUser(db: Db, req: RegisterRequest, o: Oracles, id: int): (u: User)
    ensures u.id == id && u.username == req.username && u.email == req.email
    ensures u.password == o.encode(req.password) && u.roles == {InitialRole(db)}
  {
    User(id, req.username, req.email, o.encode(req.password), {InitialRole(db)})
  }

  /**
   * `register`: the three fields must be non-blank, username and email unused; the account
   * is saved with its role (created in the role table if missing) and a fresh refresh token.
   * `id` is the generated user id, `value` the generated refresh token, `now` the instant.
   */
  function Register(db: Db, req: RegisterRequest, o: Oracles, id: int, value: string, now: int): (r: Step<AuthResponse>)
    ensures r.result.Err? ==> r.db == db
    ensures JavaBlank(req.username) ==> r.result == Err(Rejected("Username no puede estar vacío"))
    ensures !JavaBlank(req.username) && JavaBlank(req.email) ==> r.result == Err(Rejected("Email no puede estar vacío"))
    ensures !JavaBlank(req.username) && !JavaBlank(req.email) && JavaBlank(req.password) ==>
              r.result == Err(Rejected("Password no puede estar vacío"))
    ensures r.result.Ok? <==> !JavaBlank(req.username) && !JavaBlank(req.email) && !JavaBlank(req.password)
                              && UserByUsername(db, req.username).None? && UserByEmail(db, req.email).None?
    ensures !JavaBlank(req.username) && !JavaBlank(req.email) && !JavaBlank(req.password) && !r.result.Ok? ==>
              r.result == Err(Rejected("Usuario o email ya existe"))
    ensures r.result.Ok? ==>
              var u := NewUser(db, req, o, id);
              && r.db == IssueToken(db.(users := db.users + [u], roles := db.roles + u.roles), id, value, now)
              && r.result.value == AuthResponse(o.accessToken(req.username), value)
  {
    if JavaBlank(req.username) then Fail(db, "Username no puede estar vacío")
    else if JavaBlank(req.email) then Fail(db, "Email no puede estar vacío")
    else if JavaBlank(req.password) then Fail(db, "Password no puede estar vacío")
    else if UserByUsername(db, req.username).Some? || UserByEmail(db, req.email).Some? then Fail(db, "Usuario o email ya existe")
    else
      var u := NewUser(db, req, o, id);
      var saved := db.(users := db.users + [u], roles := db.roles + u.roles);
      Step(IssueToken(saved, id, value, now), Ok(AuthResponse(o.accessToken(req.username), value)))
  }

  /**
   * The authentication manager: the account is looked up by username, else by email, and
   * the presented password must match its stored encoding.
   */
  function Authenticate(db: Db, usernameOrEmail: string, password: string, o: Oracles): (r: Option<User>)
    ensures r.Some? ==> r.value in db.users && o.matches(password, r.value.password)
    ensures r.Some? ==> r.value.username == usernameOrEmail || r.value.email == usernameOrEmail
    ensures UserByUsername(db, usernameOrEmail).Some? ==>
              (r.Some? <==> o.matches(password, UserByUsername(db, usernameOrEmail).value.password))
    ensures UserByUsername(db, usernameOrEmail).None? && UserByEmail(db, usernameOrEmail).Some? ==>
              (r.Some? <==> o.matches(password, UserByEmail(db, usernameOrEmail).value.password))
    ensures UserByUsername(db, usernameOrEmail).None? && UserByEmail(db, usernameOrEmail).None? ==> r.None?
  {
    var found := match UserByUsername(db, usernameOrEmail)
      case Some(u) => Some(u)
      case None => UserByEmail(db, usernameOrEmail);
    if found.Some? && o.matches(password, found.value.password) then found else None
  }

  /**
   * `login`: both fields must be non-blank and the credentials accepted; the account is then
   * reloaded by its username and issued a fresh refresh token.
   */
  function Login(db: Db, req: AuthRequest, o: Oracles, value: string, now: int): (r: Step<AuthResponse>)
    ensures r.result.Err? ==> r.db == db
    ensures JavaBlank(req.usernameOrEmail) ==> r.result == Err(Rejected("Username o email no puede estar vacío"))
    ensures !JavaBlank(req.usernameOrEmail) && JavaBlank(req.password) ==> r.result == Err(Rejected("Password no puede estar vacío"))
    ensures !JavaBlank(req.usernameOrEmail) && !JavaBlank(req.password) && Authenticate(db, req.usernameOrEmail, req.password, o).None? ==>
              r.result == Err(BadCredentials)
    ensures r.result.Ok? <==> !JavaBlank(req.usernameOrEmail) && !JavaBlank(req.password)
                              && Authenticate(db, req.usernameOrEmail, req.password, o).Some?
    ensures r.result.Ok? ==>
              var name := Authenticate(db, req.usernameOrEmail, req.password, o).value.username;
              && r.db == IssueToken(db, UserByUsername(db, name).value.id, value, now)
              && r.result.value == AuthResponse(o.accessToken(name), value)
  {
    if JavaBlank(req.usernameOrEmail) then Fail(db, "Username o email no puede estar vacío")
    else if JavaBlank(req.password) then Fail(db, "Password no puede estar vacío")
    else
      match Authenticate(db, req.usernameOrEmail, req.password, o)
      case None => Step(db, Err(BadCredentials))
      case Some(a) =>
        match UserByUsername(db, a.username)
        case None => Step(db, Err(NoSuchElement))
        case Some(u) => Step(IssueToken(db, u.id, value, now), Ok(AuthResponse(o.accessToken(a.username), value)))
  }

  /** `expiryDate.isBefore(now)`. */
  predicate Expired(k: RefreshToken, now: int) {
    k.expiry < now
  }

  /**
   * `refreshToken` as written: an unknown token is rejected; an expired one is deleted and
   * rejected, but the exception rolls the transaction back, so the deletion never lands.
   */
  function RefreshAsWritten(db: Db, value: string, o: Oracles, now: int): (r: Step<AuthResponse>)
    requires Valid(db)
    ensures r.db == db
    ensures TokenByValue(db, value).None? ==> r.result == Err(Rejected("Refresh token inválido"))
    ensures TokenByValue(db, value).Some? && Expired(TokenByValue(db, value).value, now) ==>
              r.result == Err(Rejected("Refresh token expirado"))
    ensures r.result.Ok? <==> TokenByValue(db, value).Some? && !Expired(TokenByValue(db, value).value, now)
    ensures r.result.Ok? ==>
              r.result.value == AuthResponse(o.accessToken(UserById(db, TokenByValue(db, value).value.userId).value.username), value)
  {
    match TokenByValue(db, value)
    case None => Fail(db, "Refresh token inválido")
    case Some(k) =>
      if Expired(k, now) then Fail(db, "Refresh token expirado")
      else
        assert HasUser(db, k.userId);
        Step(db, Ok(AuthResponse(o.accessToken(UserById(db, k.userId).value.username), value)))
  }

  /** The test "is not the row `k`" on token rows. */
  function Other(k: RefreshToken): RefreshToken -> bool {
    (x: RefreshToken) => x != k
  }

  /**
   * `refreshToken` as evidently intended: an expired token is deleted for good and the call
   * rejected; a live one yields a new access token for its owner and is returned unchanged.
   */
  function Refresh(db: Db, value: string, o: Oracles, now: int): (r: Step<AuthResponse>)
    requires Valid(db)
    ensures TokenByValue(db, value).None? ==> r == Step(db, Err(Rejected("Refresh token inválido")))
    ensures TokenByValue(db, value).Some? && Expired(TokenByValue(db, value).value, now) ==>
              && r.result == Err(Rejected("Refresh token expirado"))
              && r.db == db.(refreshTokens := Filter(db.refreshTokens, Other(TokenByValue(db, value).value)))
    ensures r.result.Ok? <==> TokenByValue(db, value).Some? && !Expired(TokenByValue(db, value).value, now)
    ensures r.result.Ok? ==> r.db == db
    ensures r.result.Ok? ==>
              r.result.value == AuthResponse(o.accessToken(UserById(db, TokenByValue(db, value).value.userId).value.username), value)
  {
    match TokenByValue(db, value)
    case None => Fail(db, "Refresh token inválido")
    case Some(k) =>
      if Expired(k, now) then Step(db.(refreshTokens := Filter(db.refreshTokens, Other(k))), Err(Rejected("Refresh token expirado")))
      else
        assert HasUser(db, k.userId);
        Step(db, Ok(AuthResponse(o.accessToken(UserById(db, k.userId).value.username), value)))
  }

  /** Issuing a token to an existing user keeps the database's integrity. */
  lemma IssueTokenKeepsValid(db: Db, userId: int, value: string, now: int)
    requires Valid(db) && HasUser(db, userId)
    ensures Valid(IssueToken(db, userId, value, now))
  {
    var after := IssueToken(db, userId, value, now);
    forall k | k in after.refreshTokens ensures HasUser(after, k.userId) {
      if k.userId != userId {
        assert k in db.refreshTokens;
      }
    }
  }

  /** Registering keeps the database's integrity: the token's owner is the account just saved. */
  lemma RegisterKeepsValid(db: Db, req: RegisterRequest, o: Oracles, id: int, value: string, now: int)
    requires Valid(db)
    ensures Valid(Register(db, req, o, id, value, now).db)
  {
    if Register(db, req, o, id, value, now).result.Ok? {
      var u := NewUser(db, req, o, id);
      var saved := db.(users := db.users + [u], roles := db.roles + u.roles);
      forall x | HasUser(db, x) ensures HasUser(saved, x) {
        var w :| w in db.users && w.id == x;
        assert w in saved.users;
      }
      assert u in saved.users;
      assert Valid(saved);
      IssueTokenKeepsValid(saved, id, value, now);
    }
  }

  /** Logging in keeps the database's integrity. */
  lemma LoginKeepsValid(db: Db, req: AuthRequest, o: Oracles, value: string, now: int)
    requires Valid(db)
    ensures Valid(Login(db, req, o, value, now).db)
  {
    var r := Login(db, req, o, value, now);
    if r.result.Ok? {
      var name := Authenticate(db, req.usernameOrEmail, req.password, o).value.username;
      IssueTokenKeepsValid(db, UserByUsername(db, name).value.id, value, now);
    }
  }

  /** Refreshing keeps the database's integrity: at most one token row goes. */
  lemma RefreshKeepsValid(db: Db, value: string, o: Oracles, now: int)
    requires Valid(db)
    ensures Valid(Refresh(db, value, o, now).db)
  {
    var r := Refresh(db, value, o, now);
    if TokenByValue(db, value).Some? {
      FilterMembers(db.refreshTokens, Other(TokenByValue(db, value).value));
    }
  }

  /** The account a successful registration saves can log in at once with its username and password. */
  lemma RegisterThenLogin(db: Db, req: RegisterRequest, o: Oracles, id: int, value: string, now: int, value2: string, later: int)
    requires Register(db, req, o, id, value, now).result.Ok?
    requires o.matches(req.password, o.encode(req.password))
    ensures var after := Register(db, req, o, id, value, now).db;
            var login := Login(after, AuthRequest(req.username, req.password), o, value2, later);
            login.result == Ok(AuthResponse(o.accessToken(req.username), value2))
  {
    var u := NewUser(db, req, o, id);
    var after := Register(db, req, o, id, value, now).db;
    FirstAppend(db.users, [u], (x: User) => x.username == req.username);
    assert UserByUsername(after, req.username) == Some(u);
  }

  /**
   * A refresh token issued at `now` renews the access token until exactly seven days later
   * and is rejected as expired after that, provided the generated value was not in use.
   */
  lemma IssuedTokenLastsSevenDays(db: Db, userId: int, value: string, now: int, o: Oracles, later: int)
    requires Valid(db) && HasUser(db, userId)
    requires forall k :: k in db.refreshTokens ==> k.token != value
    ensures var after := IssueToken(db, userId, value, now);
            && Valid(after)
            && TokenByValue(after, value) == Some(RefreshToken(userId, value, now + RefreshTokenDurationMs))
            && (Refresh(after, value, o, later).result.Ok? <==> later <= now + RefreshTokenDurationMs)
            && RefreshAsWritten(after, value, o, later).result.Ok? == Refresh(after, value, o, later).result.Ok?
  {
    IssueTokenKeepsValid(db, userId, value, now);
    var kept := Filter(db.refreshTokens, NotOwnedBy(userId));
    var issued := RefreshToken(userId, value, now + RefreshTokenDurationMs);
    FirstAppend(kept, [issued], (k: RefreshToken) => k.token == value);
  }

  /**
   * As written, an expired token is never removed: it is rejected as expired again on every
   * later call, instead of being gone.
   */
  lemma ExpiredTokenSurvives(db: Db, value: string, o: Oracles, now: int, later: int)
    requires Valid(db)
    requires TokenByValue(db, value).Some? && Expired(TokenByValue(db, value).value, now) && now <= later
    ensures var after := RefreshAsWritten(db, value, o, now).db;
            && TokenByValue(after, value) == TokenByValue(db, value)
            && RefreshAsWritten(after, value, o, later).result == Err(Rejected("Refresh token expirado"))
  {
  }

  /**
   * Corrected, an expired token is deleted: when token values are unique, as generated
   * random values are, a later call no longer finds it and rejects it as invalid.
   */
  lemma ExpiredTokenIsRemoved(db: Db, value: string, o: Oracles, now: int, later: int)
    requires Valid(db)
    requires forall a, b :: a in db.refreshTokens && b in db.refreshTokens && a.token == b.token ==> a == b
    requires TokenByValue(db, value).Some? && Expired(TokenByValue(db, value).value, now)
    ensures var after := Refresh(db, value, o, now).db;
            && Valid(after)
            && TokenByValue(after, value).None?
            && Refresh(after, value, o, later).result == Err(Rejected("Refresh token inválido"))
  {
    RefreshKeepsValid(db, value, o, now);
    var k := TokenByValue(db, value).value;
    FilterMembers(db.refreshTokens, Other(k));
  }
}

=== FILE: entities.dfy ===
/**
 * The backend's persistent state. Each JPA repository is a table, held as a sequence of rows
 * in table order; a repository's `findBy…` is the first row that matches. Database-generated
 * ids and `@PrePersist` timestamps are parameters of the operations that create rows.
 */
module Entities {
  import opened Wrappers
  import opened Seqs
  import opened Wire

  /** An account; `roles` holds the names of its global roles ("ADMIN", "USER"). */
  datatype User = User(id: int, username: string, email: string, password: string, roles: set<string>)

  /** A project; `createdBy` is the creator's user id. */
  datatype Project = Project(id: int, name: string, description: string, status: ProjectStatus, createdBy: int, createdAt: int)

  /**
   * A task. `assignedTo` and `createdBy` are user ids and `labels` the ids of its labels; the
   * entity's builder leaves the label list null unless labels are set, hence the `Option`.
   */
  datatype Task = Task(
    id: int,
    title: string,
    description: string,
    status: TaskStatus,
    priority: TaskPriority,
    assignedTo: Option<int>,
    projectId: int,
    createdBy: int,
    createdAt: int,
    dueDate: Option<int>,
    labels: Option<seq<int>>)

  /** A row of the user–project join entity. */
  datatype Membership = Membership(userId: int, projectId: int, role: ProjectRole, joinedAt: int)

  /** A refresh token row; `expiry` is an instant in milliseconds. */
  datatype RefreshToken = RefreshToken(userId: int, token: string, expiry: int)

  /** Every table; `roles` is the role table, by name. */
  datatype Db = Db(
    users: seq<User>,
    roles: set<string>,
    projects: seq<Project>,
    tasks: seq<Task>,
    labels: seq<Label>,
    members: seq<Membership>,
    refreshTokens: seq<RefreshToken>)

  /**
   * Why an operation failed: an `IllegalArgumentException` with its message, the
   * authentication manager's rejection, an empty `Optional` unwrapped with `orElseThrow()`,
   * or a foreign-key violation raised by the database.
   */
  datatype Error = Rejected(message: string) | BadCredentials | NoSuchElement | ConstraintViolation

  /**
   * The state after an operation and its outcome. A failed operation's transaction is rolled
   * back, so every operation below leaves the state unchanged when it fails.
   */
  datatype Step<T> = Step(db: Db, result: Result<T, Error>)

  function Fail<T>(db: Db, message: string): (r: Step<T>)
    ensures r.db == db && r.result == Err(Rejected(message))
  {
    Step(db, Err(Rejected(message)))
  }

  ghost predicate HasUser(db: Db, id: int) {
    exists u :: u in db.users && u.id == id
  }

  ghost predicate HasProject(db: Db, id: int) {
    exists p :: p in db.projects && p.id == id
  }

  ghost predicate HasLabel(db: Db, id: int) {
    exists l :: l in db.labels && l.id == id
  }

  /** `userRepository.findByUsername`. */
  function UserByUsername(db: Db, username: string): (r: Option<User>)
    ensures r.Some? ==> r.value in db.users && r.value.username == username
    ensures r.None? <==> forall u :: u in db.users ==> u.username != username
  {
    First(db.users, (u: User) => u.username == username)
  }

  /** `userRepository.findByEmail`. */
  function UserByEmail(db: Db, email: string): (r: Option<User>)
    ensures r.Some? ==> r.value in db.users && r.value.email == email
    ensures r.None? <==> forall u :: u in db.users ==> u.email != email
  {
    First(db.users, (u: User) => u.email == email)
  }

  /** `userRepository.findById`. */
  function UserById(db: Db, id: int): (r: Option<User>)
    ensures r.Some? ==> r.value in db.users && r.value.id == id
    ensures r.Some? <==> HasUser(db, id)
  {
    First(db.users, (u: User) => u.id == id)
  }

  /** `projectRepository.findById`. */
  function ProjectById(db: Db, id: int): (r: Option<Project>)
    ensures r.Some? ==> r.value in db.projects && r.value.id == id
    ensures r.Some? <==> HasProject(db, id)
  {
    First(db.projects, (p: Project) => p.id == id)
  }

  /** `taskRepository.findById`. */
  function TaskById(db: Db, id: int): (r: Option<Task>)
    ensures r.Some? ==> r.value in db.tasks && r.value.id == id
    ensures r.None? <==> forall t :: t in db.tasks ==> t.id != id
  {
    First(db.tasks, (t: Task) => t.id == id)
  }

  /** `labelRepository.findById`. */
  function LabelById(db: Db, id: int): (r: Option<Label>)
    ensures r.Some? ==> r.value in db.labels && r.value.id == id
    ensures r.Some? <==> HasLabel(db, id)
  {
    First(db.labels, (l: Label) => l.id == id)
  }

  /** A membership row links `userId` and `projectId`. */
  predicate Links(m: Membership, userId: int, projectId: int) {
    m.userId == userId && m.projectId == projectId
  }

  /** The test "links `userId` and `projectId`" as a function value. */
  function LinkedTo(userId: int, projectId: int): Membership -> bool {
    (m: Membership) => Links(m, userId, projectId)
  }

  /** `userProjectRepository.findByUserAndProject`. */
  function MembershipOf(db: Db, userId: int, projectId: int): (r: Option<Membership>)
    ensures r.Some? ==> r.value in db.members && Links(r.value, userId, projectId)
    ensures r.None? <==> forall m :: m in db.members ==> !Links(m, userId, projectId)
  {
    First(db.members, LinkedTo(userId, projectId))
  }

  /** `refreshTokenRepository.findByToken`. */
  function TokenByValue(db: Db, token: string): (r: Option<RefreshToken>)
    ensures r.Some? ==> r.value in db.refreshTokens && r.value.token == token
    ensures r.None? <==> forall k :: k in db.refreshTokens ==> k.token != token
  {
    First(db.refreshTokens, (k: RefreshToken) => k.token == token)
  }

  /** The references a task holds resolve: its project, creator, assignee and labels exist. */
  ghost predicate TaskRefsResolve(db: Db, t: Task) {
    && HasProject(db, t.projectId)
    && HasUser(db, t.createdBy)
    && (t.assignedTo.Some? ==> HasUser(db, t.assignedTo.value))
    && (t.labels.Some? ==> forall l :: l in t.labels.value ==> HasLabel(db, l))
  }

  /** One membership per user and project: rows linking the same pair are the same row (the repository returns an `Optional`). */
  ghost predicate UniqueMemberships(members: seq<Membership>) {
    forall x, y :: x in members && y in members && Links(y, x.userId, x.projectId) ==> x == y
  }

  /**
   * The database's integrity: every foreign key (a project's creator; a task's project,
   * creator, assignee and labels; a membership's user and project; a token's user) refers to
   * an existing row, and memberships are unique per user and project.
   */
  ghost predicate Valid(db: Db) {
    && (forall p :: p in db.projects ==> HasUser(db, p.createdBy))
    && (forall t :: t in db.tasks ==> TaskRefsResolve(db, t))
    && (forall m :: m in db.members ==> HasUser(db, m.userId) && HasProject(db, m.projectId))
    && (forall k :: k in db.refreshTokens ==> HasUser(db, k.userId))
    && UniqueMemberships(db.members)
  }

  /** The user id is the users table's primary key: no two rows share it. */
  ghost predicate UserIdsAreKeys(db: Db) {
    forall a, b :: a in db.users && b in db.users && a.id == b.id ==> a == b
  }

  /** The user `username` and the project `projectId`, as most operations load them first. */
  function LoadUserAndProject(db: Db, username: string, projectId: int): (r: Result<(User, Project), Error>)
    ensures UserByUsername(db, username).None? ==> r == Err(Rejected("Usuario no encontrado"))
    ensures UserByUsername(db, username).Some? && ProjectById(db, projectId).None? ==> r == Err(Rejected("Proyecto no encontrado"))
    ensures r.Ok? <==> UserByUsername(db, username).Some? && ProjectById(db, projectId).Some?
    ensures r.Ok? ==> r.value == (UserByUsername(db, username).value, ProjectById(db, projectId).value)
  {
    match UserByUsername(db, username)
    case None => Err(Rejected("Usuario no encontrado"))
    case Some(u) =>
      match ProjectById(db, projectId)
      case None => Err(Rejected("Proyecto no encontrado"))
      case Some(p) => Ok((u, p))
  }
}

=== FILE: kanban.dfy ===
/**
 * The kanban board's own logic: its initial filter specification, the partition of the
 * visible tasks into one column per status, and the drag-and-drop status change (the
 * request it sends and the local update it applies once the request succeeds).
 */
module Kanban {
  import opened Wrappers
  import opened Seqs
  import opened Wire
  import opened TaskFilterPanel
  import opened TaskFilterHook

  /** The column ids, left to right; each is a task status. */
  const Columns: seq<TaskStatus> := [Todo, InProgress, Review, Done]

  /** The board's state: the loaded tasks, the task being dragged and the filter specification. */
  datatype Board = Board(tasks: seq<TaskResponse>, dragged: Option<TaskResponse>, filters: TaskFilters)

  /** The board opens with nothing filtered. */
  function InitialFilters(): (r: TaskFilters)
    ensures ActiveFiltersCount(r) == 0
    ensures forall tasks, c :: FilterTasks(tasks, r, c) == tasks
  {
    var r := TaskFilters("", "", "", [], "", "", false);
    assert r == ClearFilters();
    forall tasks, c ensures FilterTasks(tasks, r, c) == tasks {
      FilterTasksCleared(tasks, c);
    }
    r
  }

  /** The cards shown in column `status`, in the order of the visible tasks. */
  function ColumnTasks(visible: seq<TaskResponse>, status: TaskStatus): (r: seq<TaskResponse>)
    ensures IsSubsequence(r, visible)
    ensures forall i :: 0 <= i < |r| ==> r[i].status == status
    ensures forall i :: 0 <= i < |visible| && visible[i].status == status ==> visible[i] in r
  {
    FilterIsSubsequence(visible, (t: TaskResponse) => t.status == status);
    Filter(visible, (t: TaskResponse) => t.status == status)
  }

  /** The four columns together hold every visible card exactly once. */
  lemma ColumnsPartition(visible: seq<TaskResponse>)
    ensures multiset(ColumnTasks(visible, Todo)) + multiset(ColumnTasks(visible, InProgress))
            + multiset(ColumnTasks(visible, Review)) + multiset(ColumnTasks(visible, Done))
            == multiset(visible)
  {
    var a, b, c, d := ColumnTasks(visible, Todo), ColumnTasks(visible, InProgress), ColumnTasks(visible, Review), ColumnTasks(visible, Done);
    FilterMultiset(visible, (t: TaskResponse) => t.status == Todo);
    FilterMultiset(visible, (t: TaskResponse) => t.status == InProgress);
    FilterMultiset(visible, (t: TaskResponse) => t.status == Review);
    FilterMultiset(visible, (t: TaskResponse) => t.status == Done);
    forall x ensures (multiset(a) + multiset(b) + multiset(c) + multiset(d))[x] == multiset(visible)[x] {
    }
  }

  /** A card appears in a column iff the column's id is its status. */
  lemma ColumnsExclusive(visible: seq<TaskResponse>, i: nat, status: TaskStatus)
    requires i < |visible|
    ensures visible[i] in ColumnTasks(visible, status) <==> visible[i].status == status
    ensures status in Columns
  {
  }

  /** `tasks.find(t => t.id === id)`: the first loaded task with that id. */
  function FindTask(tasks: seq<TaskResponse>, id: int): (r: Option<TaskResponse>)
    ensures r.None? <==> forall i :: 0 <= i < |tasks| ==> tasks[i].id != id
    ensures r.Some? ==> exists i :: 0 <= i < |tasks| && tasks[i] == r.value && r.value.id == id
                                    && forall j :: 0 <= j < i ==> tasks[j].id != id
  {
    if tasks == [] then None
    else if tasks[0].id == id then Some(tasks[0])
    else
      var r := FindTask(tasks[1..], id);
      assert r.Some? ==> exists i :: 1 <= i < |tasks| && tasks[i] == r.value && r.value.id == id
                                     && forall j :: 0 <= j < i ==> tasks[j].id != id by {
        if r.Some? {
          var i :| 0 <= i < |tasks[1..]| && tasks[1..][i] == r.value && r.value.id == id
                   && forall j :: 0 <= j < i ==> tasks[1..][j].id != id;
          assert forall j :: 0 <= j < i + 1 ==> tasks[j].id != id by {
            forall j | 0 <= j < i + 1 ensures tasks[j].id != id {
              if j > 0 {
                assert tasks[j] == tasks[1..][j - 1];
              }
            }
          }
        }
      }
      assert r.None? ==> forall i :: 0 <= i < |tasks| ==> tasks[i].id != id by {
        if r.None? {
          forall i | 0 <= i < |tasks| ensures tasks[i].id != id {
            if i > 0 {
              assert tasks[i] == tasks[1..][i - 1];
            }
          }
        }
      }
      r
  }

  function LabelIds(labels: seq<Label>): (r: seq<int>)
    ensures |r| == |labels|
    ensures forall i :: 0 <= i < |r| ==> r[i] == labels[i].id
  {
    Map(labels, LabelId)
  }

  /**
   * The request a status change sends: the task's title, description, priority, due date and
   * label ids with the new status, and no assignee.
   */
  function StatusRequest(t: TaskResponse, status: TaskStatus, projectId: int): (req: TaskRequest)
    ensures req.status == Some(status) && req.projectId == projectId
    ensures req.title == t.title && req.description == t.description && req.priority == Some(t.priority)
    ensures req.dueDate == t.dueDate && req.assignedToId == None
    ensures req.labelIds.Some? && |req.labelIds.value| == |t.labels|
    ensures forall i :: 0 <= i < |t.labels| ==> req.labelIds.value[i] == t.labels[i].id
  {
    TaskRequest(t.title, t.description, Some(status), Some(t.priority), None, projectId, t.dueDate, Some(LabelIds(t.labels)))
  }

  /** What a status change did: the request it sent, if any, and the tasks afterwards. */
  datatype UpdateEffect = UpdateEffect(sent: Option<TaskRequest>, tasks: seq<TaskResponse>)

  /** `prev.map(t => t.id === id ? { ...t, status } : t)`. */
  function SetStatus(tasks: seq<TaskResponse>, id: int, status: TaskStatus): (r: seq<TaskResponse>)
    ensures |r| == |tasks|
    ensures forall i :: 0 <= i < |tasks| && tasks[i].id != id ==> r[i] == tasks[i]
    ensures forall i :: 0 <= i < |tasks| && tasks[i].id == id ==> r[i].status == status && r[i].(status := tasks[i].status) == tasks[i]
  {
    Map(tasks, (t: TaskResponse) => if t.id == id then t.(status := status) else t)
  }

  /**
   * `handleTaskUpdate(id, status)`. `ok` is the outcome of the update call: on failure the
   * error is logged and the tasks stay as they were.
   */
  function HandleTaskUpdate(tasks: seq<TaskResponse>, projectId: int, id: int, status: TaskStatus, ok: bool): (r: UpdateEffect)
    ensures FindTask(tasks, id).None? ==> r.sent.None? && r.tasks == tasks
    ensures FindTask(tasks, id).Some? ==> r.sent == Some(StatusRequest(FindTask(tasks, id).value, status, projectId))
    ensures !ok ==> r.tasks == tasks
    ensures ok && r.sent.Some? ==> r.tasks == SetStatus(tasks, id, status)
  {
    match FindTask(tasks, id)
    case None => UpdateEffect(None, tasks)
    case Some(t) => UpdateEffect(Some(StatusRequest(t, status, projectId)), if ok then SetStatus(tasks, id, status) else tasks)
  }

  /** `handleDrop(status)`: the dragged card moves when dropped on another column; the drag always ends. */
  function HandleDrop(b: Board, projectId: int, status: TaskStatus, ok: bool): (r: (Board, Option<TaskRequest>))
    ensures r.0.dragged.None? && r.0.filters == b.filters && |r.0.tasks| == |b.tasks|
    ensures r.1.Some? <==> b.dragged.Some? && b.dragged.value.status != status && FindTask(b.tasks, b.dragged.value.id).Some?
    ensures r.1.None? || !ok ==> r.0.tasks == b.tasks
    ensures r.1.Some? && ok ==> forall i :: 0 <= i < |b.tasks| && b.tasks[i].id == b.dragged.value.id ==> r.0.tasks[i].status == status
    ensures r.1.Some? && ok ==> forall i :: 0 <= i < |b.tasks| && b.tasks[i].id != b.dragged.value.id ==> r.0.tasks[i] == b.tasks[i]
    ensures r.1.Some? && ok ==> forall i :: 0 <= i < |b.tasks| ==> r.0.tasks[i].(status := b.tasks[i].status) == b.tasks[i]
    ensures r.1.Some? ==> r.1 == Some(StatusRequest(FindTask(b.tasks, b.dragged.value.id).value, status, projectId))
  {
    if b.dragged.Some? && b.dragged.value.status != status then
      var e := HandleTaskUpdate(b.tasks, projectId, b.dragged.value.id, status, ok);
      (b.(tasks := e.tasks, dragged := None), e.sent)
    else
      (b.(dragged := None), None)
  }

  /** A successful move takes every visible copy of the card to the target column and out of its old one. */
  lemma MovedCardChangesColumn(tasks: seq<TaskResponse>, f: TaskFilters, c: Clock, id: int, status: TaskStatus, other: TaskStatus)
    requires other != status
    ensures forall t :: t in ColumnTasks(FilterTasks(SetStatus(tasks, id, status), f, c), other) ==> t.id != id
  {
  }
}

=== FILE: label_service.dfy ===
/**
 * Label operations. Labels form one catalogue shared by every project; any existing user may
 * create, read, edit and delete them. A label's response carries exactly its row's fields, so
 * the row itself is the response.
 */
module LabelService {
  import opened Wrappers
  import opened Seqs
  import opened Wire
  import opened Entities
  import opened Permissions

  datatype LabelRequest = LabelRequest(name: string, color: string)

  /** The user `username`, the guard every label operation starts with. */
  function LoadUser(db: Db, username: string): (r: Result<User, Error>)
    ensures r.Ok? <==> UserByUsername(db, username).Some?
    ensures r.Ok? ==> r.value == UserByUsername(db, username).value
    ensures r.Err? ==> r.error == Rejected("Usuario no encontrado")
  {
    match UserByUsername(db, username)
    case None => Err(Rejected("Usuario no encontrado"))
    case Some(u) => Ok(u)
  }

  /** `createLabel`; `id` is the generated id. */
  function CreateLabel(db: Db, req: LabelRequest, username: string, id: int): (r: Step<Label>)
    ensures r.result.Err? ==> r.db == db && r.result.error == Rejected("Usuario no encontrado")
    ensures r.result.Ok? <==> UserByUsername(db, username).Some?
    ensures r.result.Ok? ==> r.result.value == Label(id, req.name, req.color)
    ensures r.result.Ok? ==> r.db == db.(labels := db.labels + [r.result.value])
  {
    match LoadUser(db, username)
    case Err(e) => Step(db, Err(e))
    case Ok(_) =>
      var l := Label(id, req.name, req.color);
      Step(db.(labels := db.labels + [l]), Ok(l))
  }

  /** `getLabel`. */
  function GetLabel(db: Db, labelId: int, username: string): (r: Result<Label, Error>)
    ensures UserByUsername(db, username).None? ==> r == Err(Rejected("Usuario no encontrado"))
    ensures UserByUsername(db, username).Some? && !HasLabel(db, labelId) ==> r == Err(Rejected("Label no encontrado"))
    ensures r.Ok? <==> UserByUsername(db, username).Some? && HasLabel(db, labelId)
    ensures r.Ok? ==> r.value in db.labels && r.value.id == labelId
  {
    match LoadUser(db, username)
    case Err(e) => Err(e)
    case Ok(_) =>
      match LabelById(db, labelId)
      case None => Err(Rejected("Label no encontrado"))
      case Some(l) => Ok(l)
  }

  /** `getAllLabels`: the whole catalogue. */
  function GetAllLabels(db: Db, username: string): (r: Result<seq<Label>, Error>)
    ensures r.Ok? <==> UserByUsername(db, username).Some?
    ensures r.Ok? ==> r.value == db.labels
  {
    match LoadUser(db, username)
    case Err(e) => Err(e)
    case Ok(_) => Ok(db.labels)
  }

  /** `getProjectLabels`: for anyone who may view the project, the whole catalogue again. */
  function GetProjectLabels(db: Db, projectId: int, username: string): (r: Result<seq<Label>, Error>)
    ensures r.Ok? <==> LoadUserAndProject(db, username, projectId).Ok?
                       && CanViewProject(db, UserByUsername(db, username).value, ProjectById(db, projectId).value)
    ensures LoadUserAndProject(db, username, projectId).Ok?
            && !CanViewProject(db, UserByUsername(db, username).value, ProjectById(db, projectId).value) ==>
              r == Err(Rejected("No tienes permisos para ver las labels de este proyecto"))
    ensures r.Ok? ==> r == GetAllLabels(db, username)
  {
    match LoadUserAndProject(db, username, projectId)
    case Err(e) => Err(e)
    case Ok((u, p)) =>
      if !CanViewProject(db, u, p) then Err(Rejected("No tienes permisos para ver las labels de este proyecto"))
      else Ok(db.labels)
  }

  /** The rows with id `id` are replaced by `l`. */
  function ReplaceLabel(id: int, l: Label): Label -> Label {
    (x: Label) => if x.id == id then l else x
  }

  /** `updateLabel`: name and colour overwritten, the id kept. */
  function UpdateLabel(db: Db, labelId: int, req: LabelRequest, username: string): (r: Step<Label>)
    ensures r.result.Err? ==> r.db == db
    ensures r.result.Ok? <==> UserByUsername(db, username).Some? && HasLabel(db, labelId)
    ensures UserByUsername(db, username).Some? && !HasLabel(db, labelId) ==> r.result == Err(Rejected("Label no encontrado"))
    ensures r.result.Ok? ==> r.result.value == Label(labelId, req.name, req.color)
    ensures r.result.Ok? ==> r.db == db.(labels := Map(db.labels, ReplaceLabel(labelId, r.result.value)))
  {
    match LoadUser(db, username)
    case Err(e) => Step(db, Err(e))
    case Ok(_) =>
      match LabelById(db, labelId)
      case None => Fail(db, "Label no encontrado")
      case Some(l) =>
        var l' := l.(name := req.name, color := req.color);
        Step(db.(labels := Map(db.labels, ReplaceLabel(labelId, l'))), Ok(l'))
  }

  /** Some task's label list holds `labelId`: a row of the task–label join table refers to the label. */
  predicate InUse(db: Db, labelId: int) {
    exists t :: t in db.tasks && t.labels.Some? && labelId in t.labels.value
  }

  /** The test "is not label `labelId`". */
  function OtherLabel(labelId: int): Label -> bool {
    (l: Label) => l.id != labelId
  }

  /**
   * `deleteLabel`. The label is the join table's inverse side, so deleting it leaves the
   * task–label rows in place and the database refuses a label some task still carries.
   */
  function DeleteLabel(db: Db, labelId: int, username: string): (r: Step<()>)
    ensures r.result.Err? ==> r.db == db
    ensures r.result.Ok? <==> UserByUsername(db, username).Some? && HasLabel(db, labelId) && !InUse(db, labelId)
    ensures UserByUsername(db, username).Some? && HasLabel(db, labelId) && InUse(db, labelId) ==>
              r.result == Err(ConstraintViolation)
    ensures r.result.Ok? ==> r.db == db.(labels := r.db.labels)
    ensures r.result.Ok? ==> forall l :: l in r.db.labels <==> l in db.labels && l.id != labelId
    ensures r.result.Ok? ==> KeepsOnly(r.db.labels, db.labels, OtherLabel(labelId))
  {
    match LoadUser(db, username)
    case Err(e) => Step(db, Err(e))
    case Ok(_) =>
      match LabelById(db, labelId)
      case None => Fail(db, "Label no encontrado")
      case Some(_) =>
        if InUse(db, labelId) then Step(db, Err(ConstraintViolation))
        else
          FilterMembers(db.labels, OtherLabel(labelId));
          FilterKeepsOnly(db.labels, OtherLabel(labelId));
          Step(db.(labels := Filter(db.labels, OtherLabel(labelId))), Ok(()))
  }

  /** A created label is found under its id, as created, when the generated id was new. */
  lemma CreateThenGet(db: Db, req: LabelRequest, username: string, id: int)
    requires LabelById(db, id).None?
    requires CreateLabel(db, req, username, id).result.Ok?
    ensures GetLabel(CreateLabel(db, req, username, id).db, id, username) == Ok(Label(id, req.name, req.color))
  {
    var l := Label(id, req.name, req.color);
    FirstAppend(db.labels, [l], (x: Label) => x.id == id);
  }

  /** An edited label reads back with the new name and colour. */
  lemma UpdateThenGet(db: Db, labelId: int, req: LabelRequest, username: string)
    requires UpdateLabel(db, labelId, req, username).result.Ok?
    ensures GetLabel(UpdateLabel(db, labelId, req, username).db, labelId, username) == Ok(Label(labelId, req.name, req.color))
  {
    var l' := Label(labelId, req.name, req.color);
    FirstMap(db.labels, ReplaceLabel(labelId, l'), (x: Label) => x.id == labelId);
  }

  /** A deleted label is gone: reading it back reports it missing. */
  lemma DeleteThenGet(db: Db, labelId: int, username: string)
    requires DeleteLabel(db, labelId, username).result.Ok?
    ensures GetLabel(DeleteLabel(db, labelId, username).db, labelId, username) == Err(Rejected("Label no encontrado"))
  {
  }

  /** Creating a label keeps the database's integrity. */
  lemma CreateLabelKeepsValid(db: Db, req: LabelRequest, username: string, id: int)
    requires Valid(db)
    ensures Valid(CreateLabel(db, req, username, id).db)
  {
    var created := CreateLabel(db, req, username, id).db;
    forall x | HasLabel(db, x) ensures HasLabel(created, x) {
      var l :| l in db.labels && l.id == x;
      assert l in created.labels;
    }
  }

  /** Editing a label keeps the database's integrity: ids are untouched. */
  lemma UpdateLabelKeepsValid(db: Db, labelId: int, req: LabelRequest, username: string)
    requires Valid(db)
    ensures Valid(UpdateLabel(db, labelId, req, username).db)
  {
    var updated := UpdateLabel(db, labelId, req, username).db;
    forall x | HasLabel(db, x) ensures HasLabel(updated, x) {
      var l :| l in db.labels && l.id == x;
      var i :| 0 <= i < |db.labels| && db.labels[i] == l;
      if updated != db {
        assert updated.labels[i].id == x;
      }
    }
  }

  /** Deleting a label keeps the database's integrity: it goes through only for a label no task carries. */
  lemma DeleteLabelKeepsValid(db: Db, labelId: int, username: string)
    requires Valid(db)
    ensures Valid(DeleteLabel(db, labelId, username).db)
  {
    var deleted := DeleteLabel(db, labelId, username);
    if deleted.result.Ok? {
      forall t | t in db.tasks ensures TaskRefsResolve(deleted.db, t) {
        assert TaskRefsResolve(db, t);
        if t.labels.Some? {
          forall x | x in t.labels.value ensures HasLabel(deleted.db, x) {
            var l :| l in db.labels && l.id == x;
            assert l in deleted.db.labels;
          }
        }
      }
    }
  }
}

=== FILE: member_service.dfy ===
/**
 * Project membership management: add a member, list members, change a member's role,
 * remove a member, and make sure a project's creator holds an OWNER membership.
 */
module MemberService {
  import opened Wrappers
  import opened Seqs
  import opened Wire
  import opened Entities
  import opened Permissions

  /** The add-member request; a missing role means TEAM_MEMBER. */
  datatype MemberRequest = MemberRequest(username: string, role: Option<ProjectRole>)

  const NoPermission := "No tienes permisos para gestionar miembros del proyecto"

  /** The response for membership `m` of user `u`. */
  function MemberResponse(u: User, m: Membership): (r: ProjectMemberResponse)
    ensures r.username == u.username && r.email == u.email && r.role == m.role && r.joinedAt == m.joinedAt
  {
    ProjectMemberResponse(u.username, u.email, m.role, m.joinedAt)
  }

  /** The caller `username` exists, project `projectId` exists, and the caller may manage its members. */
  ghost predicate Manages(db: Db, username: string, projectId: int) {
    && UserByUsername(db, username).Some?
    && ProjectById(db, projectId).Some?
    && CanManageProjectMembers(db, UserByUsername(db, username).value, ProjectById(db, projectId).value)
  }

  /** Every project's creator holds an OWNER membership of it. */
  ghost predicate CreatorsAreOwners(db: Db) {
    forall p :: p in db.projects ==> RoleInProject(db, p.createdBy, p.id) == Some(Owner)
  }

  /** `addMember`. */
  function AddMember(db: Db, projectId: int, req: MemberRequest, username: string, now: int): (r: Step<ProjectMemberResponse>)
    ensures r.result.Err? ==> r.db == db
    ensures r.result.Ok? <==> Manages(db, username, projectId) && UserByUsername(db, req.username).Some?
                              && RoleInProject(db, UserByUsername(db, req.username).value.id, projectId).None?
    ensures r.result.Ok? ==>
              var v := UserByUsername(db, req.username).value;
              var m := Membership(v.id, projectId, req.role.GetOr(TeamMember), now);
              r.db == db.(members := db.members + [m]) && r.result.value == MemberResponse(v, m)
    ensures LoadUserAndProject(db, username, projectId).Ok? && !Manages(db, username, projectId) ==> r.result == Err(Rejected(NoPermission))
    ensures Manages(db, username, projectId) && UserByUsername(db, req.username).None? ==> r.result == Err(Rejected("Usuario a agregar no encontrado"))
    ensures Manages(db, username, projectId) && UserByUsername(db, req.username).Some?
            && RoleInProject(db, UserByUsername(db, req.username).value.id, projectId).Some? ==>
              r.result == Err(Rejected("El usuario ya es miembro del proyecto"))
  {
    match LoadUserAndProject(db, username, projectId)
    case Err(e) => Step(db, Err(e))
    case Ok((u, p)) =>
      if !CanManageProjectMembers(db, u, p) then Fail(db, NoPermission)
      else match UserByUsername(db, req.username)
        case None => Fail(db, "Usuario a agregar no encontrado")
        case Some(v) =>
          if MembershipOf(db, v.id, p.id).Some? then Fail(db, "El usuario ya es miembro del proyecto")
          else
            var m := Membership(v.id, p.id, req.role.GetOr(TeamMember), now);
            Step(db.(members := db.members + [m]), Ok(MemberResponse(v, m)))
  }

  /** The membership rows of project `projectId`, in table order. */
  function RowsOf(members: seq<Membership>, projectId: int): (r: seq<Membership>)
    ensures forall m :: m in r <==> m in members && m.projectId == projectId
  {
    Filter(members, (m: Membership) => m.projectId == projectId)
  }

  /** The responses for rows whose users exist. */
  function MemberResponses(db: Db, rows: seq<Membership>): (r: seq<ProjectMemberResponse>)
    requires forall m :: m in rows ==> HasUser(db, m.userId)
    ensures |r| == |rows|
    ensures forall i :: 0 <= i < |rows| ==> r[i] == MemberResponse(UserById(db, rows[i].userId).value, rows[i])
  {
    if rows == [] then []
    else [MemberResponse(UserById(db, rows[0].userId).value, rows[0])] + MemberResponses(db, rows[1..])
  }

  /** `getProjectMembers`: every membership of the project, for anyone who may view it. */
  function GetProjectMembers(db: Db, projectId: int, username: string): (r: Result<seq<ProjectMemberResponse>, Error>)
    requires Valid(db)
    ensures r.Ok? <==> LoadUserAndProject(db, username, projectId).Ok?
                       && CanViewProject(db, UserByUsername(db, username).value, ProjectById(db, projectId).value)
    ensures r.Ok? ==> |r.value| == |RowsOf(db.members, projectId)|
    ensures r.Ok? ==> forall i :: 0 <= i < |r.value| ==>
              r.value[i].role == RowsOf(db.members, projectId)[i].role
              && r.value[i].joinedAt == RowsOf(db.members, projectId)[i].joinedAt
              && r.value[i].username == UserById(db, RowsOf(db.members, projectId)[i].userId).value.username
              && r.value[i].email == UserById(db, RowsOf(db.members, projectId)[i].userId).value.email
  {
    match LoadUserAndProject(db, username, projectId)
    case Err(e) => Err(e)
    case Ok((u, p)) =>
      if !CanViewProject(db, u, p) then Err(Rejected("No tienes permisos para ver los miembros de este proyecto"))
      else Ok(MemberResponses(db, RowsOf(db.members, projectId)))
  }

  /** The rows linking `userId` and `projectId` get role `role`; every other row is kept. */
  function WithRole(userId: int, projectId: int, role: ProjectRole): Membership -> Membership {
    (m: Membership) => if Links(m, userId, projectId) then m.(role := role) else m
  }

  /** The target of an update or removal: the member user and their membership, or why they cannot be one. */
  function LoadMember(db: Db, projectId: int, memberUsername: string): (r: Result<(User, Membership), Error>)
    ensures UserByUsername(db, memberUsername).None? ==> r == Err(Rejected("Miembro no encontrado"))
    ensures r.Ok? <==> UserByUsername(db, memberUsername).Some?
                       && MembershipOf(db, UserByUsername(db, memberUsername).value.id, projectId).Some?
    ensures r.Ok? ==> r.value.0 == UserByUsername(db, memberUsername).value
                      && r.value.1 == MembershipOf(db, r.value.0.id, projectId).value
    ensures UserByUsername(db, memberUsername).Some? && r.Err? ==> r == Err(Rejected("El usuario no es miembro del proyecto"))
  {
    match UserByUsername(db, memberUsername)
    case None => Err(Rejected("Miembro no encontrado"))
    case Some(v) =>
      match MembershipOf(db, v.id, projectId)
      case None => Err(Rejected("El usuario no es miembro del proyecto"))
      case Some(m) => Ok((v, m))
  }

  /** `updateMemberRole`. */
  function UpdateMemberRole(db: Db, projectId: int, memberUsername: string, newRole: ProjectRole, username: string): (r: Step<ProjectMemberResponse>)
    ensures r.result.Err? ==> r.db == db
    ensures r.result.Ok? <==> Manages(db, username, projectId) && LoadMember(db, projectId, memberUsername).Ok?
                              && LoadMember(db, projectId, memberUsername).value.1.role != Owner
    ensures r.result.Ok? ==>
              var (v, m) := LoadMember(db, projectId, memberUsername).value;
              r.db == db.(members := Map(db.members, WithRole(v.id, projectId, newRole)))
              && r.result.value == MemberResponse(v, m.(role := newRole))
    ensures Manages(db, username, projectId) && LoadMember(db, projectId, memberUsername).Ok?
            && LoadMember(db, projectId, memberUsername).value.1.role == Owner ==>
              r.result == Err(Rejected("No se puede cambiar el rol del propietario del proyecto"))
  {
    match LoadUserAndProject(db, username, projectId)
    case Err(e) => Step(db, Err(e))
    case Ok((u, p)) =>
      if !CanManageProjectMembers(db, u, p) then Fail(db, NoPermission)
      else match LoadMember(db, p.id, memberUsername)
        case Err(e) => Step(db, Err(e))
        case Ok((v, m)) =>
          if m.role == Owner then Fail(db, "No se puede cambiar el rol del propietario del proyecto")
          else Step(db.(members := Map(db.members, WithRole(v.id, p.id, newRole))), Ok(MemberResponse(v, m.(role := newRole))))
  }

  /** The test "does not link `userId` and `projectId`" as a function value. */
  function Unlinked(userId: int, projectId: int): Membership -> bool {
    (m: Membership) => !Links(m, userId, projectId)
  }

  /** `removeMember`. */
  function RemoveMember(db: Db, projectId: int, memberUsername: string, username: string): (r: Step<()>)
    ensures r.result.Err? ==> r.db == db
    ensures r.result.Ok? <==> Manages(db, username, projectId) && LoadMember(db, projectId, memberUsername).Ok?
                              && LoadMember(db, projectId, memberUsername).value.1.role != Owner
    ensures r.result.Ok? ==>
              r.db == db.(members := Filter(db.members, Unlinked(LoadMember(db, projectId, memberUsername).value.0.id, projectId)))
    ensures Manages(db, username, projectId) && LoadMember(db, projectId, memberUsername).Ok?
            && LoadMember(db, projectId, memberUsername).value.1.role == Owner ==>
              r.result == Err(Rejected("No se puede eliminar al propietario del proyecto"))
  {
    match LoadUserAndProject(db, username, projectId)
    case Err(e) => Step(db, Err(e))
    case Ok((u, p)) =>
      if !CanManageProjectMembers(db, u, p) then Fail(db, NoPermission)
      else match LoadMember(db, p.id, memberUsername)
        case Err(e) => Step(db, Err(e))
        case Ok((v, m)) =>
          if m.role == Owner then Fail(db, "No se puede eliminar al propietario del proyecto")
          else Step(db.(members := Filter(db.members, Unlinked(v.id, p.id))), Ok(()))
  }

  /** `ensureCreatorIsOwner`: only the creator may call it; adds their OWNER row when they have no membership. */
  function EnsureCreatorIsOwner(db: Db, projectId: int, username: string, now: int): (r: Step<ProjectMemberResponse>)
    ensures r.result.Err? ==> r.db == db
    ensures r.result.Ok? <==> LoadUserAndProject(db, username, projectId).Ok?
                              && ProjectById(db, projectId).value.createdBy == UserByUsername(db, username).value.id
    ensures LoadUserAndProject(db, username, projectId).Ok? && r.result.Err? ==>
              r.result == Err(Rejected("Solo el creador puede asegurarse como OWNER"))
    ensures r.result.Ok? ==>
              var u := UserByUsername(db, username).value;
              match MembershipOf(db, u.id, projectId)
              case None =>
                r.db == db.(members := db.members + [Membership(u.id, projectId, Owner, now)])
                && r.result.value == MemberResponse(u, Membership(u.id, projectId, Owner, now))
              case Some(m) => r.db == db && r.result.value == MemberResponse(u, m)
  {
    match LoadUserAndProject(db, username, projectId)
    case Err(e) => Step(db, Err(e))
    case Ok((u, p)) =>
      if p.createdBy != u.id then Fail(db, "Solo el creador puede asegurarse como OWNER")
      else match MembershipOf(db, u.id, p.id)
        case None =>
          var m := Membership(u.id, p.id, Owner, now);
          Step(db.(members := db.members + [m]), Ok(MemberResponse(u, m)))
        case Some(m) => Step(db, Ok(MemberResponse(u, m)))
  }

  /** After a successful add the user is a member with the requested role, or TEAM_MEMBER; a second identical add is refused. */
  lemma AddMemberThenMember(db: Db, projectId: int, req: MemberRequest, username: string, now: int, later: int)
    requires AddMember(db, projectId, req, username, now).result.Ok?
    ensures var after := AddMember(db, projectId, req, username, now).db;
            && RoleInProject(after, UserByUsername(db, req.username).value.id, projectId) == Some(req.role.GetOr(TeamMember))
            && AddMember(after, projectId, req, username, later).result == Err(Rejected("El usuario ya es miembro del proyecto"))
  {
    var v := UserByUsername(db, req.username).value;
    var u := UserByUsername(db, username).value;
    var m := Membership(v.id, projectId, req.role.GetOr(TeamMember), now);
    var after := AddMember(db, projectId, req, username, now).db;
    FirstAppend(db.members, [m], LinkedTo(v.id, projectId));
    FirstAppend(db.members, [m], LinkedTo(u.id, projectId));
    assert after.users == db.users && after.projects == db.projects;
    assert RoleInProject(after, u.id, projectId) == RoleInProject(db, u.id, projectId);
  }

  /** An OWNER membership is never changed by a role update nor removed. */
  lemma OwnersAreProtected(db: Db, projectId: int, memberUsername: string, newRole: ProjectRole, username: string)
    requires LoadMember(db, projectId, memberUsername).Ok? && LoadMember(db, projectId, memberUsername).value.1.role == Owner
    ensures UpdateMemberRole(db, projectId, memberUsername, newRole, username).db == db
    ensures RemoveMember(db, projectId, memberUsername, username).db == db
  {
  }

  /** Setting a pair's role gives that pair the role (if it had a membership) and leaves every other pair's role alone. */
  lemma SetRoleRoles(db: Db, userId: int, projectId: int, role: ProjectRole, otherUser: int, otherProject: int)
    ensures var after := db.(members := Map(db.members, WithRole(userId, projectId, role)));
            && (RoleInProject(db, userId, projectId).Some? ==> RoleInProject(after, userId, projectId) == Some(role))
            && (otherUser != userId || otherProject != projectId ==> RoleInProject(after, otherUser, otherProject) == RoleInProject(db, otherUser, otherProject))
  {
    var f := WithRole(userId, projectId, role);
    FirstMap(db.members, f, LinkedTo(userId, projectId));
    FirstMap(db.members, f, LinkedTo(otherUser, otherProject));
  }

  /** Dropping a pair's rows ends its membership and leaves every other pair's role alone. */
  lemma DropRowsRoles(db: Db, userId: int, projectId: int, otherUser: int, otherProject: int)
    ensures var after := db.(members := Filter(db.members, Unlinked(userId, projectId)));
            && RoleInProject(after, userId, projectId).None?
            && (otherUser != userId || otherProject != projectId ==> RoleInProject(after, otherUser, otherProject) == RoleInProject(db, otherUser, otherProject))
  {
    if otherUser != userId || otherProject != projectId {
      FirstFilter(db.members, Unlinked(userId, projectId), LinkedTo(otherUser, otherProject));
    }
  }

  /** Appending a row never changes the role of a pair that already had one, and gives a pair without one the row's role. */
  lemma AppendRowRoles(db: Db, m: Membership, otherUser: int, otherProject: int)
    ensures var after := db.(members := db.members + [m]);
            && (RoleInProject(db, otherUser, otherProject).Some? ==> RoleInProject(after, otherUser, otherProject) == RoleInProject(db, otherUser, otherProject))
            && (RoleInProject(db, otherUser, otherProject).None? && Links(m, otherUser, otherProject) ==> RoleInProject(after, otherUser, otherProject) == Some(m.role))
  {
    FirstAppend(db.members, [m], LinkedTo(otherUser, otherProject));
  }

  /** A successful role update gives the member exactly the new role, and every other pair keeps its role. */
  lemma UpdateMemberRoleEffect(db: Db, projectId: int, memberUsername: string, newRole: ProjectRole, username: string, userId: int, otherProject: int)
    requires UpdateMemberRole(db, projectId, memberUsername, newRole, username).result.Ok?
    ensures var after := UpdateMemberRole(db, projectId, memberUsername, newRole, username).db;
            var v := UserByUsername(db, memberUsername).value;
            && RoleInProject(after, v.id, projectId) == Some(newRole)
            && (userId != v.id || otherProject != projectId ==> RoleInProject(after, userId, otherProject) == RoleInProject(db, userId, otherProject))
  {
    var v := UserByUsername(db, memberUsername).value;
    SetRoleRoles(db, v.id, projectId, newRole, userId, otherProject);
  }

  /** A successful removal ends exactly that membership; every other pair keeps its role. */
  lemma RemoveMemberEffect(db: Db, projectId: int, memberUsername: string, username: string, userId: int, otherProject: int)
    requires RemoveMember(db, projectId, memberUsername, username).result.Ok?
    ensures var after := RemoveMember(db, projectId, memberUsername, username).db;
            var v := UserByUsername(db, memberUsername).value;
            && RoleInProject(after, v.id, projectId).None?
            && (userId != v.id || otherProject != projectId ==> RoleInProject(after, userId, otherProject) == RoleInProject(db, userId, otherProject))
  {
    var v := UserByUsername(db, memberUsername).value;
    DropRowsRoles(db, v.id, projectId, userId, otherProject);
  }

  /** Calling `ensureCreatorIsOwner` a second time changes nothing and answers with the same membership. */
  lemma EnsureCreatorIsOwnerIdempotent(db: Db, projectId: int, username: string, now: int, later: int)
    requires EnsureCreatorIsOwner(db, projectId, username, now).result.Ok?
    ensures var first := EnsureCreatorIsOwner(db, projectId, username, now);
            var second := EnsureCreatorIsOwner(first.db, projectId, username, later);
            second.db == first.db && second.result == first.result
  {
    var u := UserByUsername(db, username).value;
    var first := EnsureCreatorIsOwner(db, projectId, username, now);
    if MembershipOf(db, u.id, projectId).None? {
      FirstAppend(db.members, [Membership(u.id, projectId, Owner, now)], LinkedTo(u.id, projectId));
    }
    assert first.db.users == db.users && first.db.projects == db.projects;
  }

  /** After `ensureCreatorIsOwner` succeeds, the creator holds a membership, and an OWNER one if they had none. */
  lemma EnsureCreatorIsOwnerEffect(db: Db, projectId: int, username: string, now: int)
    requires EnsureCreatorIsOwner(db, projectId, username, now).result.Ok?
    ensures var u := UserByUsername(db, username).value;
            var after := EnsureCreatorIsOwner(db, projectId, username, now).db;
            && RoleInProject(after, u.id, projectId).Some?
            && (RoleInProject(db, u.id, projectId).None? ==> RoleInProject(after, u.id, projectId) == Some(Owner))
  {
    var u := UserByUsername(db, username).value;
    FirstAppend(db.members, [Membership(u.id, projectId, Owner, now)], LinkedTo(u.id, projectId));
  }

  /** Appending a row for a pair with no membership keeps memberships unique. */
  lemma AppendKeepsUnique(members: seq<Membership>, m: Membership)
    requires UniqueMemberships(members)
    requires forall x :: x in members ==> !Links(x, m.userId, m.projectId)
    ensures UniqueMemberships(members + [m])
  {
  }

  /** Setting a role keeps every row's references and keeps memberships unique. */
  lemma SetRoleKeepsValid(db: Db, userId: int, projectId: int, role: ProjectRole)
    requires Valid(db)
    ensures Valid(db.(members := Map(db.members, WithRole(userId, projectId, role))))
  {
    var after := Map(db.members, WithRole(userId, projectId, role));
    forall m | m in after ensures HasUser(db, m.userId) && HasProject(db, m.projectId) {
      var i :| 0 <= i < |after| && after[i] == m;
      assert db.members[i] in db.members;
    }
    SetRoleKeepsUnique(db.members, userId, projectId, role);
  }

  /** Setting a role changes no row's user or project, so no two rows come to link the same pair. */
  lemma SetRoleKeepsUnique(members: seq<Membership>, userId: int, projectId: int, role: ProjectRole)
    requires UniqueMemberships(members)
    ensures UniqueMemberships(Map(members, WithRole(userId, projectId, role)))
  {
    var after := Map(members, WithRole(userId, projectId, role));
    forall x, y | x in after && y in after && Links(y, x.userId, x.projectId) ensures x == y {
      var i :| 0 <= i < |after| && after[i] == x;
      var j :| 0 <= j < |after| && after[j] == y;
      assert members[i] in members && members[j] in members;
    }
  }

  /** Appending a row for an existing user and project that have no membership keeps integrity. */
  lemma AppendRowKeepsValid(db: Db, m: Membership)
    requires Valid(db) && HasUser(db, m.userId) && HasProject(db, m.projectId)
    requires MembershipOf(db, m.userId, m.projectId).None?
    ensures Valid(db.(members := db.members + [m]))
  {
    AppendKeepsUnique(db.members, m);
  }

  lemma AddMemberKeepsValid(db: Db, projectId: int, req: MemberRequest, username: string, now: int)
    requires Valid(db)
    ensures Valid(AddMember(db, projectId, req, username, now).db)
  {
    if AddMember(db, projectId, req, username, now).result.Ok? {
      var v := UserByUsername(db, req.username).value;
      AppendRowKeepsValid(db, Membership(v.id, projectId, req.role.GetOr(TeamMember), now));
    }
  }

  lemma UpdateMemberRoleKeepsValid(db: Db, projectId: int, memberUsername: string, newRole: ProjectRole, username: string)
    requires Valid(db)
    ensures Valid(UpdateMemberRole(db, projectId, memberUsername, newRole, username).db)
  {
    if UpdateMemberRole(db, projectId, memberUsername, newRole, username).result.Ok? {
      SetRoleKeepsValid(db, UserByUsername(db, memberUsername).value.id, projectId, newRole);
    }
  }

  /** Dropping rows keeps every remaining row's references and keeps memberships unique. */
  lemma DropRowsKeepsValid(db: Db, userId: int, projectId: int)
    requires Valid(db)
    ensures Valid(db.(members := Filter(db.members, Unlinked(userId, projectId))))
  {
  }

  lemma RemoveMemberKeepsValid(db: Db, projectId: int, memberUsername: string, username: string)
    requires Valid(db)
    ensures Valid(RemoveMember(db, projectId, memberUsername, username).db)
  {
    if RemoveMember(db, projectId, memberUsername, username).result.Ok? {
      DropRowsKeepsValid(db, UserByUsername(db, memberUsername).value.id, projectId);
    }
  }

  lemma EnsureCreatorIsOwnerKeepsValid(db: Db, projectId: int, username: string, now: int)
    requires Valid(db)
    ensures Valid(EnsureCreatorIsOwner(db, projectId, username, now).db)
  {
    var u := UserByUsername(db, username);
    if EnsureCreatorIsOwner(db, projectId, username, now).result.Ok? && MembershipOf(db, u.value.id, projectId).None? {
      AppendRowKeepsValid(db, Membership(u.value.id, projectId, Owner, now));
    }
  }

  lemma AddMemberKeepsOwners(db: Db, projectId: int, req: MemberRequest, username: string, now: int)
    requires CreatorsAreOwners(db)
    ensures CreatorsAreOwners(AddMember(db, projectId, req, username, now).db)
  {
    if AddMember(db, projectId, req, username, now).result.Ok? {
      var v := UserByUsername(db, req.username).value;
      var m := Membership(v.id, projectId, req.role.GetOr(TeamMember), now);
      forall p | p in db.projects ensures RoleInProject(db.(members := db.members + [m]), p.createdBy, p.id) == Some(Owner) {
        AppendRowRoles(db, m, p.createdBy, p.id);
      }
    }
  }

  /** A role update keeps creators OWNERs: an OWNER row is never the one updated. */
  lemma UpdateMemberRoleKeepsOwners(db: Db, projectId: int, memberUsername: string, newRole: ProjectRole, username: string)
    requires CreatorsAreOwners(db)
    ensures CreatorsAreOwners(UpdateMemberRole(db, projectId, memberUsername, newRole, username).db)
  {
    if UpdateMemberRole(db, projectId, memberUsername, newRole, username).result.Ok? {
      var v := UserByUsername(db, memberUsername).value;
      forall p | p in db.projects
        ensures RoleInProject(db.(members := Map(db.members, WithRole(v.id, projectId, newRole))), p.createdBy, p.id) == Some(Owner)
      {
        SetRoleRoles(db, v.id, projectId, newRole, p.createdBy, p.id);
      }
    }
  }

  /** A removal keeps creators OWNERs: an OWNER row is never the one removed. */
  lemma RemoveMemberKeepsOwners(db: Db, projectId: int, memberUsername: string, username: string)
    requires CreatorsAreOwners(db)
    ensures CreatorsAreOwners(RemoveMember(db, projectId, memberUsername, username).db)
  {
    if RemoveMember(db, projectId, memberUsername, username).result.Ok? {
      var v := UserByUsername(db, memberUsername).value;
      forall p | p in db.projects
        ensures RoleInProject(db.(members := Filter(db.members, Unlinked(v.id, projectId))), p.createdBy, p.id) == Some(Owner)
      {
        DropRowsRoles(db, v.id, projectId, p.createdBy, p.id);
      }
    }
  }

  /** Under the invariant the creator already holds a membership, so `ensureCreatorIsOwner` changes nothing. */
  lemma EnsureCreatorIsOwnerKeepsOwners(db: Db, projectId: int, username: string, now: int)
    requires CreatorsAreOwners(db)
    ensures EnsureCreatorIsOwner(db, projectId, username, now).db == db
  {
    if EnsureCreatorIsOwner(db, projectId, username, now).result.Ok? {
      var p := ProjectById(db, projectId).value;
      assert RoleInProject(db, p.createdBy, p.id) == Some(Owner);
    }
  }
}

=== FILE: members_dialog.dfy ===
/**
 * The project members dialog: the role catalogue and its lookup, avatar initials, the
 * add-member form (its guard, the request it sends and its reset), and the rules that keep
 * OWNER entries out of the role choices and away from the edit and remove controls.
 */
module MembersDialog {
  import opened Wrappers
  import opened Seqs
  import opened Text
  import opened Wire

  /** A catalogue entry (icon and colour classes are presentation and left out). */
  datatype RoleInfo = RoleInfo(value: string, caption: string, description: string)

  const Roles: seq<RoleInfo> := [
    RoleInfo("OWNER", "Owner", "Full control"),
    RoleInfo("ADMIN", "Admin", "Manage project & members"),
    RoleInfo("PROJECT_MANAGER", "Project Manager", "Manage tasks & timeline"),
    RoleInfo("TEAM_MEMBER", "Team Member", "Create & edit tasks"),
    RoleInfo("VIEWER", "Viewer", "View only access")
  ]

  /** `ROLES.find(r => r.value === role) || ROLES[3]`. */
  function GetRoleInfo(role: string): (r: RoleInfo)
    ensures r in Roles
    ensures (exists i :: 0 <= i < |Roles| && Roles[i].value == role) ==> r.value == role
    ensures (forall i :: 0 <= i < |Roles| ==> Roles[i].value != role) ==> r == Roles[3]
  {
    FindRole(Roles, role).GetOr(Roles[3])
  }

  /** The first entry of `rs` whose value is `role`. */
  function FindRole(rs: seq<RoleInfo>, role: string): (r: Option<RoleInfo>)
    ensures r.Some? ==> r.value in rs && r.value.value == role
    ensures r.None? <==> forall i :: 0 <= i < |rs| ==> rs[i].value != role
  {
    if rs == [] then None
    else if rs[0].value == role then Some(rs[0])
    else
      var r := FindRole(rs[1..], role);
      assert r.None? ==> forall i :: 0 <= i < |rs| ==> rs[i].value != role by {
        if r.None? {
          forall i | 0 <= i < |rs| ensures rs[i].value != role {
            if i > 0 {
              assert rs[i] == rs[1..][i - 1];
            }
          }
        }
      }
      r
  }

  /** Every project role the backend sends has its own catalogue entry, and unknown text falls back to Team Member. */
  lemma RoleInfoCoversProjectRoles(role: ProjectRole)
    ensures GetRoleInfo(role.Name()).value == role.Name()
    ensures GetRoleInfo("").caption == "Team Member"
  {
    match role
    case Owner => assert Roles[0].value == role.Name();
    case Admin => assert Roles[1].value == role.Name();
    case ProjectManager => assert Roles[2].value == role.Name();
    case TeamMember => assert Roles[3].value == role.Name();
    case Viewer => assert Roles[4].value == role.Name();
  }

  /** `username.slice(0, 2).toUpperCase()`. */
  function GetInitials(username: string): (r: string)
    ensures |r| == if |username| < 2 then |username| else 2
    ensures forall i :: 0 <= i < |r| ==> r[i] == UpperChar(username[i])
  {
    Upper(if |username| < 2 then username else username[..2])
  }

  /** The role choices offered when adding a member or editing a role. */
  function RoleChoices(): (r: seq<RoleInfo>)
    ensures forall i :: 0 <= i < |r| ==> r[i].value != "OWNER" && r[i] in Roles
    ensures forall i :: 0 <= i < |Roles| && Roles[i].value != "OWNER" ==> Roles[i] in r
  {
    Filter(Roles, (ri: RoleInfo) => ri.value != "OWNER")
  }

  /** The add-member form. */
  datatype MemberForm = MemberForm(username: string, role: string)

  const EmptyForm := MemberForm("", "TEAM_MEMBER")

  /** The submit button is enabled only while no add is running and the username is not blank. */
  predicate CanSubmit(adding: bool, form: MemberForm) {
    !adding && !JsBlank(form.username)
  }

  /** The request body of `addProjectMember`. */
  datatype ProjectMemberRequest = ProjectMemberRequest(username: string, role: string)

  /** What submitting the form did: the request sent, if any, and the form afterwards. */
  datatype AddEffect = AddEffect(sent: Option<ProjectMemberRequest>, form: MemberForm)

  /**
   * `handleAddMember` given whether the add call succeeded. The member list reload that follows
   * reports its own errors and never fails the add.
   */
  function HandleAddMember(form: MemberForm, ok: bool): (r: AddEffect)
    ensures r.sent.None? <==> JsBlank(form.username)
    ensures r.sent.Some? ==> r.sent.value == ProjectMemberRequest(form.username, form.role)
    ensures r.form == (if r.sent.Some? && ok then EmptyForm else form)
  {
    if JsBlank(form.username) then AddEffect(None, form)
    else AddEffect(Some(ProjectMemberRequest(form.username, form.role)), if ok then EmptyForm else form)
  }

  /** After a successful add the form is back to its initial state, so submitting again is disabled. */
  lemma AddResetsForm(form: MemberForm)
    requires !JsBlank(form.username)
    ensures HandleAddMember(form, true).form == EmptyForm
    ensures !CanSubmit(false, HandleAddMember(form, true).form)
    ensures HandleAddMember(HandleAddMember(form, true).form, true).sent.None?
  {
  }

  /** A form whose role was picked from the choices never asks for OWNER. */
  lemma FormNeverRequestsOwner(form: MemberForm, choice: nat)
    requires choice < |RoleChoices()|
    ensures HandleAddMember(form.(role := RoleChoices()[choice].value), true).sent.Some? ==>
              HandleAddMember(form.(role := RoleChoices()[choice].value), true).sent.value.role != "OWNER"
  {
  }

  /** Clicking a member's role badge enters edit mode, except for owners. */
  function StartEditing(editing: Option<string>, m: ProjectMemberResponse): (r: Option<string>)
    ensures m.role == Owner ==> r == editing
    ensures m.role != Owner ==> r == Some(m.username)
  {
    if m.role != Owner then Some(m.username) else editing
  }

  /** Whether a member's row shows the remove control. */
  predicate ShowsRemove(m: ProjectMemberResponse) {
    m.role != Owner
  }

  /** No click sequence on the badges puts an owner into edit mode unless it already was. */
  lemma {:induction false} OwnersNeverEnterEditing(editing: Option<string>, clicks: seq<ProjectMemberResponse>, owner: string)
    requires forall i :: 0 <= i < |clicks| && clicks[i].username == owner ==> clicks[i].role == Owner
    requires editing != Some(owner)
    ensures EditAfter(editing, clicks) != Some(owner)
    decreases |clicks|
  {
    if clicks != [] {
      OwnersNeverEnterEditing(StartEditing(editing, clicks[0]), clicks[1..], owner);
    }
  }

  function EditAfter(editing: Option<string>, clicks: seq<ProjectMemberResponse>): Option<string>
    decreases |clicks|
  {
    if clicks == [] then editing else EditAfter(StartEditing(editing, clicks[0]), clicks[1..])
  }

  /** `handleUpdateRole`: edit mode ends only when the update succeeded. */
  function HandleUpdateRole(editing: Option<string>, ok: bool): (r: Option<string>)
    ensures ok ==> r.None?
    ensures !ok ==> r == editing
  {
    if ok then None else editing
  }

  /** `handleRemoveMember`: the remove call is made only after the user confirms. */
  function HandleRemoveMember(username: string, confirmed: bool): (r: Option<string>)
    ensures r.Some? <==> confirmed
    ensures r.Some? ==> r.value == username
  {
    if confirmed then Some(username) else None
  }
}

=== FILE: permissions.dfy ===
/**
 * The permission decisions: who may create, view, edit and delete projects and tasks, and who
 * may manage a project's members. A user's project role is read from their membership row.
 */
module Permissions {
  import opened Wrappers
  import opened Wire
  import opened Entities

  /** The project roles that may edit the project and any of its tasks. */
  predicate EditorRole(role: ProjectRole) {
    role == Owner || role == Admin || role == ProjectManager
  }

  /** The project roles that may delete any task and manage members. */
  predicate AdminRole(role: ProjectRole) {
    role == Owner || role == Admin
  }

  /** `getUserRoleInProject`: the role of the user's membership row, or nothing for a non-member. */
  function RoleInProject(db: Db, userId: int, projectId: int): (r: Option<ProjectRole>)
    ensures r.None? <==> forall m :: m in db.members ==> !Links(m, userId, projectId)
    ensures r.Some? ==> exists m :: m in db.members && Links(m, userId, projectId) && m.role == r.value
  {
    match MembershipOf(db, userId, projectId)
    case None => None
    case Some(m) => Some(m.role)
  }

  /**
   * The user's role in the project satisfies `allowed`; `false` for a non-member. Some linking
   * row must carry an allowed role, and when every linking row does, the answer is yes.
   */
  function RoleAllows(db: Db, userId: int, projectId: int, allowed: ProjectRole -> bool): (r: bool)
    ensures r ==> exists m :: m in db.members && Links(m, userId, projectId) && allowed(m.role)
    ensures ((exists m :: m in db.members && Links(m, userId, projectId))
             && (forall m :: m in db.members && Links(m, userId, projectId) ==> allowed(m.role))) ==> r
  {
    match RoleInProject(db, userId, projectId)
    case None => false
    case Some(role) => allowed(role)
  }

  /** With one membership row per user and project, the role test is exactly a test of that row. */
  lemma RoleAllowsUnique(db: Db, userId: int, projectId: int, allowed: ProjectRole -> bool)
    requires UniqueMemberships(db.members)
    ensures RoleAllows(db, userId, projectId, allowed) <==>
              exists m :: m in db.members && Links(m, userId, projectId) && allowed(m.role)
  {
    if m :| m in db.members && Links(m, userId, projectId) && allowed(m.role) {
      forall m' | m' in db.members && Links(m', userId, projectId) ensures allowed(m'.role) {
        assert Links(m, m'.userId, m'.projectId);
      }
    }
  }

  /** `canCreateProject`: a global role named ADMIN or USER. */
  function CanCreateProject(u: User): (r: bool)
    ensures r <==> "ADMIN" in u.roles || "USER" in u.roles
  {
    exists name :: name in u.roles && (name == "ADMIN" || name == "USER")
  }

  /** `canViewProject`: the creator, or any member. */
  function CanViewProject(db: Db, u: User, p: Project): (r: bool)
    ensures r <==> p.createdBy == u.id || RoleInProject(db, u.id, p.id).Some?
  {
    if p.createdBy == u.id then true else MembershipOf(db, u.id, p.id).Some?
  }

  /** `canEditProject`: the creator, or a member with an editor role. */
  function CanEditProject(db: Db, u: User, p: Project): (r: bool)
    ensures r <==> p.createdBy == u.id || RoleAllows(db, u.id, p.id, EditorRole)
  {
    if p.createdBy == u.id then true else RoleAllows(db, u.id, p.id, EditorRole)
  }

  /** `canDeleteProject`: only the creator. */
  function CanDeleteProject(u: User, p: Project): (r: bool)
    ensures r <==> p.createdBy == u.id
  {
    p.createdBy == u.id
  }

  /** `canCreateTask`: whoever can view the project. */
  function CanCreateTask(db: Db, u: User, p: Project): (r: bool)
    ensures r <==> CanViewProject(db, u, p)
  {
    if !CanViewProject(db, u, p) then false else true
  }

  /** `canEditTask`: the task's creator, its current assignee, or an editor of its project. */
  function CanEditTask(db: Db, u: User, t: Task): (r: bool)
    ensures r <==> t.createdBy == u.id || t.assignedTo == Some(u.id) || RoleAllows(db, u.id, t.projectId, EditorRole)
  {
    if t.createdBy == u.id then true
    else if t.assignedTo.Some? && t.assignedTo.value == u.id then true
    else RoleAllows(db, u.id, t.projectId, EditorRole)
  }

  /** `canDeleteTask`: the task's creator or an administrator of its project. */
  function CanDeleteTask(db: Db, u: User, t: Task): (r: bool)
    ensures r <==> t.createdBy == u.id || RoleAllows(db, u.id, t.projectId, AdminRole)
  {
    if t.createdBy == u.id then true else RoleAllows(db, u.id, t.projectId, AdminRole)
  }

  /** `canManageProjectMembers`: an administrator of the project; being its creator is not enough. */
  function CanManageProjectMembers(db: Db, u: User, p: Project): (r: bool)
    ensures r <==> RoleAllows(db, u.id, p.id, AdminRole)
  {
    RoleAllows(db, u.id, p.id, AdminRole)
  }

  /** Each permission includes the next weaker one. */
  lemma PermissionsNest(db: Db, u: User, p: Project, t: Task)
    ensures CanDeleteProject(u, p) ==> CanEditProject(db, u, p)
    ensures CanManageProjectMembers(db, u, p) ==> CanEditProject(db, u, p)
    ensures CanEditProject(db, u, p) ==> CanViewProject(db, u, p)
    ensures CanDeleteTask(db, u, t) ==> CanEditTask(db, u, t)
  {
  }

  /** The creator may view, edit, delete and add tasks to their project, but manages members only through a membership. */
  lemma CreatorPowers(db: Db, u: User, p: Project)
    requires p.createdBy == u.id
    ensures CanViewProject(db, u, p) && CanEditProject(db, u, p) && CanDeleteProject(u, p) && CanCreateTask(db, u, p)
    ensures CanManageProjectMembers(db, u, p) <==> RoleInProject(db, u.id, p.id) == Some(Owner) || RoleInProject(db, u.id, p.id) == Some(Admin)
  {
  }

  /**
   * For a member who did not create the project, the role alone decides: everyone may view
   * and add tasks, editors may edit, administrators may manage members and delete any task,
   * and nobody may delete the project.
   */
  lemma MemberPowers(db: Db, u: User, p: Project, t: Task, m: Membership)
    requires p.createdBy != u.id && t.projectId == p.id && t.createdBy != u.id && t.assignedTo != Some(u.id)
    requires MembershipOf(db, u.id, p.id) == Some(m)
    ensures CanViewProject(db, u, p) && CanCreateTask(db, u, p) && !CanDeleteProject(u, p)
    ensures CanEditProject(db, u, p) <==> m.role in {Owner, Admin, ProjectManager}
    ensures CanEditTask(db, u, t) <==> m.role in {Owner, Admin, ProjectManager}
    ensures CanManageProjectMembers(db, u, p) <==> m.role in {Owner, Admin}
    ensures CanDeleteTask(db, u, t) <==> m.role in {Owner, Admin}
  {
  }

  /** An outsider (neither creator nor member) may do nothing with the project, and with a task only what its creator or assignee may. */
  lemma OutsiderPowers(db: Db, u: User, p: Project, t: Task)
    requires p.createdBy != u.id && t.projectId == p.id
    requires forall m :: m in db.members ==> !Links(m, u.id, p.id)
    ensures !CanViewProject(db, u, p) && !CanEditProject(db, u, p) && !CanCreateTask(db, u, p)
    ensures !CanManageProjectMembers(db, u, p) && !CanDeleteProject(u, p)
    ensures CanEditTask(db, u, t) <==> t.createdBy == u.id || t.assignedTo == Some(u.id)
    ensures CanDeleteTask(db, u, t) <==> t.createdBy == u.id
  {
  }
}

=== FILE: project_dialog.dfy ===
/** The project dialog: the form it opens with, which call a submit makes, and when `onSave` runs. */
module ProjectDialog {
  import opened Wrappers
  import opened Wire
  import ApiClient

  const BlankForm := ProjectRequest("", "", Some(Active))

  /** The form for editing `p`: its name, description and status. */
  function EditForm(p: ProjectResponse): (r: ProjectRequest)
    ensures r.name == p.name && r.description == p.description && r.status == Some(p.status)
  {
    ProjectRequest(p.name, p.description, Some(p.status))
  }

  /** The open effect: while open, the form is re-initialised from the project, or blank without one. */
  function OnOpen(form: ProjectRequest, open: bool, project: Option<ProjectResponse>): (r: ProjectRequest)
    ensures !open ==> r == form
    ensures open && project.None? ==> r.name == "" && r.description == "" && r.status == Some(Active)
    ensures open && project.Some? ==> r == EditForm(project.value)
    ensures open ==> r.status.Some?
  {
    if !open then form
    else match project
      case None => BlankForm
      case Some(p) => EditForm(p)
  }

  datatype Call = CreateProject(req: ProjectRequest) | UpdateProject(id: int, req: ProjectRequest) | DeleteProject(id: int)

  /** What a submit or delete did: the call made, if any, and whether `onSave` ran. */
  datatype Effect = Effect(call: Option<Call>, saved: bool)

  /** `handleSubmit`: update the given project, else create one; `onSave` only when the call succeeded. */
  function Submit(project: Option<ProjectResponse>, form: ProjectRequest, ok: bool): (r: Effect)
    ensures r.call.Some?
    ensures project.Some? <==> r.call.value.UpdateProject?
    ensures project.Some? ==> r.call.value == UpdateProject(project.value.id, form)
    ensures project.None? ==> r.call.value == CreateProject(form)
    ensures r.saved <==> ok
  {
    match project
    case Some(p) => Effect(Some(UpdateProject(p.id, form)), ok)
    case None => Effect(Some(CreateProject(form)), ok)
  }

  /** `handleDelete`: nothing at all without a project; otherwise delete it, `onSave` only on success. */
  function Delete(project: Option<ProjectResponse>, ok: bool): (r: Effect)
    ensures project.None? ==> r == Effect(None, false)
    ensures project.Some? ==> r.call == Some(DeleteProject(project.value.id)) && (r.saved <==> ok)
  {
    match project
    case None => Effect(None, false)
    case Some(p) => Effect(Some(DeleteProject(p.id)), ok)
  }

  /**
   * As written, deleting a project never runs `onSave`: the backend answers 204 with no body
   * and the shared response handling throws on it, although the project is gone.
   */
  lemma DeleteAsWrittenNeverSaves(p: ProjectResponse, b: ApiClient.Browser, reply: ApiClient.Response<()>)
    requires reply.status == 204 && reply.body.None?
    ensures Delete(Some(p), ApiClient.HandleResponse(b, reply).1.Ok?) == Effect(Some(DeleteProject(p.id)), false)
  {
  }

  /** With the void response handling the same reply runs `onSave`. */
  lemma DeleteSavesOnNoContent(p: ProjectResponse, b: ApiClient.Browser, reply: ApiClient.Response<()>)
    requires reply.status == 204 && reply.body.None?
    ensures Delete(Some(p), ApiClient.HandleVoidResponse(b, reply).1.Ok?) == Effect(Some(DeleteProject(p.id)), true)
  {
  }

  /** Saving an opened project untouched sends back exactly the name, description and status it showed. */
  lemma UntouchedEditRoundTrips(form: ProjectRequest, p: ProjectResponse, ok: bool)
    ensures var sent := Submit(Some(p), OnOpen(form, true, Some(p)), ok).call.value;
            sent.id == p.id && sent.req.name == p.name && sent.req.description == p.description
            && sent.req.status == Some(p.status)
  {
  }
}

=== FILE: project_filter_hook.dfy ===
/**
 * The project filtering hook: the dashboard lists the loaded projects that pass every active
 * criterion, stably sorted by the chosen key in the chosen direction.
 */
module ProjectFilterHook {
  import opened Seqs
  import opened Text
  import opened Sorting
  import opened Wire
  import opened ProjectFilterPanel

  /**
   * The instants the date-range buckets compare against, as millisecond timestamps: local
   * midnight today and that midnight moved back by seven days, one month, three months and
   * one year. `dayOf` maps an instant to its local midnight.
   */
  datatype Clock = Clock(dayOf: int -> int, today: int, weekAgo: int, monthAgo: int, quarterAgo: int, yearAgo: int)

  /** The case-insensitive query occurs in the name, the description or the creator. */
  predicate MatchesSearch(p: ProjectResponse, query: string) {
    var q := Lower(query);
    Includes(Lower(p.name), q) || Includes(Lower(p.description), q) || Includes(Lower(p.createdBy), q)
  }

  /** The creation-date bucket test; an unrecognised bucket lets everything through. */
  predicate MatchesDateRange(p: ProjectResponse, range: string, c: Clock) {
    if range == "today" then c.dayOf(p.createdAt) == c.today
    else if range == "week" then p.createdAt >= c.weekAgo
    else if range == "month" then p.createdAt >= c.monthAgo
    else if range == "quarter" then p.createdAt >= c.quarterAgo
    else if range == "year" then p.createdAt >= c.yearAgo
    else true
  }

  /** The reference meaning of the filter part of a specification: every active criterion holds. */
  predicate Keeps(f: ProjectFilters, c: Clock, p: ProjectResponse) {
    (f.search == "" || MatchesSearch(p, f.search))
    && (f.status == "" || p.status.Name() == f.status)
    && (f.createdBy == "" || p.createdBy == f.createdBy)
    && (f.dateRange == "" || MatchesDateRange(p, f.dateRange, c))
  }

  predicate IsActive(f: ProjectFilters, fld: Field) {
    match fld
    case Search => f.search != ""
    case Status => f.status != ""
    case CreatedBy => f.createdBy != ""
    case DateRange => f.dateRange != ""
    case _ => false
  }

  predicate Passes(f: ProjectFilters, c: Clock, fld: Field, p: ProjectResponse) {
    match fld
    case Search => MatchesSearch(p, f.search)
    case Status => p.status.Name() == f.status
    case CreatedBy => p.createdBy == f.createdBy
    case DateRange => MatchesDateRange(p, f.dateRange, c)
    case _ => true
  }

  const HookOrder: seq<Field> := [Search, Status, CreatedBy, DateRange]

  /** The filtering half of the hook's body, stage by stage. */
  function Staged(projects: seq<ProjectResponse>, f: ProjectFilters, c: Clock): seq<ProjectResponse> {
    FilterChain(projects, HookOrder, fld => IsActive(f, fld), (fld, p) => Passes(f, c, fld, p))
  }

  lemma StagedIsConjunction(projects: seq<ProjectResponse>, f: ProjectFilters, c: Clock)
    ensures Staged(projects, f, c) == Filter(projects, p => Keeps(f, c, p))
  {
    var active := fld => IsActive(f, fld);
    var test := (fld, p) => Passes(f, c, fld, p);
    FilterChainIsFilter(projects, HookOrder, active, test);
    forall p ensures PassesChain(HookOrder, active, test, p) == Keeps(f, c, p) {
      var o := HookOrder;
      assert o[0] == Search && o[1] == Status && o[2] == CreatedBy && o[3] == DateRange;
    }
    FilterAgree(projects, p => PassesChain(HookOrder, active, test, p), p => Keeps(f, c, p));
  }

  /** The comparator's key: lower-cased name, creation instant, counts, or status; creation instant otherwise. */
  function SortKeyOf(sortBy: string, p: ProjectResponse): SortKey {
    if sortBy == "name" then Str(Lower(p.name))
    else if sortBy == "taskCount" then Num(p.taskCount)
    else if sortBy == "memberCount" then Num(p.memberCount)
    else if sortBy == "status" then Str(p.status.Name())
    else Num(p.createdAt)
  }

  /** `useProjectFilters(projects, filters)`. */
  function FilterProjects(projects: seq<ProjectResponse>, f: ProjectFilters, c: Clock): (r: seq<ProjectResponse>)
    ensures multiset(r) == multiset(Filter(projects, p => Keeps(f, c, p)))
    ensures SortedBy(r, p => SortKeyOf(f.sortBy, p), f.sortOrder == Asc)
    ensures forall p :: p in r <==> p in projects && Keeps(f, c, p)
  {
    StagedIsConjunction(projects, f, c);
    var kept := Staged(projects, f, c);
    var r := Sort(kept, p => SortKeyOf(f.sortBy, p), f.sortOrder == Asc);
    assert forall p :: p in r <==> p in multiset(kept);
    r
  }

  /** Projects whose keys tie keep their relative order from the input. */
  lemma FilterProjectsStable(projects: seq<ProjectResponse>, f: ProjectFilters, c: Clock, k: SortKey)
    ensures var key := p => SortKeyOf(f.sortBy, p);
            WithKey(FilterProjects(projects, f, c), key, k) == WithKey(Filter(projects, p => Keeps(f, c, p)), key, k)
  {
    StagedIsConjunction(projects, f, c);
    SortStable(Staged(projects, f, c), p => SortKeyOf(f.sortBy, p), f.sortOrder == Asc);
  }

  /** With no criterion set the result is a rearrangement of all the projects. */
  lemma FilterProjectsUnfiltered(projects: seq<ProjectResponse>, f: ProjectFilters, c: Clock)
    requires ActiveFiltersCount(f) == 0
    ensures multiset(FilterProjects(projects, f, c)) == multiset(projects)
  {
    FilterKeepsAll(projects, p => Keeps(f, c, p));
  }

  /** An unrecognised sort key orders by creation instant, exactly as "createdAt" does. */
  lemma UnknownSortByIsCreatedAt(projects: seq<ProjectResponse>, f: ProjectFilters, c: Clock)
    requires f.sortBy !in {"name", "createdAt", "taskCount", "memberCount", "status"}
    ensures FilterProjects(projects, f, c) == FilterProjects(projects, f.(sortBy := "createdAt"), c)
  {
    var g := f.(sortBy := "createdAt");
    assert forall p :: Keeps(f, c, p) == Keeps(g, c, p);
    FilterAgree(projects, p => Keeps(f, c, p), p => Keeps(g, c, p));
    StagedIsConjunction(projects, f, c);
    StagedIsConjunction(projects, g, c);
    SortKeyAgree(Staged(projects, f, c), p => SortKeyOf(f.sortBy, p), p => SortKeyOf(g.sortBy, p), f.sortOrder == Asc);
  }

  /** Sorting by two key functions that agree everywhere gives the same sequence. */
  lemma {:induction false} SortKeyAgree(s: seq<ProjectResponse>, k1: ProjectResponse -> SortKey, k2: ProjectResponse -> SortKey, asc: bool)
    requires forall p :: k1(p) == k2(p)
    ensures Sort(s, k1, asc) == Sort(s, k2, asc)
    decreases |s|
  {
    if s != [] {
      SortKeyAgree(s[1..], k1, k2, asc);
      InsertKeyAgree(s[0], Sort(s[1..], k1, asc), k1, k2, asc);
    }
  }

  lemma {:induction false} InsertKeyAgree(x: ProjectResponse, s: seq<ProjectResponse>, k1: ProjectResponse -> SortKey, k2: ProjectResponse -> SortKey, asc: bool)
    requires forall p :: k1(p) == k2(p)
    ensures Insert(x, s, k1, asc) == Insert(x, s, k2, asc)
    decreases |s|
  {
    if s != [] {
      InsertKeyAgree(x, s[1..], k1, k2, asc);
    }
  }

  /** "today" keeps exactly the projects created on today's date; an unrecognised range keeps everything. */
  lemma DateRangeCriterion(f: ProjectFilters, c: Clock, p: ProjectResponse)
    requires f.dateRange != ""
    ensures f.dateRange == "today" ==> (Keeps(f, c, p) <==> Keeps(f.(dateRange := ""), c, p) && c.dayOf(p.createdAt) == c.today)
    ensures f.dateRange !in {"today", "week", "month", "quarter", "year"} ==> (Keeps(f, c, p) <==> Keeps(f.(dateRange := ""), c, p))
  {
  }

  /** The search criterion adds "the lower-cased query occurs in the name, description or creator". */
  lemma SearchCriterion(f: ProjectFilters, c: Clock, p: ProjectResponse)
    requires f.search != ""
    ensures Keeps(f, c, p) <==>
              Keeps(f.(search := ""), c, p)
              && ((exists i :: OccursAt(Lower(p.name), Lower(f.search), i))
                  || (exists i :: OccursAt(Lower(p.description), Lower(f.search), i))
                  || (exists i :: OccursAt(Lower(p.createdBy), Lower(f.search), i)))
  {
    IncludesIff(Lower(p.name), Lower(f.search));
    IncludesIff(Lower(p.description), Lower(f.search));
    IncludesIff(Lower(p.createdBy), Lower(f.search));
  }

  /** Status and creator are exact comparisons with the wire strings. */
  lemma EqualityCriteria(f: ProjectFilters, c: Clock, p: ProjectResponse)
    ensures f.status != "" ==> (Keeps(f, c, p) <==> Keeps(f.(status := ""), c, p) && p.status.Name() == f.status)
    ensures f.createdBy != "" ==> (Keeps(f, c, p) <==> Keeps(f.(createdBy := ""), c, p) && p.createdBy == f.createdBy)
  {
  }
}

=== FILE: project_filter_panel.dfy ===
/**
 * The project filter panel: the project filter specification, its single-field edits, the
 * reset, the sort-direction toggle, the active-filter badge count and the creator options.
 */
module ProjectFilterPanel {
  import opened Seqs
  import opened Sorting
  import opened Wire

  datatype SortOrder = Asc | Desc

  /** Empty text fields do not constrain; `sortBy` and `sortOrder` only order the result. */
  datatype ProjectFilters = ProjectFilters(
    search: string,
    status: string,
    createdBy: string,
    sortBy: string,
    sortOrder: SortOrder,
    dateRange: string)

  datatype Field = Search | Status | CreatedBy | SortBy | Order | DateRange

  /** One `updateFilter(key, value)` call, or the sort-order button writing the order. */
  datatype Edit =
    | SetSearch(text: string)
    | SetStatus(text: string)
    | SetCreatedBy(text: string)
    | SetSortBy(text: string)
    | SetSortOrder(order: SortOrder)
    | SetDateRange(text: string)
  {
    function Key(): Field {
      match this
      case SetSearch(_) => Search
      case SetStatus(_) => Status
      case SetCreatedBy(_) => CreatedBy
      case SetSortBy(_) => SortBy
      case SetSortOrder(_) => Order
      case SetDateRange(_) => DateRange
    }
  }

  /** `a` and `b` hold the same value in every field other than `f`. */
  predicate AgreeExcept(a: ProjectFilters, b: ProjectFilters, f: Field) {
    (f == Search || a.search == b.search)
    && (f == Status || a.status == b.status)
    && (f == CreatedBy || a.createdBy == b.createdBy)
    && (f == SortBy || a.sortBy == b.sortBy)
    && (f == Order || a.sortOrder == b.sortOrder)
    && (f == DateRange || a.dateRange == b.dateRange)
  }

  /** The edit's value is what field `e.Key()` of `f` holds. */
  predicate Holds(f: ProjectFilters, e: Edit) {
    match e
    case SetSearch(t) => f.search == t
    case SetStatus(t) => f.status == t
    case SetCreatedBy(t) => f.createdBy == t
    case SetSortBy(t) => f.sortBy == t
    case SetSortOrder(o) => f.sortOrder == o
    case SetDateRange(t) => f.dateRange == t
  }

  /** `{ ...filters, [key]: value }`. */
  function UpdateFilter(f: ProjectFilters, e: Edit): (r: ProjectFilters)
    ensures Holds(r, e)
    ensures AgreeExcept(f, r, e.Key())
  {
    match e
    case SetSearch(t) => f.(search := t)
    case SetStatus(t) => f.(status := t)
    case SetCreatedBy(t) => f.(createdBy := t)
    case SetSortBy(t) => f.(sortBy := t)
    case SetSortOrder(o) => f.(sortOrder := o)
    case SetDateRange(t) => f.(dateRange := t)
  }

  /** The update is exactly the spec that holds the new value and agrees elsewhere. */
  lemma UpdateFilterUnique(f: ProjectFilters, e: Edit, g: ProjectFilters)
    ensures g == UpdateFilter(f, e) <==> Holds(g, e) && AgreeExcept(f, g, e.Key())
  {
  }

  /** Nothing constrains, and the order is newest first. */
  function ClearFilters(): (r: ProjectFilters)
    ensures ActiveFiltersCount(r) == 0
    ensures r.sortBy == "createdAt" && r.sortOrder == Desc
  {
    ProjectFilters("", "", "", "createdAt", Desc, "")
  }

  /** Swaps the direction and leaves every other field alone. */
  function ToggleSortOrder(f: ProjectFilters): (r: ProjectFilters)
    ensures AgreeExcept(f, r, Order)
    ensures r.sortOrder != f.sortOrder
  {
    f.(sortOrder := if f.sortOrder == Asc then Desc else Asc)
  }

  /** Toggling twice restores the specification. */
  lemma ToggleSortOrderInvolution(f: ProjectFilters)
    ensures ToggleSortOrder(ToggleSortOrder(f)) == f
  {
  }

  function Indicator(b: bool): nat {
    if b then 1 else 0
  }

  /** The number on the "Filters" badge: the non-empty search, status, creator and date range. */
  function ActiveFiltersCount(f: ProjectFilters): (r: nat)
    ensures r <= 4
    ensures r == 0 <==> f.search == "" && f.status == "" && f.createdBy == "" && f.dateRange == ""
  {
    Indicator(f.search != "") + Indicator(f.status != "") + Indicator(f.createdBy != "") + Indicator(f.dateRange != "")
  }

  /** The sort fields never count towards the badge. */
  lemma ActiveFiltersCountIgnoresSort(f: ProjectFilters, sortBy: string, order: SortOrder)
    ensures ActiveFiltersCount(f.(sortBy := sortBy, sortOrder := order)) == ActiveFiltersCount(f)
    ensures ActiveFiltersCount(ToggleSortOrder(f)) == ActiveFiltersCount(f)
  {
  }

  /** The creator select's options after "all". */
  function UniqueCreators(projects: seq<ProjectResponse>): (r: seq<string>)
    ensures NoDuplicates(r)
    ensures SortedBy(r, TextKey, true)
    ensures forall i :: 0 <= i < |r| ==> exists j :: 0 <= j < |projects| && projects[j].createdBy == r[i]
    ensures forall j :: 0 <= j < |projects| ==> projects[j].createdBy in r
  {
    var creators := Map(projects, (p: ProjectResponse) => p.createdBy);
    assert forall j :: 0 <= j < |projects| ==> projects[j].createdBy == creators[j];
    SortedDistinct(creators)
  }
}

=== FILE: project_service.dfy ===
/**
 * Project operations: create (the creator becomes OWNER), read one, list the user's projects,
 * update, delete (the project's tasks and memberships go with it), and the mapping of a
 * project row to its response.
 */
module ProjectService {
  import opened Wrappers
  import opened Seqs
  import opened Wire
  import opened Entities
  import opened Permissions
  import MemberService
  import TaskService
  import ProjectDialog

  /** The test "belongs to project `projectId`" on membership rows. */
  function RowOf(projectId: int): Membership -> bool {
    (m: Membership) => m.projectId == projectId
  }

  /** The usernames of membership rows, in order. */
  function MemberNames(db: Db, ms: seq<Membership>): (r: seq<string>)
    requires forall m :: m in ms ==> HasUser(db, m.userId)
    ensures |r| == |ms|
    ensures forall i :: 0 <= i < |ms| ==> r[i] == UserById(db, ms[i].userId).value.username
  {
    if ms == [] then [] else [UserById(db, ms[0].userId).value.username] + MemberNames(db, ms[1..])
  }

  /** Every row's user has their name listed. */
  lemma MemberNamesCover(db: Db, ms: seq<Membership>)
    requires forall m :: m in ms ==> HasUser(db, m.userId)
    ensures forall m :: m in ms ==> UserById(db, m.userId).value.username in MemberNames(db, ms)
  {
    var r := MemberNames(db, ms);
    forall m | m in ms ensures UserById(db, m.userId).value.username in r {
      var i :| 0 <= i < |ms| && ms[i] == m;
      assert r[i] == UserById(db, m.userId).value.username;
    }
  }

  /** Every listed name is the name of some row's user. */
  lemma MemberNamesOrigin(db: Db, ms: seq<Membership>)
    requires forall m :: m in ms ==> HasUser(db, m.userId)
    ensures forall x :: x in MemberNames(db, ms) ==> exists m :: m in ms && x == UserById(db, m.userId).value.username
  {
    var r := MemberNames(db, ms);
    forall x | x in r ensures exists m :: m in ms && x == UserById(db, m.userId).value.username {
      var i :| 0 <= i < |r| && r[i] == x;
      assert ms[i] in ms;
    }
  }

  /** Every membership row's user exists, as `Valid` guarantees. */
  ghost predicate RowUsersExist(db: Db) {
    forall m :: m in db.members ==> HasUser(db, m.userId)
  }

  /** `mapToProjectResponse` on a project whose collections are loaded from the database. */
  function ProjectResponseOf(db: Db, p: Project): (r: ProjectResponse)
    requires RowUsersExist(db) && HasUser(db, p.createdBy)
    ensures r.id == p.id && r.name == p.name && r.description == p.description
    ensures r.status == p.status && r.createdAt == p.createdAt
    ensures r.createdBy == UserById(db, p.createdBy).value.username
    ensures r.taskCount == |Filter(db.tasks, TaskService.InProject(p.id))| <= |db.tasks|
    ensures r.taskCount == 0 <==> forall t :: t in db.tasks ==> t.projectId != p.id
    ensures r.members == MemberNames(db, Filter(db.members, RowOf(p.id)))
    ensures r.memberCount == |r.members| == |Filter(db.members, RowOf(p.id))| <= |db.members|
    ensures forall m :: m in db.members && m.projectId == p.id ==> UserById(db, m.userId).value.username in r.members
    ensures forall x :: x in r.members ==>
              exists m :: m in db.members && m.projectId == p.id && x == UserById(db, m.userId).value.username
  {
    var tasks := Filter(db.tasks, TaskService.InProject(p.id));
    var rows := Filter(db.members, RowOf(p.id));
    FilterMembers(db.tasks, TaskService.InProject(p.id));
    FilterMembers(db.members, RowOf(p.id));
    assert |tasks| == 0 <==> forall t :: t in db.tasks ==> t.projectId != p.id by {
      if |tasks| != 0 {
        assert tasks[0] in tasks;
      }
    }
    var names := MemberNames(db, rows);
    MemberNamesCover(db, rows);
    MemberNamesOrigin(db, rows);
    ProjectResponse(p.id, p.name, p.description, p.status, UserById(db, p.createdBy).value.username, p.createdAt,
                    |tasks|, |names|, names)
  }

  /** The row `createProject` inserts: the request's fields, ACTIVE when no status is given. */
  function NewProject(req: ProjectRequest, creator: int, id: int, now: int): (p: Project)
    ensures p.id == id && p.name == req.name && p.description == req.description
    ensures p.status == (if req.status.Some? then req.status.value else Active)
    ensures p.createdBy == creator && p.createdAt == now
  {
    Project(id, req.name, req.description, req.status.GetOr(Active), creator, now)
  }

  /** The state after `createProject` saved the project and its creator's OWNER row. */
  function WithNewProject(db: Db, p: Project, now: int): (r: Db)
    ensures r == db.(projects := db.projects + [p], members := db.members + [Membership(p.createdBy, p.id, Owner, now)])
  {
    db.(projects := db.projects + [p], members := db.members + [Membership(p.createdBy, p.id, Owner, now)])
  }

  /**
   * `createProject` as written: the reload after saving returns the same in-memory entity,
   * whose task and membership lists are the empty ones it was built with, so the response
   * counts no tasks and no members although the OWNER row was saved. `id` is the generated id.
   */
  function CreateProjectAsWritten(db: Db, req: ProjectRequest, username: string, id: int, now: int): (r: Step<ProjectResponse>)
    ensures r.result.Err? ==> r.db == db
    ensures r.result.Ok? <==> UserByUsername(db, username).Some? && CanCreateProject(UserByUsername(db, username).value)
    ensures r.result.Ok? ==>
              var u := UserByUsername(db, username).value;
              && r.db == WithNewProject(db, NewProject(req, u.id, id, now), now)
              && r.result.value.createdBy == username && r.result.value.id == id
              && r.result.value.taskCount == 0 && r.result.value.memberCount == 0 && r.result.value.members == []
  {
    match UserByUsername(db, username)
    case None => Fail(db, "Usuario no encontrado")
    case Some(u) =>
      if !CanCreateProject(u) then Fail(db, "No tienes permisos para crear proyectos")
      else
        var p := NewProject(req, u.id, id, now);
        Step(WithNewProject(db, p, now), Ok(ProjectResponse(p.id, p.name, p.description, p.status, u.username, now, 0, 0, [])))
  }

  /**
   * `createProject` as evidently intended: the response is the saved project as the database
   * now holds it, with its creator as the one member. `id` is the generated id, which no
   * project has yet.
   */
  function CreateProject(db: Db, req: ProjectRequest, username: string, id: int, now: int): (r: Step<ProjectResponse>)
    requires Valid(db) && ProjectById(db, id).None?
    ensures r.result.Err? ==> r.db == db
    ensures r.result.Ok? <==> UserByUsername(db, username).Some? && CanCreateProject(UserByUsername(db, username).value)
    ensures UserByUsername(db, username).Some? && !CanCreateProject(UserByUsername(db, username).value) ==>
              r.result == Err(Rejected("No tienes permisos para crear proyectos"))
    ensures r.result.Ok? ==>
              var p := NewProject(req, UserByUsername(db, username).value.id, id, now);
              && r.db == WithNewProject(db, p, now)
              && Valid(r.db)
              && r.result.value == ProjectResponseOf(r.db, p)
  {
    match UserByUsername(db, username)
    case None => Fail(db, "Usuario no encontrado")
    case Some(u) =>
      if !CanCreateProject(u) then Fail(db, "No tienes permisos para crear proyectos")
      else
        var p := NewProject(req, u.id, id, now);
        AddProjectKeepsValid(db, p, now);
        var after := WithNewProject(db, p, now);
        assert u in after.users;
        Step(after, Ok(ProjectResponseOf(after, p)))
  }

  /** `getProject`: the project, for anyone who may view it. */
  function GetProject(db: Db, projectId: int, username: string): (r: Result<ProjectResponse, Error>)
    requires Valid(db)
    ensures r.Ok? <==> LoadUserAndProject(db, username, projectId).Ok?
                       && CanViewProject(db, UserByUsername(db, username).value, ProjectById(db, projectId).value)
    ensures r.Ok? ==> r.value == ProjectResponseOf(db, ProjectById(db, projectId).value) && r.value.id == projectId
  {
    match LoadUserAndProject(db, username, projectId)
    case Err(e) => Err(e)
    case Ok((u, p)) =>
      if !CanViewProject(db, u, p) then Err(Rejected("No tienes permisos para ver este proyecto"))
      else Ok(ProjectResponseOf(db, p))
  }

  /** The test "has a membership row of user `userId`" on projects. */
  function JoinedBy(db: Db, userId: int): Project -> bool {
    (p: Project) => MembershipOf(db, userId, p.id).Some?
  }

  /** The responses of projects, in order. */
  function ProjectResponses(db: Db, ps: seq<Project>): (r: seq<ProjectResponse>)
    requires RowUsersExist(db) && forall p :: p in ps ==> HasUser(db, p.createdBy)
    ensures |r| == |ps|
    ensures forall i :: 0 <= i < |ps| ==> r[i] == ProjectResponseOf(db, ps[i])
  {
    seq(|ps|, i requires 0 <= i < |ps| => ProjectResponseOf(db, ps[i]))
  }

  /** Every given project's response is among the responses. */
  lemma ProjectResponsesCover(db: Db, ps: seq<Project>)
    requires RowUsersExist(db) && forall p :: p in ps ==> HasUser(db, p.createdBy)
    ensures forall p :: p in ps ==> ProjectResponseOf(db, p) in ProjectResponses(db, ps)
  {
    var r := ProjectResponses(db, ps);
    forall p | p in ps ensures ProjectResponseOf(db, p) in r {
      var i :| 0 <= i < |ps| && ps[i] == p;
      assert r[i] == ProjectResponseOf(db, p);
    }
  }

  /** Every response is the response of one of the given projects. */
  lemma ProjectResponsesOrigin(db: Db, ps: seq<Project>)
    requires RowUsersExist(db) && forall p :: p in ps ==> HasUser(db, p.createdBy)
    ensures forall x :: x in ProjectResponses(db, ps) ==> exists p :: p in ps && x == ProjectResponseOf(db, p)
  {
    var r := ProjectResponses(db, ps);
    forall x | x in r ensures exists p :: p in ps && x == ProjectResponseOf(db, p) {
      var i :| 0 <= i < |r| && r[i] == x;
      assert ps[i] in ps;
    }
  }

  /**
   * `rs` are the responses of the projects user `userId` holds a membership in: one per such
   * project, in table order, so every such project is listed and nothing else is.
   */
  ghost predicate ListsJoined(db: Db, userId: int, rs: seq<ProjectResponse>)
    requires Valid(db)
  {
    var joined := Filter(db.projects, JoinedBy(db, userId));
    assert RowUsersExist(db) && forall p :: p in db.projects ==> HasUser(db, p.createdBy);
    && |rs| == |joined|
    && (forall i :: 0 <= i < |rs| ==> rs[i] == ProjectResponseOf(db, joined[i]))
    && (forall p :: p in db.projects && RoleInProject(db, userId, p.id).Some? ==> ProjectResponseOf(db, p) in rs)
    && (forall x :: x in rs ==> exists p :: p in db.projects && RoleInProject(db, userId, p.id).Some? && x == ProjectResponseOf(db, p))
  }

  /** The responses of the projects user `userId` holds a membership in, in table order. */
  function JoinedResponses(db: Db, userId: int): (r: seq<ProjectResponse>)
    requires Valid(db)
    ensures ListsJoined(db, userId, r)
  {
    var joined := Filter(db.projects, JoinedBy(db, userId));
    FilterMembers(db.projects, JoinedBy(db, userId));
    ProjectResponsesCover(db, joined);
    ProjectResponsesOrigin(db, joined);
    ProjectResponses(db, joined)
  }

  /**
   * `getUserProjects`: the projects the user has a membership row in, in table order; a
   * creator who lost their row no longer sees the project here.
   */
  function GetUserProjects(db: Db, username: string): (r: Result<seq<ProjectResponse>, Error>)
    requires Valid(db)
    ensures r.Ok? <==> UserByUsername(db, username).Some?
    ensures r.Ok? ==> ListsJoined(db, UserByUsername(db, username).value.id, r.value)
  {
    match UserByUsername(db, username)
    case None => Err(Rejected("Usuario no encontrado"))
    case Some(u) => Ok(JoinedResponses(db, u.id))
  }

  /** The row `updateProject` writes back: name and description overwritten, the status only when given. */
  function UpdatedProject(p: Project, req: ProjectRequest): (r: Project)
    ensures r.id == p.id && r.createdBy == p.createdBy && r.createdAt == p.createdAt
    ensures r.name == req.name && r.description == req.description
    ensures r.status == (if req.status.Some? then req.status.value else p.status)
  {
    p.(name := req.name, description := req.description, status := req.status.GetOr(p.status))
  }

  /** The rows with id `id` are replaced by `p`. */
  function ReplaceProject(id: int, p: Project): Project -> Project {
    (x: Project) => if x.id == id then p else x
  }

  /** `updateProject`. */
  function UpdateProject(db: Db, projectId: int, req: ProjectRequest, username: string): (r: Step<ProjectResponse>)
    requires Valid(db)
    ensures r.result.Err? ==> r.db == db
    ensures r.result.Ok? <==> LoadUserAndProject(db, username, projectId).Ok?
                              && CanEditProject(db, UserByUsername(db, username).value, ProjectById(db, projectId).value)
    ensures LoadUserAndProject(db, username, projectId).Ok?
            && !CanEditProject(db, UserByUsername(db, username).value, ProjectById(db, projectId).value) ==>
              r.result == Err(Rejected("No tienes permisos para editar este proyecto"))
    ensures r.result.Ok? ==>
              var p := UpdatedProject(ProjectById(db, projectId).value, req);
              && r.db == db.(projects := Map(db.projects, ReplaceProject(projectId, p)))
              && Valid(r.db)
              && r.result.value == ProjectResponseOf(r.db, p)
  {
    match LoadUserAndProject(db, username, projectId)
    case Err(e) => Step(db, Err(e))
    case Ok((u, p)) =>
      if !CanEditProject(db, u, p) then Fail(db, "No tienes permisos para editar este proyecto")
      else
        var p' := UpdatedProject(p, req);
        ReplaceProjectKeepsValid(db, projectId, p');
        var after := db.(projects := Map(db.projects, ReplaceProject(projectId, p')));
        Step(after, Ok(ProjectResponseOf(after, p')))
  }

  /** The test "is not project `projectId`". */
  function OtherProject(projectId: int): Project -> bool {
    (p: Project) => p.id != projectId
  }

  /** The test "is not a task of project `projectId`". */
  function OtherProjectTask(projectId: int): Task -> bool {
    (t: Task) => t.projectId != projectId
  }

  /** The test "is not a membership row of project `projectId`". */
  function OtherProjectRow(projectId: int): Membership -> bool {
    (m: Membership) => m.projectId != projectId
  }

  /** The state after deleting project `projectId`: its tasks and memberships are removed with it. */
  function WithoutProject(db: Db, projectId: int): (r: Db)
    ensures r.users == db.users && r.roles == db.roles && r.labels == db.labels && r.refreshTokens == db.refreshTokens
    ensures forall p :: p in r.projects <==> p in db.projects && p.id != projectId
    ensures forall t :: t in r.tasks <==> t in db.tasks && t.projectId != projectId
    ensures forall m :: m in r.members <==> m in db.members && m.projectId != projectId
    ensures KeepsOnly(r.projects, db.projects, OtherProject(projectId))
    ensures KeepsOnly(r.tasks, db.tasks, OtherProjectTask(projectId))
    ensures KeepsOnly(r.members, db.members, OtherProjectRow(projectId))
  {
    Seqs.FilterMembers(db.projects, OtherProject(projectId));
    Seqs.FilterMembers(db.tasks, OtherProjectTask(projectId));
    Seqs.FilterMembers(db.members, OtherProjectRow(projectId));
    FilterKeepsOnly(db.projects, OtherProject(projectId));
    FilterKeepsOnly(db.tasks, OtherProjectTask(projectId));
    FilterKeepsOnly(db.members, OtherProjectRow(projectId));
    db.(projects := Filter(db.projects, OtherProject(projectId)),
        tasks := Filter(db.tasks, OtherProjectTask(projectId)),
        members := Filter(db.members, OtherProjectRow(projectId)))
  }

  /** `deleteProject`: only the creator; the project's tasks and memberships are deleted with it. */
  function DeleteProject(db: Db, projectId: int, username: string): (r: Step<()>)
    ensures r.result.Err? ==> r.db == db
    ensures r.result.Ok? <==> LoadUserAndProject(db, username, projectId).Ok?
                              && CanDeleteProject(UserByUsername(db, username).value, ProjectById(db, projectId).value)
    ensures LoadUserAndProject(db, username, projectId).Ok?
            && !CanDeleteProject(UserByUsername(db, username).value, ProjectById(db, projectId).value) ==>
              r.result == Err(Rejected("No tienes permisos para eliminar este proyecto"))
    ensures r.result.Ok? ==> r.db == WithoutProject(db, projectId)
  {
    match LoadUserAndProject(db, username, projectId)
    case Err(e) => Step(db, Err(e))
    case Ok((u, p)) =>
      if !CanDeleteProject(u, p) then Fail(db, "No tienes permisos para eliminar este proyecto")
      else Step(WithoutProject(db, projectId), Ok(()))
  }

  /** Adding a project with a fresh id and an existing creator, together with the creator's OWNER row, keeps the database's integrity. */
  lemma AddProjectKeepsValid(db: Db, p: Project, now: int)
    requires Valid(db) && HasUser(db, p.createdBy) && ProjectById(db, p.id).None?
    ensures Valid(WithNewProject(db, p, now))
  {
    var mid := db.(projects := db.projects + [p]);
    assert HasProject(mid, p.id) by {
      assert p in mid.projects;
    }
    forall x | HasProject(db, x) ensures HasProject(mid, x) {
      var q :| q in db.projects && q.id == x;
      assert q in mid.projects;
    }
    assert Valid(mid);
    assert MembershipOf(mid, p.createdBy, p.id).None?;
    MemberService.AppendRowKeepsValid(mid, Membership(p.createdBy, p.id, Owner, now));
  }

  /** Replacing the rows with one id by a project with the same id and an existing creator keeps the database's integrity. */
  lemma ReplaceProjectKeepsValid(db: Db, id: int, p: Project)
    requires Valid(db) && p.id == id && HasUser(db, p.createdBy)
    ensures Valid(db.(projects := Map(db.projects, ReplaceProject(id, p))))
  {
    var after := db.(projects := Map(db.projects, ReplaceProject(id, p)));
    forall x | HasProject(db, x) ensures HasProject(after, x) {
      var q :| q in db.projects && q.id == x;
      var i :| 0 <= i < |db.projects| && db.projects[i] == q;
      assert after.projects[i].id == x;
    }
    forall q | q in after.projects ensures HasUser(after, q.createdBy) {
      var i :| 0 <= i < |after.projects| && after.projects[i] == q;
      assert db.projects[i] in db.projects;
    }
  }

  /**
   * Keeping only some rows of a valid database keeps its integrity, provided every kept task
   * and membership row still finds its project.
   */
  lemma KeepRowsKeepsValid(db: Db, after: Db)
    requires Valid(db)
    requires after.users == db.users && after.labels == db.labels && after.refreshTokens == db.refreshTokens
    requires forall p :: p in after.projects ==> p in db.projects
    requires forall t :: t in after.tasks ==> t in db.tasks && HasProject(after, t.projectId)
    requires forall m :: m in after.members ==> m in db.members && HasProject(after, m.projectId)
    ensures Valid(after)
  {
    forall t | t in after.tasks ensures TaskRefsResolve(after, t) {
      assert TaskRefsResolve(db, t);
    }
  }

  /** Deleting a project with its tasks and memberships keeps the database's integrity. */
  lemma WithoutProjectKeepsValid(db: Db, projectId: int)
    requires Valid(db)
    ensures Valid(WithoutProject(db, projectId))
  {
    var after := WithoutProject(db, projectId);
    forall x | HasProject(db, x) && x != projectId ensures HasProject(after, x) {
      var q :| q in db.projects && q.id == x;
      assert q in after.projects;
    }
    KeepRowsKeepsValid(db, after);
  }

  /** Creating a project keeps the database's integrity (the generated id is new). */
  lemma CreateProjectKeepsValid(db: Db, req: ProjectRequest, username: string, id: int, now: int)
    requires Valid(db) && ProjectById(db, id).None?
    ensures Valid(CreateProject(db, req, username, id, now).db)
  {
  }

  /** Deleting a project keeps the database's integrity: nothing refers to the removed rows. */
  lemma DeleteProjectKeepsValid(db: Db, projectId: int, username: string)
    requires Valid(db)
    ensures Valid(DeleteProject(db, projectId, username).db)
  {
    if DeleteProject(db, projectId, username).result.Ok? {
      WithoutProjectKeepsValid(db, projectId);
    }
  }

  /** After creating a project its creator is its OWNER, and so may manage its members. */
  lemma CreatorBecomesOwner(db: Db, req: ProjectRequest, username: string, id: int, now: int)
    requires Valid(db) && ProjectById(db, id).None?
    requires CreateProject(db, req, username, id, now).result.Ok?
    ensures var after := CreateProject(db, req, username, id, now).db;
            var u := UserByUsername(db, username).value;
            && RoleInProject(after, u.id, id) == Some(Owner)
            && ProjectById(after, id).Some?
            && CanManageProjectMembers(after, u, ProjectById(after, id).value)
  {
    var u := UserByUsername(db, username).value;
    var p := NewProject(req, u.id, id, now);
    var after := WithNewProject(db, p, now);
    assert MembershipOf(db, u.id, id).None?;
    FirstAppend(db.members, [Membership(u.id, id, Owner, now)], LinkedTo(u.id, id));
    FirstAppend(db.projects, [p], (q: Project) => q.id == id);
  }

  /** Creating a project keeps every project's creator its OWNER. */
  lemma CreateProjectKeepsOwners(db: Db, req: ProjectRequest, username: string, id: int, now: int)
    requires Valid(db) && MemberService.CreatorsAreOwners(db) && ProjectById(db, id).None?
    ensures MemberService.CreatorsAreOwners(CreateProject(db, req, username, id, now).db)
  {
    var r := CreateProject(db, req, username, id, now);
    if r.result.Ok? {
      var u := UserByUsername(db, username).value;
      var p := NewProject(req, u.id, id, now);
      var row := Membership(u.id, id, Owner, now);
      forall q | q in r.db.projects ensures RoleInProject(r.db, q.createdBy, q.id) == Some(Owner) {
        FirstAppend(db.members, [row], LinkedTo(q.createdBy, q.id));
        if q != p || q in db.projects {
          assert q in db.projects;
          assert RoleInProject(db, q.createdBy, q.id) == Some(Owner);
        } else {
          CreatorBecomesOwner(db, req, username, id, now);
        }
      }
    }
  }

  /** Replacing a project's rows by a row with the same id and creator keeps every project's creator its OWNER. */
  lemma ReplaceProjectKeepsOwners(db: Db, id: int, p: Project)
    requires MemberService.CreatorsAreOwners(db) && p.id == id
    requires RoleInProject(db, p.createdBy, id) == Some(Owner)
    ensures MemberService.CreatorsAreOwners(db.(projects := Map(db.projects, ReplaceProject(id, p))))
  {
    var after := db.(projects := Map(db.projects, ReplaceProject(id, p)));
    forall q | q in after.projects ensures RoleInProject(after, q.createdBy, q.id) == Some(Owner) {
      var i :| 0 <= i < |after.projects| && after.projects[i] == q;
      assert db.projects[i] in db.projects;
    }
  }

  /** Updating a project keeps every project's creator its OWNER: creators and memberships are untouched. */
  lemma UpdateProjectKeepsOwners(db: Db, projectId: int, req: ProjectRequest, username: string)
    requires Valid(db) && MemberService.CreatorsAreOwners(db)
    ensures MemberService.CreatorsAreOwners(UpdateProject(db, projectId, req, username).db)
  {
    if UpdateProject(db, projectId, req, username).result.Ok? {
      var p := ProjectById(db, projectId).value;
      assert RoleInProject(db, p.createdBy, p.id) == Some(Owner);
      ReplaceProjectKeepsOwners(db, projectId, UpdatedProject(p, req));
    }
  }

  /** Deleting a project keeps every remaining project's creator its OWNER. */
  lemma DeleteProjectKeepsOwners(db: Db, projectId: int, username: string)
    requires MemberService.CreatorsAreOwners(db)
    ensures MemberService.CreatorsAreOwners(DeleteProject(db, projectId, username).db)
  {
    var r := DeleteProject(db, projectId, username);
    if r.result.Ok? {
      forall q | q in r.db.projects ensures RoleInProject(r.db, q.createdBy, q.id) == Some(Owner) {
        FirstFilter(db.members, OtherProjectRow(projectId), LinkedTo(q.createdBy, q.id));
      }
    }
  }

  /** No row of the new project exists before it is created: every row's project exists. */
  lemma FreshProjectHasNoRows(db: Db, id: int)
    requires Valid(db) && ProjectById(db, id).None?
    ensures Filter(db.members, RowOf(id)) == []
    ensures forall t :: t in db.tasks ==> t.projectId != id
  {
    forall i | 0 <= i < |db.members| ensures !RowOf(id)(db.members[i]) {
      assert db.members[i] in db.members;
    }
    FilterKeepsNone(db.members, RowOf(id));
  }

  /** The response of a project just saved with its OWNER row counts no tasks and the creator as the one member. */
  lemma NewProjectResponse(db: Db, p: Project, now: int)
    requires Valid(db) && HasUser(db, p.createdBy) && ProjectById(db, p.id).None?
    ensures Valid(WithNewProject(db, p, now))
    ensures var r := ProjectResponseOf(WithNewProject(db, p, now), p);
            r.taskCount == 0 && r.memberCount == 1 && r.members == [UserById(db, p.createdBy).value.username]
  {
    AddProjectKeepsValid(db, p, now);
    FreshProjectHasNoRows(db, p.id);
    var row := Membership(p.createdBy, p.id, Owner, now);
    FilterConcat(db.members, [row], RowOf(p.id));
    assert Filter([row], RowOf(p.id)) == [row] by {
      assert [row][1..] == [];
    }
  }

  /**
   * The response of a freshly created project counts no tasks and its creator as the one
   * member (by username when user ids are keys, as the users table guarantees).
   */
  lemma CreatedProjectCounts(db: Db, req: ProjectRequest, username: string, id: int, now: int)
    requires Valid(db) && ProjectById(db, id).None?
    requires CreateProject(db, req, username, id, now).result.Ok?
    ensures var resp := CreateProject(db, req, username, id, now).result.value;
            && resp.taskCount == 0 && resp.memberCount == 1
            && (UserIdsAreKeys(db) ==> resp.members == [username])
  {
    var u := UserByUsername(db, username).value;
    NewProjectResponse(db, NewProject(req, u.id, id, now), now);
  }

  /**
   * The as-written response disagrees with reading the project back: right after creation
   * `getProject` reports the creator as the one member, the create response reports none.
   */
  lemma CreateResponseMissesOwner(db: Db, req: ProjectRequest, username: string, id: int, now: int)
    requires Valid(db) && ProjectById(db, id).None?
    requires CreateProjectAsWritten(db, req, username, id, now).result.Ok?
    ensures var r := CreateProjectAsWritten(db, req, username, id, now);
            && Valid(r.db)
            && GetProject(r.db, id, username).Ok?
            && GetProject(r.db, id, username).value.memberCount == 1
            && r.result.value.memberCount == 0
  {
    var u := UserByUsername(db, username).value;
    CreatorBecomesOwner(db, req, username, id, now);
    CreatedProjectCounts(db, req, username, id, now);
    var after := CreateProject(db, req, username, id, now).db;
    assert UserByUsername(after, username) == Some(u);
    assert ProjectById(after, id).value == NewProject(req, u.id, id, now);
  }

  /** The corrected response is exactly what reading the project back returns. */
  lemma CreateThenGetAgree(db: Db, req: ProjectRequest, username: string, id: int, now: int)
    requires Valid(db) && ProjectById(db, id).None?
    requires CreateProject(db, req, username, id, now).result.Ok?
    ensures var r := CreateProject(db, req, username, id, now);
            GetProject(r.db, id, username) == r.result
  {
    var u := UserByUsername(db, username).value;
    CreatorBecomesOwner(db, req, username, id, now);
    var after := CreateProject(db, req, username, id, now).db;
    assert UserByUsername(after, username) == Some(u);
    assert ProjectById(after, id).value == NewProject(req, u.id, id, now);
  }

  /** Saving a project from the dialog untouched writes its row back unchanged. */
  lemma DialogSaveKeepsProject(db: Db, p: Project, form: ProjectRequest)
    requires Valid(db) && p in db.projects
    ensures UpdatedProject(p, ProjectDialog.OnOpen(form, true, Some(ProjectResponseOf(db, p)))) == p
  {
  }

  /** After a deletion nothing refers to the project any more, and other projects keep their tasks and members. */
  lemma DeleteProjectLeavesNoTrace(db: Db, projectId: int, username: string)
    requires DeleteProject(db, projectId, username).result.Ok?
    ensures var after := DeleteProject(db, projectId, username).db;
            && ProjectById(after, projectId).None?
            && (forall t :: t in after.tasks ==> t.projectId != projectId)
            && (forall m :: m in after.members ==> m.projectId != projectId)
            && (forall t :: t in db.tasks && t.projectId != projectId ==> t in after.tasks)
            && (forall m :: m in db.members && m.projectId != projectId ==> m in after.members)
  {
  }
}

=== FILE: seqs.dfy ===
/** Order-preserving sequence operations: `Array.prototype.filter` and first-occurrence de-duplication. */
module Seqs {
  import Wrappers

  /** `s.filter(p)`: the elements of `s` satisfying `p`, in their original order. */
  function Filter<T>(s: seq<T>, p: T -> bool): (r: seq<T>)
    ensures |r| <= |s|
    ensures forall i :: 0 <= i < |r| ==> r[i] in s && p(r[i])
    ensures forall i :: 0 <= i < |s| && p(s[i]) ==> s[i] in r
  {
    if s == [] then []
    else if p(s[0]) then [s[0]] + Filter(s[1..], p)
    else Filter(s[1..], p)
  }

  /** `s.map(f)`. */
  function Map<T, U>(s: seq<T>, f: T -> U): (r: seq<U>)
    ensures |r| == |s|
    ensures forall i :: 0 <= i < |s| ==> r[i] == f(s[i])
  {
    seq(|s|, i requires 0 <= i < |s| => f(s[i]))
  }

  /** `ss.flat()`: the sequences of `ss` one after the other. */
  function Flatten<T>(ss: seq<seq<T>>): seq<T>
    decreases |ss|
  {
    if ss == [] then [] else ss[0] + Flatten(ss[1..])
  }

  /** `x` is an element of one of the sequences of `ss`. */
  ghost predicate InSome<T>(ss: seq<seq<T>>, x: T)
  {
    exists i :: 0 <= i < |ss| && x in ss[i]
  }

  /** Every element of every inner sequence is in the flattened one, and nothing else is. */
  lemma {:induction false} FlattenMembers<T>(ss: seq<seq<T>>)
    ensures forall i, j :: 0 <= i < |ss| && 0 <= j < |ss[i]| ==> ss[i][j] in Flatten(ss)
    ensures forall n :: 0 <= n < |Flatten(ss)| ==> InSome(ss, Flatten(ss)[n])
    decreases |ss|
  {
    if ss != [] {
      FlattenMembers(ss[1..]);
      var f := Flatten(ss);
      assert f == ss[0] + Flatten(ss[1..]);
      forall n | 0 <= n < |f| ensures InSome(ss, f[n]) {
        if n < |ss[0]| {
          assert f[n] in ss[0];
        } else {
          assert f[n] == Flatten(ss[1..])[n - |ss[0]|];
          var i :| 0 <= i < |ss[1..]| && f[n] in ss[1..][i];
          assert f[n] in ss[i + 1];
        }
      }
      forall i, j | 0 <= i < |ss| && 0 <= j < |ss[i]| ensures ss[i][j] in f {
        if i > 0 {
          assert ss[i] == ss[1..][i - 1];
        }
      }
    }
  }

  /** `a` can be obtained from `b` by deleting elements: order kept, nothing invented or repeated. */
  ghost predicate IsSubsequence<T>(a: seq<T>, b: seq<T>)
    decreases |b|
  {
    if a == [] then true
    else if b == [] then false
    else (a[0] == b[0] && IsSubsequence(a[1..], b[1..])) || IsSubsequence(a, b[1..])
  }

  lemma {:induction false} FilterIsSubsequence<T>(s: seq<T>, p: T -> bool)
    ensures IsSubsequence(Filter(s, p), s)
    decreases |s|
  {
    if s != [] {
      FilterIsSubsequence(s[1..], p);
      var r := Filter(s, p);
      if p(s[0]) {
        assert r[0] == s[0] && r[1..] == Filter(s[1..], p);
      }
    }
  }

  /** Filtering neither duplicates nor loses copies: each kept value occurs as often as in the input. */
  lemma {:induction false} FilterMultiset<T>(s: seq<T>, p: T -> bool)
    ensures forall x :: multiset(Filter(s, p))[x] == if p(x) then multiset(s)[x] else 0
    decreases |s|
  {
    if s != [] {
      FilterMultiset(s[1..], p);
      assert s == [s[0]] + s[1..];
    }
  }

  /**
   * `r` is what remains of `s` once every element failing `keep` is deleted: the kept elements
   * in their order, each as often as in `s`, and nothing else.
   */
  ghost predicate KeepsOnly<T(!new)>(r: seq<T>, s: seq<T>, keep: T -> bool) {
    IsSubsequence(r, s) && forall x :: multiset(r)[x] == if keep(x) then multiset(s)[x] else 0
  }

  /** Filtering keeps exactly the passing elements. */
  lemma FilterKeepsOnly<T(!new)>(s: seq<T>, keep: T -> bool)
    ensures KeepsOnly(Filter(s, keep), s, keep)
  {
    FilterIsSubsequence(s, keep);
    FilterMultiset(s, keep);
  }

  /** A subsequence holds no value more often than the sequence it is taken from. */
  lemma {:induction false} SubsequenceMultiset<T>(a: seq<T>, b: seq<T>)
    requires IsSubsequence(a, b)
    ensures forall x :: multiset(a)[x] <= multiset(b)[x]
    decreases |b|
  {
    if a != [] {
      assert b == [b[0]] + b[1..];
      if a[0] == b[0] && IsSubsequence(a[1..], b[1..]) {
        SubsequenceMultiset(a[1..], b[1..]);
        assert a == [a[0]] + a[1..];
      } else {
        SubsequenceMultiset(a, b[1..]);
      }
    }
  }

  /** `KeepsOnly` pins the result: the only sequence keeping exactly the passing elements is the filter. */
  lemma {:induction false} KeepsOnlyUnique<T(!new)>(r: seq<T>, s: seq<T>, keep: T -> bool)
    requires KeepsOnly(r, s, keep)
    ensures r == Filter(s, keep)
    decreases |s|
  {
    if s == [] {
    } else {
      var h, t := s[0], s[1..];
      assert s == [h] + t;
      if r != [] && r[0] == h && IsSubsequence(r[1..], t) && keep(h) {
        assert r == [h] + r[1..];
        assert KeepsOnly(r[1..], t, keep);
        KeepsOnlyUnique(r[1..], t, keep);
      } else {
        assert IsSubsequence(r, t) by {
          if r != [] && r[0] == h && IsSubsequence(r[1..], t) {
            assert false;
          }
        }
        if keep(h) {
          SubsequenceMultiset(r, t);
          assert false;
        }
        assert KeepsOnly(r, t, keep);
        KeepsOnlyUnique(r, t, keep);
      }
    }
  }

  /** The elements of `Filter(s, p)` are exactly the elements of `s` that satisfy `p`. */
  lemma FilterMembers<T>(s: seq<T>, p: T -> bool)
    ensures forall x :: x in Filter(s, p) <==> x in s && p(x)
  {
    var f := Filter(s, p);
    forall x | x in s && p(x) ensures x in f {
      var k :| 0 <= k < |s| && s[k] == x;
    }
  }

  lemma {:induction false} FilterConcat<T>(a: seq<T>, b: seq<T>, p: T -> bool)
    ensures Filter(a + b, p) == Filter(a, p) + Filter(b, p)
    decreases |a|
  {
    if a != [] {
      assert (a + b)[0] == a[0];
      assert (a + b)[1..] == a[1..] + b;
      FilterConcat(a[1..], b, p);
    } else {
      assert a + b == b;
    }
  }

  /** Two predicates that agree on the elements of `s` filter it identically. */
  lemma {:induction false} FilterAgree<T>(s: seq<T>, p: T -> bool, q: T -> bool)
    requires forall i :: 0 <= i < |s| ==> p(s[i]) == q(s[i])
    ensures Filter(s, p) == Filter(s, q)
    decreases |s|
  {
    if s != [] {
      FilterAgree(s[1..], p, q);
    }
  }

  /** Filtering by `p` and then by `q` is filtering once by their conjunction `r`. */
  lemma {:induction false} FilterThenFilter<T>(s: seq<T>, p: T -> bool, q: T -> bool, r: T -> bool)
    requires forall x :: r(x) == (p(x) && q(x))
    ensures Filter(Filter(s, p), q) == Filter(s, r)
    decreases |s|
  {
    if s != [] {
      FilterThenFilter(s[1..], p, q, r);
      if p(s[0]) {
        var f := Filter(s, p);
        assert f[0] == s[0] && f[1..] == Filter(s[1..], p);
      }
    }
  }

  /** Filtering a non-empty sequence: the head counts once if it passes. */
  lemma FilterLengthStep<T>(s: seq<T>, p: T -> bool)
    requires s != []
    ensures |Filter(s, p)| == (if p(s[0]) then 1 else 0) + |Filter(s[1..], p)|
  {
  }

  /** `FilterLengthStep` at position `k`: the suffix from `k` counts `s[k]` and then the suffix from `k + 1`. */
  lemma FilterLengthAt<T>(s: seq<T>, k: nat, p: T -> bool)
    requires k < |s|
    ensures |Filter(s[k..], p)| == (if p(s[k]) then 1 else 0) + |Filter(s[k + 1..], p)|
  {
    FilterLengthStep(s[k..], p);
    assert s[k..][1..] == s[k + 1..];
  }

  /** Filtering a one-element sequence keeps the element exactly when it passes. */
  lemma FilterSingleton<T>(y: T, p: T -> bool)
    ensures Filter([y], p) == if p(y) then [y] else []
  {
    assert [y][1..] == [];
  }

  /** A filter that keeps no element of `s` returns the empty sequence. */
  lemma {:induction false} FilterKeepsNone<T>(s: seq<T>, p: T -> bool)
    requires forall i :: 0 <= i < |s| ==> !p(s[i])
    ensures Filter(s, p) == []
    decreases |s|
  {
    if s != [] {
      FilterKeepsNone(s[1..], p);
    }
  }

  /** A filter that keeps every element of `s` returns `s` itself. */
  lemma {:induction false} FilterKeepsAll<T>(s: seq<T>, p: T -> bool)
    requires forall i :: 0 <= i < |s| ==> p(s[i])
    ensures Filter(s, p) == s
    decreases |s|
  {
    if s != [] {
      FilterKeepsAll(s[1..], p);
    }
  }

  /** No two positions hold the same value. */
  ghost predicate NoDuplicates<T>(s: seq<T>) {
    forall i, j :: 0 <= i < j < |s| ==> s[i] != s[j]
  }

  /** The identity, as the key of values that are their own key. */
  function Id<T>(x: T): T {
    x
  }

  /** The set of keys of the elements of `s`. */
  function KeysOf<T, K>(s: seq<T>, key: T -> K): set<K> {
    set i | 0 <= i < |s| :: key(s[i])
  }

  /** Position `i` is the first one in `s` holding key `key(s[i])`: `s.findIndex(y => key(y) == key(s[i])) === i`. */
  predicate IsFirstOccurrence<T, K(==)>(s: seq<T>, key: T -> K, i: int)
    requires 0 <= i < |s|
  {
    forall j :: 0 <= j < i ==> key(s[j]) != key(s[i])
  }

  /** The positions `m >= i` of `s` that are first occurrences of their key, in increasing order. */
  function FirstPositionsFrom<T, K(==)>(s: seq<T>, key: T -> K, i: nat): (ps: seq<nat>)
    requires i <= |s|
    ensures forall n :: 0 <= n < |ps| ==> i <= ps[n] < |s| && IsFirstOccurrence(s, key, ps[n])
    ensures forall a, b :: 0 <= a < b < |ps| ==> ps[a] < ps[b]
    ensures forall m :: i <= m < |s| && IsFirstOccurrence(s, key, m) ==> m in ps
    decreases |s| - i
  {
    if i == |s| then []
    else if IsFirstOccurrence(s, key, i) then [i] + FirstPositionsFrom(s, key, i + 1)
    else FirstPositionsFrom(s, key, i + 1)
  }

  /** `s.filter((x, i, self) => self.findIndex(y => key(y) == key(x)) === i)`: the first element of each key. */
  function KeepFirst<T, K(==)>(s: seq<T>, key: T -> K): (r: seq<T>)
    ensures |r| <= |s|
  {
    var ps := FirstPositionsFrom(s, key, 0);
    assert |ps| <= |s| by {
      FirstPositionsBound(ps, |s|);
    }
    seq(|ps|, n requires 0 <= n < |ps| => s[ps[n]])
  }

  /** A strictly increasing sequence of positions below `bound` has at most `bound` entries. */
  lemma {:induction false} FirstPositionsBound(ps: seq<nat>, bound: nat)
    requires forall n :: 0 <= n < |ps| ==> ps[n] < bound
    requires forall a, b :: 0 <= a < b < |ps| ==> ps[a] < ps[b]
    ensures |ps| <= bound
    decreases |ps|
  {
    if ps != [] {
      var last := ps[|ps| - 1];
      FirstPositionsBound(ps[..|ps| - 1], last);
    }
  }

  /** Every key of `s` has a first occurrence at or before any position holding it. */
  lemma {:induction false} FirstOccurrenceExists<T, K>(s: seq<T>, key: T -> K, m: nat)
    requires m < |s|
    ensures exists m0 :: 0 <= m0 <= m && key(s[m0]) == key(s[m]) && IsFirstOccurrence(s, key, m0)
    decreases m
  {
    if !IsFirstOccurrence(s, key, m) {
      var j :| 0 <= j < m && key(s[j]) == key(s[m]);
      FirstOccurrenceExists(s, key, j);
    }
  }

  /** De-duplication keeps only first occurrences of the input. */
  lemma KeepFirstOrigin<T, K>(s: seq<T>, key: T -> K)
    ensures forall n :: 0 <= n < |KeepFirst(s, key)| ==>
              exists m :: 0 <= m < |s| && s[m] == KeepFirst(s, key)[n] && IsFirstOccurrence(s, key, m)
  {
    var ps := FirstPositionsFrom(s, key, 0);
    var r := KeepFirst(s, key);
    forall n | 0 <= n < |r|
      ensures exists m :: 0 <= m < |s| && s[m] == r[n] && IsFirstOccurrence(s, key, m)
    {
      assert s[ps[n]] == r[n];
    }
  }

  /** De-duplication keeps at most one element per key. */
  lemma KeepFirstDistinct<T, K>(s: seq<T>, key: T -> K)
    ensures forall a, b :: 0 <= a < b < |KeepFirst(s, key)| ==> key(KeepFirst(s, key)[a]) != key(KeepFirst(s, key)[b])
  {
    var ps := FirstPositionsFrom(s, key, 0);
    var r := KeepFirst(s, key);
    forall a, b | 0 <= a < b < |r| ensures key(r[a]) != key(r[b]) {
      assert r[a] == s[ps[a]] && r[b] == s[ps[b]];
      assert IsFirstOccurrence(s, key, ps[b]);
    }
  }

  /** De-duplication loses no key. */
  lemma KeepFirstCovers<T, K>(s: seq<T>, key: T -> K)
    ensures forall m :: 0 <= m < |s| ==> key(s[m]) in KeysOf(KeepFirst(s, key), key)
  {
    var ps := FirstPositionsFrom(s, key, 0);
    var r := KeepFirst(s, key);
    forall m | 0 <= m < |s| ensures key(s[m]) in KeysOf(r, key) {
      FirstOccurrenceExists(s, key, m);
      var m0 :| 0 <= m0 <= m && key(s[m0]) == key(s[m]) && IsFirstOccurrence(s, key, m0);
      var n :| 0 <= n < |ps| && ps[n] == m0;
      assert r[n] == s[m0];
    }
  }

  /** A sequence without duplicates holds each value at most once. */
  lemma {:induction false} NoDuplicatesMultiset<T>(s: seq<T>)
    ensures NoDuplicates(s) <==> forall x :: multiset(s)[x] <= 1
    decreases |s|
  {
    if s != [] {
      NoDuplicatesMultiset(s[1..]);
      assert s == [s[0]] + s[1..];
      if NoDuplicates(s) {
        assert NoDuplicates(s[1..]) by {
          forall i, j | 0 <= i < j < |s[1..]| ensures s[1..][i] != s[1..][j] {
            assert s[1..][i] == s[i + 1] && s[1..][j] == s[j + 1];
          }
        }
        assert s[0] !in s[1..] by {
          forall j | 0 <= j < |s[1..]| ensures s[1..][j] != s[0] {
            assert s[1..][j] == s[j + 1];
          }
        }
      }
      if forall x :: multiset(s)[x] <= 1 {
        forall i, j | 0 <= i < j < |s| ensures s[i] != s[j] {
          if i == 0 {
            assert s[j] in s[1..];
            assert multiset(s)[s[0]] == 1 + multiset(s[1..])[s[0]];
          } else {
            assert forall x :: multiset(s[1..])[x] <= multiset(s)[x];
            assert s[1..][i - 1] == s[i] && s[1..][j - 1] == s[j];
          }
        }
      }
    }
  }

  /** Rearranging a sequence whose keys are distinct keeps the keys distinct. */
  lemma PermutationKeepsDistinctKeys<T, K>(s: seq<T>, r: seq<T>, key: T -> K)
    requires multiset(r) == multiset(s)
    requires forall a, b :: 0 <= a < b < |s| ==> key(s[a]) != key(s[b])
    ensures forall a, b :: 0 <= a < b < |r| ==> key(r[a]) != key(r[b])
  {
    NoDuplicatesMultiset(s);
    NoDuplicatesMultiset(r);
    forall a, b | 0 <= a < b < |r| ensures key(r[a]) != key(r[b]) {
      assert r[a] in multiset(s) && r[b] in multiset(s);
      var p :| 0 <= p < |s| && s[p] == r[a];
      var q :| 0 <= q < |s| && s[q] == r[b];
      if p < q {
        assert key(s[p]) != key(s[q]);
      } else if q < p {
        assert key(s[q]) != key(s[p]);
      }
    }
  }

  /**
   * `if (active(c)) s = s.filter(x => test(c, x))` for each criterion `c` of `stages` in turn:
   * the shape of a hook that narrows a list criterion by criterion.
   */
  function FilterChain<T, C>(s: seq<T>, stages: seq<C>, active: C -> bool, test: (C, T) -> bool): seq<T>
    decreases |stages|
  {
    if stages == [] then s
    else
      var next := if active(stages[0]) then Filter(s, x => test(stages[0], x)) else s;
      FilterChain(next, stages[1..], active, test)
  }

  /** `x` passes every active criterion of `stages`. */
  predicate PassesChain<T, C>(stages: seq<C>, active: C -> bool, test: (C, T) -> bool, x: T) {
    forall i :: 0 <= i < |stages| ==> !active(stages[i]) || test(stages[i], x)
  }

  lemma PassesChainStep<T, C>(stages: seq<C>, active: C -> bool, test: (C, T) -> bool, x: T)
    requires stages != []
    ensures PassesChain(stages, active, test, x)
            == ((!active(stages[0]) || test(stages[0], x)) && PassesChain(stages[1..], active, test, x))
  {
    if (!active(stages[0]) || test(stages[0], x)) && PassesChain(stages[1..], active, test, x) {
      forall i | 0 <= i < |stages| ensures !active(stages[i]) || test(stages[i], x) {
        if i > 0 {
          assert stages[i] == stages[1..][i - 1];
        }
      }
    }
  }

  /** One stage after a filter by `p` is a single filter by `p` and the stage's condition. */
  lemma StageAfterFilter<T, C>(s: seq<T>, p: T -> bool, c: C, active: C -> bool, test: (C, T) -> bool)
    ensures (if active(c) then Filter(Filter(s, p), x => test(c, x)) else Filter(s, p))
            == Filter(s, x => p(x) && (!active(c) || test(c, x)))
  {
    var g := x => !active(c) || test(c, x);
    if active(c) {
      FilterAgree(Filter(s, p), x => test(c, x), g);
    } else {
      FilterKeepsAll(Filter(s, p), g);
    }
    FilterThenFilter(s, p, g, x => p(x) && (!active(c) || test(c, x)));
  }

  /** A chain run after a filter by `p` is one filter by `p` and every active criterion. */
  lemma {:induction false} FilterChainAfterFilter<T, C>(s: seq<T>, p: T -> bool, stages: seq<C>, active: C -> bool, test: (C, T) -> bool)
    ensures FilterChain(Filter(s, p), stages, active, test) == Filter(s, x => p(x) && PassesChain(stages, active, test, x))
    decreases |stages|
  {
    if stages == [] {
      FilterAgree(s, p, x => p(x) && PassesChain(stages, active, test, x));
    } else {
      var c := stages[0];
      var p1 := x => p(x) && (!active(c) || test(c, x));
      StageAfterFilter(s, p, c, active, test);
      FilterChainAfterFilter(s, p1, stages[1..], active, test);
      forall x ensures (p1(x) && PassesChain(stages[1..], active, test, x)) == (p(x) && PassesChain(stages, active, test, x)) {
        PassesChainStep(stages, active, test, x);
      }
      FilterAgree(s, x => p1(x) && PassesChain(stages[1..], active, test, x), x => p(x) && PassesChain(stages, active, test, x));
    }
  }

  /** The chain of stages keeps exactly the elements that pass every active criterion, in order. */
  lemma FilterChainIsFilter<T, C>(s: seq<T>, stages: seq<C>, active: C -> bool, test: (C, T) -> bool)
    ensures FilterChain(s, stages, active, test) == Filter(s, x => PassesChain(stages, active, test, x))
  {
    var all := (x: T) => true;
    FilterKeepsAll(s, all);
    FilterChainAfterFilter(s, all, stages, active, test);
    FilterAgree(s, x => all(x) && PassesChain(stages, active, test, x), x => PassesChain(stages, active, test, x));
  }
  /** `s.find(p)`, or a repository's first matching row: the earliest element satisfying `p`. */
  function First<T>(s: seq<T>, p: T -> bool): (r: Wrappers.Option<T>)
    ensures r.None? <==> forall i :: 0 <= i < |s| ==> !p(s[i])
    ensures r.Some? ==> r.value in s && p(r.value)
    ensures r.Some? ==> exists i :: 0 <= i < |s| && s[i] == r.value && forall j :: 0 <= j < i ==> !p(s[j])
  {
    if s == [] then Wrappers.None
    else if p(s[0]) then Wrappers.Some(s[0])
    else
      var r := First(s[1..], p);
      assert r.None? ==> forall i :: 0 <= i < |s| ==> !p(s[i]) by {
        if r.None? {
          forall i | 0 <= i < |s| ensures !p(s[i]) {
            if i > 0 {
              assert s[i] == s[1..][i - 1];
            }
          }
        }
      }
      assert r.Some? ==> exists i :: 0 <= i < |s| && s[i] == r.value && forall j :: 0 <= j < i ==> !p(s[j]) by {
        if r.Some? {
          var k :| 0 <= k < |s[1..]| && s[1..][k] == r.value && forall j :: 0 <= j < k ==> !p(s[1..][j]);
          forall j | 0 <= j < k + 1 ensures !p(s[j]) {
            if j > 0 {
              assert s[j] == s[1..][j - 1];
            }
          }
        }
      }
      r
  }
  /** Appending rows never changes an existing first match. */
  lemma {:induction false} FirstAppend<T>(s: seq<T>, t: seq<T>, p: T -> bool)
    ensures First(s + t, p) == if First(s, p).Some? then First(s, p) else First(t, p)
  {
    if s == [] {
      assert s + t == t;
    } else {
      assert (s + t)[1..] == s[1..] + t;
      FirstAppend(s[1..], t, p);
    }
  }

  /** Rewriting every row by a map that keeps the test's verdict rewrites the first match the same way. */
  lemma {:induction false} FirstMap<T>(s: seq<T>, f: T -> T, p: T -> bool)
    requires forall x :: p(f(x)) == p(x)
    ensures First(Map(s, f), p) == if First(s, p).Some? then Wrappers.Some(f(First(s, p).value)) else Wrappers.None
  {
    if s != [] {
      assert Map(s, f)[1..] == Map(s[1..], f);
      FirstMap(s[1..], f, p);
    }
  }

  /** Dropping rows that cannot match leaves the first match where it was. */
  lemma {:induction false} FirstFilter<T>(s: seq<T>, q: T -> bool, p: T -> bool)
    requires forall x :: p(x) ==> q(x)
    ensures First(Filter(s, q), p) == First(s, p)
  {
    if s != [] {
      FirstFilter(s[1..], q, p);
    }
  }
}

=== FILE: sorting.dfy ===
/**
 * `Array.prototype.sort` with a comparator that returns -1, 1 or 0 by comparing one key per element.
 * ECMA-262 (since its 2019 edition) requires this sort to be stable, and for a consistent comparator
 * a stable sort has exactly one possible result; `Sort` below is one way of computing it.
 */
module Sorting {
  import opened Seqs
  import opened Text

  /** The value a comparator compares: a number (or a date's time value) or a string. */
  datatype SortKey = Num(n: int) | Str(s: string)

  /** `!(b < a)` for JavaScript's `<` on two numbers or on two strings. */
  predicate KeyLe(a: SortKey, b: SortKey) {
    match (a, b)
    case (Num(x), Num(y)) => x <= y
    case (Str(x), Str(y)) => LexLe(x, y)
    case (Num(_), Str(_)) => true
    case (Str(_), Num(_)) => false
  }

  /** Under direction `asc` (otherwise descending), an element with key `a` may precede one with key `b`. */
  predicate InOrder(a: SortKey, b: SortKey, asc: bool) {
    if asc then KeyLe(a, b) else KeyLe(b, a)
  }

  lemma InOrderTotal(a: SortKey, b: SortKey, asc: bool)
    ensures InOrder(a, b, asc) || InOrder(b, a, asc)
  {
    if a.Str? && b.Str? {
      LexLeTotal(a.s, b.s);
    }
  }

  lemma InOrderReflexive(a: SortKey, asc: bool)
    ensures InOrder(a, a, asc)
  {
    InOrderTotal(a, a, asc);
  }

  lemma InOrderTransitive(a: SortKey, b: SortKey, c: SortKey, asc: bool)
    requires InOrder(a, b, asc) && InOrder(b, c, asc)
    ensures InOrder(a, c, asc)
  {
    if a.Str? && b.Str? && c.Str? {
      LexLeTransitive(a.s, b.s, c.s);
      LexLeTransitive(c.s, b.s, a.s);
    }
  }

  lemma InOrderAntisymmetric(a: SortKey, b: SortKey, asc: bool)
    requires InOrder(a, b, asc) && InOrder(b, a, asc)
    ensures a == b
  {
    if a.Str? && b.Str? {
      LexLeAntisymmetric(a.s, b.s);
    }
  }

  /** Every element precedes every later one under the direction: non-decreasing keys when ascending. */
  ghost predicate SortedBy<T>(s: seq<T>, key: T -> SortKey, asc: bool) {
    forall i, j :: 0 <= i < j < |s| ==> InOrder(key(s[i]), key(s[j]), asc)
  }

  /** Places `x` before the first element it may precede. */
  function Insert<T(==)>(x: T, s: seq<T>, key: T -> SortKey, asc: bool): (r: seq<T>)
    ensures multiset(r) == multiset(s) + multiset{x}
    decreases |s|
  {
    if s == [] then [x]
    else if InOrder(key(x), key(s[0]), asc) then [x] + s
    else
      assert s == [s[0]] + s[1..];
      [s[0]] + Insert(x, s[1..], key, asc)
  }

  lemma {:induction false} InsertSorted<T>(x: T, s: seq<T>, key: T -> SortKey, asc: bool)
    requires SortedBy(s, key, asc)
    ensures SortedBy(Insert(x, s, key, asc), key, asc)
    decreases |s|
  {
    if s != [] {
      var r := Insert(x, s, key, asc);
      if InOrder(key(x), key(s[0]), asc) {
        forall j | 0 <= j < |s| ensures InOrder(key(x), key(s[j]), asc) {
          if j > 0 {
            InOrderTransitive(key(x), key(s[0]), key(s[j]), asc);
          }
        }
        assert forall j :: 0 < j < |r| ==> r[j] == s[j - 1];
      } else {
        InOrderTotal(key(x), key(s[0]), asc);
        var t := Insert(x, s[1..], key, asc);
        InsertSorted(x, s[1..], key, asc);
        forall j | 0 <= j < |t| ensures InOrder(key(s[0]), key(t[j]), asc) {
          assert t[j] in multiset(t);
          if t[j] != x {
            assert t[j] in multiset(s[1..]);
            var m :| 0 <= m < |s[1..]| && s[1..][m] == t[j];
            assert s[m + 1] == t[j];
          }
        }
        assert r == [s[0]] + t;
      }
    }
  }

  /** `s.slice().sort(comparator)`: a stable sort under the key and direction. */
  function Sort<T(==)>(s: seq<T>, key: T -> SortKey, asc: bool): (r: seq<T>)
    ensures multiset(r) == multiset(s)
    ensures SortedBy(r, key, asc)
    decreases |s|
  {
    if s == [] then []
    else
      assert s == [s[0]] + s[1..];
      var t := Sort(s[1..], key, asc);
      InsertSorted(s[0], t, key, asc);
      Insert(s[0], t, key, asc)
  }

  /** The elements of `s` whose key is `k`, in order. */
  function WithKey<T>(s: seq<T>, key: T -> SortKey, k: SortKey): seq<T>
    decreases |s|
  {
    if s == [] then [] else (if key(s[0]) == k then [s[0]] else []) + WithKey(s[1..], key, k)
  }

  /** Of two sequences one of which is empty, either may go first. */
  lemma SwapAroundEmpty<T>(a: seq<T>, b: seq<T>, w: seq<T>)
    requires a == [] || b == []
    ensures a + (b + w) == b + (a + w)
  {
    if a == [] {
      assert a + (b + w) == b + w == b + (a + w);
    } else {
      assert a + (b + w) == a + w == b + (a + w);
    }
  }

  /** The part of `WithKey` that an element `y` contributes. */
  function KeyPart<T>(y: T, key: T -> SortKey, k: SortKey): seq<T> {
    if key(y) == k then [y] else []
  }

  /** `WithKey` of a sequence with a known head. */
  lemma WithKeyCons<T>(y: T, s: seq<T>, key: T -> SortKey, k: SortKey)
    ensures WithKey([y] + s, key, k) == KeyPart(y, key, k) + WithKey(s, key, k)
  {
    assert ([y] + s)[0] == y && ([y] + s)[1..] == s;
  }

  lemma {:induction false} InsertWithKey<T>(x: T, s: seq<T>, key: T -> SortKey, asc: bool, k: SortKey)
    ensures WithKey(Insert(x, s, key, asc), key, k) == KeyPart(x, key, k) + WithKey(s, key, k)
    decreases |s|
  {
    if s == [] {
      WithKeyCons(x, s, key, k);
      assert Insert(x, s, key, asc) == [x] + s;
    } else if InOrder(key(x), key(s[0]), asc) {
      WithKeyCons(x, s, key, k);
    } else {
      InOrderReflexive(key(x), asc);
      var rest := Insert(x, s[1..], key, asc);
      InsertWithKey(x, s[1..], key, asc, k);
      WithKeyCons(s[0], rest, key, k);
      assert s == [s[0]] + s[1..];
      WithKeyCons(s[0], s[1..], key, k);
      SwapAroundEmpty(KeyPart(s[0], key, k), KeyPart(x, key, k), WithKey(s[1..], key, k));
    }
  }

  /** Stability: for every key, the elements holding it appear in the output exactly as in the input. */
  lemma {:induction false} SortStable<T>(s: seq<T>, key: T -> SortKey, asc: bool)
    ensures forall k :: WithKey(Sort(s, key, asc), key, k) == WithKey(s, key, k)
    decreases |s|
  {
    if s != [] {
      SortStable(s[1..], key, asc);
      forall k ensures WithKey(Sort(s, key, asc), key, k) == WithKey(s, key, k) {
        InsertWithKey(s[0], Sort(s[1..], key, asc), key, asc, k);
      }
    }
  }

  /** Strings compare as strings. */
  function TextKey(x: string): SortKey {
    Str(x)
  }

  /** `[...new Set(xs)].sort()`: the distinct strings of `xs` in ascending order. */
  function SortedDistinct(xs: seq<string>): (r: seq<string>)
    ensures NoDuplicates(r)
    ensures forall i :: 0 <= i < |r| ==> r[i] in xs
    ensures forall j :: 0 <= j < |xs| ==> xs[j] in r
    ensures SortedBy(r, TextKey, true)
  {
    var k := KeepFirst(xs, Id);
    var r := Sort(k, TextKey, true);
    SortedDistinctMembers(xs, k, r);
    r
  }

  lemma SortedDistinctMembers(xs: seq<string>, k: seq<string>, r: seq<string>)
    requires k == KeepFirst(xs, Id)
    requires multiset(r) == multiset(k)
    ensures NoDuplicates(r)
    ensures forall i :: 0 <= i < |r| ==> r[i] in xs
    ensures forall j :: 0 <= j < |xs| ==> xs[j] in r
  {
    KeepFirstDistinct(xs, Id);
    PermutationKeepsDistinctKeys(k, r, Id);
    forall i | 0 <= i < |r| ensures r[i] in xs {
      assert r[i] in multiset(k);
      KeepFirstOrigin(xs, Id);
    }
    forall j | 0 <= j < |xs| ensures xs[j] in r {
      KeepFirstCovers(xs, Id);
      assert Id(xs[j]) in KeysOf(k, Id);
      assert xs[j] in multiset(k);
    }
  }
}

=== FILE: task_dialog.dfy ===
/**
 * The task dialog: the form it opens with, which call a submit makes, and when the
 * caller's `onSave` runs. Field edits inside the form are plain record updates and the
 * label catalogue it loads is only displayed, so neither is modelled.
 */
module TaskDialog {
  import opened Wrappers
  import opened Wire
  import opened Kanban
  import ApiClient

  /** The form for a new task of project `projectId`. */
  function BlankForm(projectId: int): (r: TaskRequest)
    ensures r.title == "" && r.description == ""
    ensures r.status == Some(Todo) && r.priority == Some(Medium)
    ensures r.projectId == projectId && r.labelIds == Some([])
    ensures r.assignedToId.None? && r.dueDate.None?
  {
    TaskRequest("", "", Some(Todo), Some(Medium), None, projectId, None, Some([]))
  }

  /** The form for editing `t`: its own fields, its label ids in order, and the dialog's project. */
  function EditForm(t: TaskResponse, projectId: int): (r: TaskRequest)
    ensures r.title == t.title && r.description == t.description
    ensures r.status == Some(t.status) && r.priority == Some(t.priority)
    ensures r.dueDate == t.dueDate && r.projectId == projectId && r.assignedToId.None?
    ensures r.labelIds.Some? && |r.labelIds.value| == |t.labels|
    ensures forall i :: 0 <= i < |t.labels| ==> r.labelIds.value[i] == t.labels[i].id
  {
    TaskRequest(t.title, t.description, Some(t.status), Some(t.priority), None, projectId, t.dueDate, Some(LabelIds(t.labels)))
  }

  /** The open effect: while open, the form is re-initialised from the task, or blank without one; closed, it is kept. */
  function OnOpen(form: TaskRequest, open: bool, task: Option<TaskResponse>, projectId: int): (r: TaskRequest)
    ensures !open ==> r == form
    ensures open && task.None? ==> r == BlankForm(projectId)
    ensures open && task.Some? ==> r == EditForm(task.value, projectId)
    ensures open ==> r.projectId == projectId
  {
    if !open then form
    else match task
      case None => BlankForm(projectId)
      case Some(t) => EditForm(t, projectId)
  }

  /** A call the dialog makes. */
  datatype Call = CreateTask(req: TaskRequest) | UpdateTask(id: int, req: TaskRequest) | DeleteTask(id: int)

  /** What a submit or delete did: the call made, if any, and whether `onSave` ran. */
  datatype Effect = Effect(call: Option<Call>, saved: bool)

  /** `handleSubmit`: update the given task, else create one; `onSave` only when the call succeeded. */
  function Submit(task: Option<TaskResponse>, form: TaskRequest, ok: bool): (r: Effect)
    ensures r.call.Some?
    ensures task.Some? <==> r.call.value.UpdateTask?
    ensures task.Some? ==> r.call.value == UpdateTask(task.value.id, form)
    ensures task.None? ==> r.call.value == CreateTask(form)
    ensures r.saved <==> ok
  {
    match task
    case Some(t) => Effect(Some(UpdateTask(t.id, form)), ok)
    case None => Effect(Some(CreateTask(form)), ok)
  }

  /** `handleDelete`: nothing at all without a task; otherwise delete it, `onSave` only on success. */
  function Delete(task: Option<TaskResponse>, ok: bool): (r: Effect)
    ensures task.None? ==> r == Effect(None, false)
    ensures task.Some? ==> r.call == Some(DeleteTask(task.value.id)) && (r.saved <==> ok)
  {
    match task
    case None => Effect(None, false)
    case Some(t) => Effect(Some(DeleteTask(t.id)), ok)
  }

  /**
   * As written, deleting a task never runs `onSave`: the backend answers 204 with no body and
   * the shared response handling throws on it, although the task is gone.
   */
  lemma DeleteAsWrittenNeverSaves(t: TaskResponse, b: ApiClient.Browser, reply: ApiClient.Response<()>)
    requires reply.status == 204 && reply.body.None?
    ensures Delete(Some(t), ApiClient.HandleResponse(b, reply).1.Ok?) == Effect(Some(DeleteTask(t.id)), false)
  {
  }

  /** With the void response handling the same reply runs `onSave`. */
  lemma DeleteSavesOnNoContent(t: TaskResponse, b: ApiClient.Browser, reply: ApiClient.Response<()>)
    requires reply.status == 204 && reply.body.None?
    ensures Delete(Some(t), ApiClient.HandleVoidResponse(b, reply).1.Ok?) == Effect(Some(DeleteTask(t.id)), true)
  {
  }

  /**
   * Opening a task and saving it untouched asks for the same record the board sends when the
   * card is dropped on its own status: the dialog and the board agree on what a task's request is.
   */
  lemma EditFormAgreesWithBoard(t: TaskResponse, projectId: int, status: TaskStatus)
    ensures EditForm(t, projectId).(status := Some(status)) == StatusRequest(t, status, projectId)
    ensures OnOpen(BlankForm(0), true, Some(t), projectId) == StatusRequest(t, t.status, projectId)
  {
  }

  /** Whatever the form held before, a reopened dialog's submit targets the dialog's project. */
  lemma ReopenedSubmitTargetsProject(form: TaskRequest, task: Option<TaskResponse>, projectId: int, ok: bool)
    ensures Submit(task, OnOpen(form, true, task, projectId), ok).call.value.req.projectId == projectId
  {
  }
}

=== FILE: task_filter_hook.dfy ===
/**
 * The task filtering hook: the board's visible tasks are the loaded tasks that pass every
 * active criterion of the filter specification, in their loaded order.
 */
module TaskFilterHook {
  import opened Wrappers
  import opened Seqs
  import opened Text
  import opened Wire
  import opened TaskFilterPanel

  /**
   * The instants the hook reads from the clock, as millisecond timestamps: `now`, local
   * midnight today and tomorrow, and the ends of the week and month windows (midnight today
   * plus seven days, plus one calendar month). `dayOf` maps an instant to its local midnight.
   */
  datatype Clock = Clock(now: int, dayOf: int -> int, today: int, tomorrow: int, weekEnd: int, monthEnd: int)

  /** The case-insensitive query occurs in the title, the description, the assignee (when there is one) or the creator. */
  predicate MatchesSearch(t: TaskResponse, query: string) {
    var q := Lower(query);
    Includes(Lower(t.title), q)
    || Includes(Lower(t.description), q)
    || (t.assignedTo.Some? && Includes(Lower(t.assignedTo.value), q))
    || Includes(Lower(t.createdBy), q)
  }

  /** "unassigned" selects the tasks without a (non-empty) assignee; any other value is compared literally. */
  predicate MatchesAssignee(t: TaskResponse, who: string) {
    if who == "unassigned" then !HasAssignee(t) else t.assignedTo == Some(who)
  }

  /** At least one selected name is the name of one of the task's labels. */
  predicate MatchesLabels(t: TaskResponse, names: seq<string>) {
    exists i, j :: 0 <= i < |names| && 0 <= j < |t.labels| && t.labels[j].name == names[i]
  }

  /** The due-date bucket test, including its treatment of tasks without a due date. */
  predicate MatchesDue(t: TaskResponse, bucket: string, c: Clock) {
    if t.dueDate.None? then bucket == "no-date"
    else
      var due := t.dueDate.value;
      if bucket == "overdue" then due < c.now
      else if bucket == "today" then c.dayOf(due) == c.today
      else if bucket == "tomorrow" then c.dayOf(due) == c.tomorrow
      else if bucket == "week" then c.today <= due <= c.weekEnd
      else if bucket == "month" then c.today <= due <= c.monthEnd
      else bucket != "no-date"
  }

  predicate IsOverdue(t: TaskResponse, now: int) {
    t.dueDate.Some? && t.dueDate.value < now
  }

  /** The reference meaning of a filter specification: every active criterion holds. */
  predicate Keeps(f: TaskFilters, c: Clock, t: TaskResponse) {
    (f.search == "" || MatchesSearch(t, f.search))
    && (f.assignedTo == "" || MatchesAssignee(t, f.assignedTo))
    && (f.priority == "" || t.priority.Name() == f.priority)
    && (|f.labels| == 0 || MatchesLabels(t, f.labels))
    && (f.createdBy == "" || t.createdBy == f.createdBy)
    && (f.dueDate == "" || MatchesDue(t, f.dueDate, c))
    && (!f.hasOverdue || IsOverdue(t, c.now))
  }

  /** The test a criterion applies once it is active. */
  predicate Passes(f: TaskFilters, c: Clock, fld: Field, t: TaskResponse) {
    match fld
    case Search => MatchesSearch(t, f.search)
    case AssignedTo => MatchesAssignee(t, f.assignedTo)
    case Priority => t.priority.Name() == f.priority
    case Labels => MatchesLabels(t, f.labels)
    case CreatedBy => t.createdBy == f.createdBy
    case DueDate => MatchesDue(t, f.dueDate, c)
    case HasOverdue => IsOverdue(t, c.now)
  }

  /** The order in which the hook applies the criteria. */
  const HookOrder: seq<Field> := [Search, AssignedTo, Priority, Labels, CreatedBy, DueDate, HasOverdue]

  /** The hook's body: `filtered.filter(test)` for each active criterion, in the hook's order. */
  function Staged(tasks: seq<TaskResponse>, f: TaskFilters, c: Clock): seq<TaskResponse> {
    FilterChain(tasks, HookOrder, fld => IsActive(f, fld), (fld, t) => Passes(f, c, fld, t))
  }

  /** In the hook's order, passing every active criterion is the reference conjunction. */
  lemma PassesAllIsKeeps(f: TaskFilters, c: Clock, t: TaskResponse)
    ensures PassesChain(HookOrder, fld => IsActive(f, fld), (fld, t) => Passes(f, c, fld, t), t) == Keeps(f, c, t)
  {
    var o := HookOrder;
    assert o[0] == Search && o[1] == AssignedTo && o[2] == Priority && o[3] == Labels;
    assert o[4] == CreatedBy && o[5] == DueDate && o[6] == HasOverdue;
  }

  /** The staged body keeps exactly the tasks the conjunction keeps, in order. */
  lemma StagedIsConjunction(tasks: seq<TaskResponse>, f: TaskFilters, c: Clock)
    ensures Staged(tasks, f, c) == Filter(tasks, t => Keeps(f, c, t))
  {
    var active := fld => IsActive(f, fld);
    var test := (fld, t) => Passes(f, c, fld, t);
    FilterChainIsFilter(tasks, HookOrder, active, test);
    forall t ensures PassesChain(HookOrder, active, test, t) == Keeps(f, c, t) {
      PassesAllIsKeeps(f, c, t);
    }
    FilterAgree(tasks, t => PassesChain(HookOrder, active, test, t), t => Keeps(f, c, t));
  }

  /** `useTaskFilters(tasks, filters)`. */
  function FilterTasks(tasks: seq<TaskResponse>, f: TaskFilters, c: Clock): (r: seq<TaskResponse>)
    ensures r == Filter(tasks, t => Keeps(f, c, t))
    ensures IsSubsequence(r, tasks)
    ensures forall i :: 0 <= i < |tasks| ==> (tasks[i] in r <==> Keeps(f, c, tasks[i]))
  {
    StagedIsConjunction(tasks, f, c);
    FilterIsSubsequence(tasks, t => Keeps(f, c, t));
    Staged(tasks, f, c)
  }

  /** With nothing selected every task is shown, in its loaded order. */
  lemma FilterTasksCleared(tasks: seq<TaskResponse>, c: Clock)
    ensures FilterTasks(tasks, ClearFilters(), c) == tasks
  {
    FilterKeepsAll(tasks, t => Keeps(ClearFilters(), c, t));
  }

  /** The search criterion adds "the lower-cased query occurs in one of the four text fields". */
  lemma SearchCriterion(f: TaskFilters, c: Clock, t: TaskResponse)
    requires f.search != ""
    ensures Keeps(f, c, t) <==>
              Keeps(f.(search := ""), c, t)
              && ((exists i :: OccursAt(Lower(t.title), Lower(f.search), i))
                  || (exists i :: OccursAt(Lower(t.description), Lower(f.search), i))
                  || (t.assignedTo.Some? && exists i :: OccursAt(Lower(t.assignedTo.value), Lower(f.search), i))
                  || (exists i :: OccursAt(Lower(t.createdBy), Lower(f.search), i)))
  {
    IncludesIff(Lower(t.title), Lower(f.search));
    IncludesIff(Lower(t.description), Lower(f.search));
    if t.assignedTo.Some? {
      IncludesIff(Lower(t.assignedTo.value), Lower(f.search));
    }
    IncludesIff(Lower(t.createdBy), Lower(f.search));
  }

  /** "unassigned" adds "no assignee"; "all", which the panel offers, is compared literally. */
  lemma AssigneeCriterion(f: TaskFilters, c: Clock, t: TaskResponse)
    requires f.assignedTo != ""
    ensures f.assignedTo == "unassigned" ==>
              (Keeps(f, c, t) <==> Keeps(f.(assignedTo := ""), c, t) && (t.assignedTo == None || t.assignedTo == Some("")))
    ensures f.assignedTo == "all" ==>
              (Keeps(f, c, t) <==> Keeps(f.(assignedTo := ""), c, t) && t.assignedTo == Some("all"))
  {
  }

  /** A non-empty label list adds "some label of the task carries a selected name". */
  lemma LabelsCriterion(f: TaskFilters, c: Clock, t: TaskResponse)
    requires |f.labels| > 0
    ensures Keeps(f, c, t) <==> Keeps(f.(labels := []), c, t) && exists j :: 0 <= j < |t.labels| && t.labels[j].name in f.labels
  {
    if exists j :: 0 <= j < |t.labels| && t.labels[j].name in f.labels {
      var j :| 0 <= j < |t.labels| && t.labels[j].name in f.labels;
      var i :| 0 <= i < |f.labels| && f.labels[i] == t.labels[j].name;
      assert MatchesLabels(t, f.labels);
    }
  }

  /**
   * "no-date" adds exactly "has no due date"; every other non-empty bucket drops undated
   * tasks, and an unrecognised one (such as "all") adds exactly "has a due date".
   */
  lemma DueDateCriterion(f: TaskFilters, c: Clock, t: TaskResponse)
    requires f.dueDate != ""
    ensures f.dueDate == "no-date" ==> (Keeps(f, c, t) <==> Keeps(f.(dueDate := ""), c, t) && t.dueDate.None?)
    ensures f.dueDate != "no-date" && t.dueDate.None? ==> !Keeps(f, c, t)
    ensures f.dueDate !in {"no-date", "overdue", "today", "tomorrow", "week", "month"} ==>
              (Keeps(f, c, t) <==> Keeps(f.(dueDate := ""), c, t) && t.dueDate.Some?)
  {
  }

  /** The overdue bucket and the overdue toggle test the same thing, so combining them changes nothing. */
  lemma OverdueTwiceIsOverdue(tasks: seq<TaskResponse>, f: TaskFilters, c: Clock)
    requires f.dueDate == "overdue"
    ensures FilterTasks(tasks, f.(hasOverdue := true), c) == FilterTasks(tasks, f.(hasOverdue := false), c)
    ensures forall t :: Keeps(f.(hasOverdue := false), c, t) ==> IsOverdue(t, c.now)
  {
    var on := f.(hasOverdue := true);
    var off := f.(hasOverdue := false);
    assert forall t :: Keeps(on, c, t) == Keeps(off, c, t);
    FilterAgree(tasks, t => Keeps(on, c, t), t => Keeps(off, c, t));
  }

  /** Adding a criterion can only shrink the result: it stays a subsequence of the unconstrained one. */
  lemma FilterTasksNarrows(tasks: seq<TaskResponse>, f: TaskFilters, e: Edit, c: Clock)
    requires !IsActive(f, e.Key())
    ensures IsSubsequence(FilterTasks(tasks, UpdateFilter(f, e), c), FilterTasks(tasks, f, c))
  {
    var g := UpdateFilter(f, e);
    var p := t => Keeps(f, c, t);
    var q := t => Keeps(g, c, t);
    FilterThenFilter(tasks, p, q, q);
    FilterIsSubsequence(Filter(tasks, p), q);
  }
}

=== FILE: task_filter_panel.dfy ===
/**
 * The task filter panel: the filter specification shared with the filtering hook, its
 * single-field edits, the label toggle, the reset, the active-filter badge count and the
 * option lists the panel derives from the loaded tasks.
 */
module TaskFilterPanel {
  import opened Wrappers
  import opened Seqs
  import opened Sorting
  import opened Wire

  /**
   * An empty string means "no constraint" for every text field. The select boxes can also
   * store the literal "all", which the filtering hook does not treat specially.
   */
  datatype TaskFilters = TaskFilters(
    search: string,
    assignedTo: string,
    priority: string,
    labels: seq<string>,
    dueDate: string,
    createdBy: string,
    hasOverdue: bool)

  datatype Field = Search | AssignedTo | Priority | Labels | DueDate | CreatedBy | HasOverdue

  const AllFields: seq<Field> := [Search, AssignedTo, Priority, Labels, DueDate, CreatedBy, HasOverdue]

  /** One `updateFilter(key, value)` call: the key together with a value of that key's type. */
  datatype Edit =
    | SetSearch(text: string)
    | SetAssignedTo(text: string)
    | SetPriority(text: string)
    | SetLabels(names: seq<string>)
    | SetDueDate(text: string)
    | SetCreatedBy(text: string)
    | SetHasOverdue(flag: bool)
  {
    function Key(): Field {
      match this
      case SetSearch(_) => Search
      case SetAssignedTo(_) => AssignedTo
      case SetPriority(_) => Priority
      case SetLabels(_) => Labels
      case SetDueDate(_) => DueDate
      case SetCreatedBy(_) => CreatedBy
      case SetHasOverdue(_) => HasOverdue
    }
  }

  /** `a` and `b` hold the same value in every field other than `f`. */
  predicate AgreeExcept(a: TaskFilters, b: TaskFilters, f: Field) {
    (f == Search || a.search == b.search)
    && (f == AssignedTo || a.assignedTo == b.assignedTo)
    && (f == Priority || a.priority == b.priority)
    && (f == Labels || a.labels == b.labels)
    && (f == DueDate || a.dueDate == b.dueDate)
    && (f == CreatedBy || a.createdBy == b.createdBy)
    && (f == HasOverdue || a.hasOverdue == b.hasOverdue)
  }

  /** The edit's value is what field `e.Key()` of `f` holds. */
  predicate Holds(f: TaskFilters, e: Edit) {
    match e
    case SetSearch(t) => f.search == t
    case SetAssignedTo(t) => f.assignedTo == t
    case SetPriority(t) => f.priority == t
    case SetLabels(ns) => f.labels == ns
    case SetDueDate(t) => f.dueDate == t
    case SetCreatedBy(t) => f.createdBy == t
    case SetHasOverdue(b) => f.hasOverdue == b
  }

  /** `{ ...filters, [key]: value }`. */
  function UpdateFilter(f: TaskFilters, e: Edit): (r: TaskFilters)
    ensures Holds(r, e)
    ensures AgreeExcept(f, r, e.Key())
  {
    match e
    case SetSearch(t) => f.(search := t)
    case SetAssignedTo(t) => f.(assignedTo := t)
    case SetPriority(t) => f.(priority := t)
    case SetLabels(ns) => f.(labels := ns)
    case SetDueDate(t) => f.(dueDate := t)
    case SetCreatedBy(t) => f.(createdBy := t)
    case SetHasOverdue(b) => f.(hasOverdue := b)
  }

  /** The update is exactly the spec that holds the new value and agrees elsewhere: nothing else changes. */
  lemma UpdateFilterUnique(f: TaskFilters, e: Edit, g: TaskFilters)
    ensures g == UpdateFilter(f, e) <==> Holds(g, e) && AgreeExcept(f, g, e.Key())
  {
  }

  /** Writing a field with the value it already holds changes nothing; a second identical write is a no-op. */
  lemma UpdateFilterIdempotent(f: TaskFilters, e: Edit)
    ensures Holds(f, e) <==> UpdateFilter(f, e) == f
    ensures UpdateFilter(UpdateFilter(f, e), e) == UpdateFilter(f, e)
  {
  }

  /** The test "is not label name `name`". */
  function Unlike(name: string): string -> bool {
    (l: string) => l != name
  }

  /** Removes every occurrence of a selected label name, or appends an unselected one. */
  function ToggleLabel(f: TaskFilters, name: string): (r: TaskFilters)
    ensures AgreeExcept(f, r, Labels)
    ensures name in f.labels <==> name !in r.labels
    ensures name in f.labels ==> KeepsOnly(r.labels, f.labels, Unlike(name))
    ensures name !in f.labels ==> r.labels == f.labels + [name]
    ensures forall i :: 0 <= i < |f.labels| && f.labels[i] != name ==> f.labels[i] in r.labels
    ensures forall i :: 0 <= i < |r.labels| && r.labels[i] != name ==> r.labels[i] in f.labels
  {
    var labels :=
      if name in f.labels then
        FilterKeepsOnly(f.labels, Unlike(name));
        Filter(f.labels, Unlike(name))
      else f.labels + [name];
    UpdateFilter(f, SetLabels(labels))
  }

  /** Toggling an unselected name on and off again restores the spec exactly. */
  lemma ToggleLabelTwice(f: TaskFilters, name: string)
    ensures AgreeExcept(f, ToggleLabel(ToggleLabel(f, name), name), Labels)
    ensures name !in f.labels ==> ToggleLabel(ToggleLabel(f, name), name) == f
  {
    if name !in f.labels {
      var once := ToggleLabel(f, name);
      assert once.labels == f.labels + [name];
      assert forall i :: 0 <= i < |f.labels| ==> Unlike(name)(f.labels[i]);
      FilterConcat(f.labels, [name], Unlike(name));
      FilterKeepsAll(f.labels, Unlike(name));
      FilterSingleton(name, Unlike(name));
      assert ToggleLabel(once, name).labels == f.labels;
    }
  }

  /** Toggling twice restores whether each label name is selected. */
  lemma ToggleLabelTwiceKeepsSelection(f: TaskFilters, name: string, other: string)
    ensures other in ToggleLabel(ToggleLabel(f, name), name).labels <==> other in f.labels
  {
    var once := ToggleLabel(f, name);
    var twice := ToggleLabel(once, name);
    if other != name && other in f.labels {
      var i :| 0 <= i < |f.labels| && f.labels[i] == other;
      var j :| 0 <= j < |once.labels| && once.labels[j] == other;
    }
    if other != name && other in twice.labels {
      var i :| 0 <= i < |twice.labels| && twice.labels[i] == other;
      var j :| 0 <= j < |once.labels| && once.labels[j] == other;
    }
  }

  /** The spec every select starts from and returns to: nothing constrains. */
  function ClearFilters(): (r: TaskFilters)
    ensures forall fld :: !IsActive(r, fld)
  {
    TaskFilters("", "", "", [], "", "", false)
  }

  /** Field `fld` contributes to the badge: a non-empty text, a non-empty list, or a set flag. */
  predicate IsActive(f: TaskFilters, fld: Field) {
    match fld
    case Search => f.search != ""
    case AssignedTo => f.assignedTo != ""
    case Priority => f.priority != ""
    case Labels => |f.labels| > 0
    case DueDate => f.dueDate != ""
    case CreatedBy => f.createdBy != ""
    case HasOverdue => f.hasOverdue
  }

  /** The test "field is active in `f`". */
  function ActiveIn(f: TaskFilters): Field -> bool {
    (fld: Field) => IsActive(f, fld)
  }

  function Indicator(b: bool): nat {
    if b then 1 else 0
  }

  /** The number shown on the "Filters" badge. */
  function ActiveFiltersCount(f: TaskFilters): (r: nat)
    ensures r <= |AllFields|
    ensures r == 0 <==> f == ClearFilters()
  {
    Indicator(f.search != "") + Indicator(f.assignedTo != "") + Indicator(f.priority != "")
    + Indicator(|f.labels| > 0) + Indicator(f.dueDate != "") + Indicator(f.createdBy != "")
    + Indicator(f.hasOverdue)
  }

  /** Filtering seven values keeps one for each that passes. */
  lemma FilterSevenLength<T>(s: seq<T>, p: T -> bool)
    requires |s| == 7
    ensures |Filter(s, p)| == Indicator(p(s[0])) + Indicator(p(s[1])) + Indicator(p(s[2])) + Indicator(p(s[3]))
                              + Indicator(p(s[4])) + Indicator(p(s[5])) + Indicator(p(s[6]))
  {
    assert s[0..] == s;
    assert s[7..] == [];
    forall k | 0 <= k < 7 ensures |Filter(s[k..], p)| == Indicator(p(s[k])) + |Filter(s[k + 1..], p)| {
      FilterLengthAt(s, k, p);
    }
  }

  /** The badge counts exactly the active fields. */
  lemma ActiveFiltersCountIsActiveFields(f: TaskFilters)
    ensures ActiveFiltersCount(f) == |Filter(AllFields, ActiveIn(f))|
  {
    var s, p := AllFields, ActiveIn(f);
    FilterSevenLength(s, p);
    assert s[0] == Search && s[1] == AssignedTo && s[2] == Priority && s[3] == Labels;
    assert s[4] == DueDate && s[5] == CreatedBy && s[6] == HasOverdue;
    CountFromIndicators(f, |Filter(s, p)|, Indicator(p(s[0])), Indicator(p(s[1])), Indicator(p(s[2])),
      Indicator(p(s[3])), Indicator(p(s[4])), Indicator(p(s[5])), Indicator(p(s[6])));
  }

  /** The badge is the sum of the seven fields' indicators, however they are named. */
  lemma CountFromIndicators(f: TaskFilters, n: int, a0: int, a1: int, a2: int, a3: int, a4: int, a5: int, a6: int)
    requires n == a0 + a1 + a2 + a3 + a4 + a5 + a6
    requires a0 == Indicator(f.search != "") && a1 == Indicator(f.assignedTo != "") && a2 == Indicator(f.priority != "")
    requires a3 == Indicator(|f.labels| > 0) && a4 == Indicator(f.dueDate != "") && a5 == Indicator(f.createdBy != "")
    requires a6 == Indicator(f.hasOverdue)
    ensures ActiveFiltersCount(f) == n
  {
  }

  /** A task's assignee, when it has a non-empty one: `filter(Boolean)` drops both null and "". */
  predicate HasAssignee(t: TaskResponse) {
    t.assignedTo.Some? && t.assignedTo.value != ""
  }

  function AssigneeName(t: TaskResponse): string
    requires HasAssignee(t)
  {
    t.assignedTo.value
  }

  function AssigneeNames(tasks: seq<TaskResponse>): (r: seq<string>)
    ensures forall i :: 0 <= i < |r| ==> r[i] != "" && exists j :: 0 <= j < |tasks| && tasks[j].assignedTo == Some(r[i])
    ensures forall j :: 0 <= j < |tasks| && HasAssignee(tasks[j]) ==> tasks[j].assignedTo.value in r
  {
    var withAssignee := Filter(tasks, HasAssignee);
    var names := seq(|withAssignee|, i requires 0 <= i < |withAssignee| => AssigneeName(withAssignee[i]));
    AssigneeNamesMembers(tasks, withAssignee, names);
    names
  }

  lemma AssigneeNamesMembers(tasks: seq<TaskResponse>, withAssignee: seq<TaskResponse>, r: seq<string>)
    requires withAssignee == Filter(tasks, HasAssignee)
    requires |r| == |withAssignee| && forall i :: 0 <= i < |r| ==> r[i] == AssigneeName(withAssignee[i])
    ensures forall i :: 0 <= i < |r| ==> r[i] != "" && exists j :: 0 <= j < |tasks| && tasks[j].assignedTo == Some(r[i])
    ensures forall j :: 0 <= j < |tasks| && HasAssignee(tasks[j]) ==> tasks[j].assignedTo.value in r
  {
    forall i | 0 <= i < |r| ensures r[i] != "" && exists j :: 0 <= j < |tasks| && tasks[j].assignedTo == Some(r[i]) {
      var t := withAssignee[i];
      assert t in tasks && HasAssignee(t);
      var j :| 0 <= j < |tasks| && tasks[j] == t;
      assert tasks[j].assignedTo == Some(r[i]);
    }
    forall j | 0 <= j < |tasks| && HasAssignee(tasks[j]) ensures tasks[j].assignedTo.value in r {
      assert tasks[j] in withAssignee;
      var k :| 0 <= k < |withAssignee| && withAssignee[k] == tasks[j];
      assert r[k] == tasks[j].assignedTo.value;
    }
  }

  /** The assignee select's options after "all" and "unassigned". */
  function UniqueAssignees(tasks: seq<TaskResponse>): (r: seq<string>)
    ensures NoDuplicates(r)
    ensures SortedBy(r, TextKey, true)
    ensures forall i :: 0 <= i < |r| ==> r[i] != "" && exists j :: 0 <= j < |tasks| && tasks[j].assignedTo == Some(r[i])
    ensures forall j :: 0 <= j < |tasks| && HasAssignee(tasks[j]) ==> tasks[j].assignedTo.value in r
  {
    SortedDistinct(AssigneeNames(tasks))
  }

  /** The creator select's options after "all". */
  function UniqueCreators(tasks: seq<TaskResponse>): (r: seq<string>)
    ensures NoDuplicates(r)
    ensures SortedBy(r, TextKey, true)
    ensures forall i :: 0 <= i < |r| ==> exists j :: 0 <= j < |tasks| && tasks[j].createdBy == r[i]
    ensures forall j :: 0 <= j < |tasks| ==> tasks[j].createdBy in r
  {
    var creators := Map(tasks, (t: TaskResponse) => t.createdBy);
    assert forall j :: 0 <= j < |tasks| ==> tasks[j].createdBy == creators[j];
    SortedDistinct(creators)
  }

  function LabelId(l: Label): int {
    l.id
  }

  /** Labels compare by name; `localeCompare` is taken to be the character order. */
  function LabelNameKey(l: Label): SortKey {
    Str(l.name)
  }

  /** A task's labels, as a function value. */
  function LabelsOfTask(t: TaskResponse): seq<Label> {
    t.labels
  }

  /** Every label of every task, task by task: `tasks.flatMap(t => t.labels)`. */
  function AllLabels(tasks: seq<TaskResponse>): seq<Label> {
    Flatten(Map(tasks, LabelsOfTask))
  }

  /**
   * The label chips: the first label seen for each id, ordered by name; chips with the same
   * name keep the order in which they were first seen.
   */
  function UniqueLabels(tasks: seq<TaskResponse>): (r: seq<Label>)
    ensures SortedBy(r, LabelNameKey, true)
    ensures multiset(r) == multiset(KeepFirst(AllLabels(tasks), LabelId))
    ensures forall k :: WithKey(r, LabelNameKey, k) == WithKey(KeepFirst(AllLabels(tasks), LabelId), LabelNameKey, k)
  {
    SortStable(KeepFirst(AllLabels(tasks), LabelId), LabelNameKey, true);
    Sort(KeepFirst(AllLabels(tasks), LabelId), LabelNameKey, true)
  }

  /** At most one chip per id. */
  lemma UniqueLabelsDistinct(tasks: seq<TaskResponse>)
    ensures forall a, b :: 0 <= a < b < |UniqueLabels(tasks)| ==> UniqueLabels(tasks)[a].id != UniqueLabels(tasks)[b].id
  {
    var all := AllLabels(tasks);
    KeepFirstDistinct(all, LabelId);
    PermutationKeepsDistinctKeys(KeepFirst(all, LabelId), UniqueLabels(tasks), LabelId);
  }

  /** Each chip is the first label of its id in task order. */
  lemma UniqueLabelsFirstSeen(tasks: seq<TaskResponse>)
    ensures forall n :: 0 <= n < |UniqueLabels(tasks)| ==>
              exists m :: 0 <= m < |AllLabels(tasks)| && AllLabels(tasks)[m] == UniqueLabels(tasks)[n]
                          && IsFirstOccurrence(AllLabels(tasks), LabelId, m)
  {
    var all := AllLabels(tasks);
    var k := KeepFirst(all, LabelId);
    var r := UniqueLabels(tasks);
    KeepFirstOrigin(all, LabelId);
    forall n | 0 <= n < |r|
      ensures exists m :: 0 <= m < |all| && all[m] == r[n] && IsFirstOccurrence(all, LabelId, m)
    {
      assert r[n] in multiset(k);
      var p :| 0 <= p < |k| && k[p] == r[n];
    }
  }

  /** Every label id in the flattened list has a chip. */
  lemma ChipForEveryLabel(tasks: seq<TaskResponse>)
    ensures forall l :: l in AllLabels(tasks) ==> exists c :: c in UniqueLabels(tasks) && c.id == l.id
  {
    var all := AllLabels(tasks);
    var k := KeepFirst(all, LabelId);
    var r := UniqueLabels(tasks);
    KeepFirstCovers(all, LabelId);
    forall l | l in all ensures exists c :: c in r && c.id == l.id {
      var m :| 0 <= m < |all| && all[m] == l;
      assert LabelId(all[m]) in KeysOf(k, LabelId);
      var p :| 0 <= p < |k| && LabelId(k[p]) == LabelId(all[m]);
      assert k[p] in multiset(r);
    }
  }

  /** Every label id carried by some task has a chip. */
  lemma UniqueLabelsCover(tasks: seq<TaskResponse>)
    ensures forall t, l :: t in tasks && l in t.labels ==> exists c :: c in UniqueLabels(tasks) && c.id == l.id
  {
    var perTask := Map(tasks, LabelsOfTask);
    FlattenMembers(perTask);
    ChipForEveryLabel(tasks);
    forall t | t in tasks ensures forall l :: l in t.labels ==> exists c :: c in UniqueLabels(tasks) && c.id == l.id {
      var j :| 0 <= j < |tasks| && tasks[j] == t;
      forall l | l in t.labels ensures exists c :: c in UniqueLabels(tasks) && c.id == l.id {
        var i :| 0 <= i < |t.labels| && t.labels[i] == l;
        assert perTask[j][i] == l;
      }
    }
  }
}

=== FILE: task_service.dfy ===
/**
 * Task operations: create (with defaults), read one, list a project's tasks or a user's
 * assigned tasks, update (overwrite some fields, keep others when the request omits them),
 * delete, and the mapping of a task row to its response.
 */
module TaskService {
  import opened Wrappers
  import opened Seqs
  import opened Wire
  import opened Entities
  import opened Permissions
  import Kanban
  import TaskDialog

  /** `labelRepository.findAllById(ids)`: the ids that name existing labels, each once, in request order. */
  function FoundLabels(db: Db, ids: seq<int>): (r: seq<int>)
    ensures NoDuplicates(r)
    ensures forall x :: x in r <==> x in ids && HasLabel(db, x)
  {
    var known := Filter(ids, (x: int) => LabelById(db, x).Some?);
    KeepFirstOrigin(known, Id);
    KeepFirstDistinct(known, Id);
    KeepFirstCovers(known, Id);
    var r := KeepFirst(known, Id);
    assert forall x :: x in known ==> x in r by {
      forall x | x in known ensures x in r {
        var m :| 0 <= m < |known| && known[m] == x;
        assert Id(known[m]) in KeysOf(r, Id);
      }
    }
    r
  }

  /** The labels of the ids `ids`, all of which exist. */
  function LabelsOf(db: Db, ids: seq<int>): (r: seq<Label>)
    requires forall x :: x in ids ==> HasLabel(db, x)
    ensures |r| == |ids|
    ensures forall i :: 0 <= i < |ids| ==> r[i] == LabelById(db, ids[i]).value && r[i].id == ids[i]
  {
    if ids == [] then [] else [LabelById(db, ids[0]).value] + LabelsOf(db, ids[1..])
  }

  /** `mapToTaskResponse`: the row's fields, with user ids and label ids resolved; a null label list maps to none. */
  function TaskResponseOf(db: Db, t: Task): (r: TaskResponse)
    requires TaskRefsResolve(db, t)
    ensures r.id == t.id && r.title == t.title && r.description == t.description
    ensures r.status == t.status && r.priority == t.priority && r.dueDate == t.dueDate && r.createdAt == t.createdAt
    ensures r.assignedTo.Some? <==> t.assignedTo.Some?
    ensures t.assignedTo.Some? ==> r.assignedTo.value == UserById(db, t.assignedTo.value).value.username
    ensures r.projectName == ProjectById(db, t.projectId).value.name
    ensures r.createdBy == UserById(db, t.createdBy).value.username
    ensures |r.labels| == |t.labels.GetOr([])|
    ensures forall i :: 0 <= i < |r.labels| ==> r.labels[i].id == t.labels.GetOr([])[i]
    ensures forall i :: 0 <= i < |r.labels| ==> r.labels[i] == LabelById(db, t.labels.GetOr([])[i]).value
  {
    TaskResponse(
      t.id, t.title, t.description, t.status, t.priority,
      match t.assignedTo case None => None case Some(a) => Some(UserById(db, a).value.username),
      ProjectById(db, t.projectId).value.name,
      UserById(db, t.createdBy).value.username,
      t.createdAt, t.dueDate,
      LabelsOf(db, t.labels.GetOr([])))
  }

  /** The label list a new task starts with: set only for a non-empty `labelIds`, otherwise left null. */
  function InitialLabels(db: Db, labelIds: Option<seq<int>>): (r: Option<seq<int>>)
    ensures r.Some? <==> labelIds.Some? && labelIds.value != []
    ensures r.Some? ==> r.value == FoundLabels(db, labelIds.value)
  {
    if labelIds.Some? && labelIds.value != [] then Some(FoundLabels(db, labelIds.value)) else None
  }

  /** The row `createTask` inserts: the request's fields with TODO and MEDIUM as defaults. */
  function NewTask(db: Db, req: TaskRequest, creator: int, id: int, now: int): (t: Task)
    ensures t.id == id && t.title == req.title && t.description == req.description
    ensures t.status == (if req.status.Some? then req.status.value else Todo)
    ensures t.priority == (if req.priority.Some? then req.priority.value else Medium)
    ensures t.assignedTo == req.assignedToId && t.projectId == req.projectId && t.createdBy == creator
    ensures t.createdAt == now && t.dueDate == req.dueDate && t.labels == InitialLabels(db, req.labelIds)
  {
    Task(id, req.title, req.description, req.status.GetOr(Todo), req.priority.GetOr(Medium),
         req.assignedToId, req.projectId, creator, now, req.dueDate, InitialLabels(db, req.labelIds))
  }

  /** The given assignee, if any, exists. */
  predicate AssigneeExists(db: Db, assignedToId: Option<int>) {
    assignedToId.None? || UserById(db, assignedToId.value).Some?
  }

  /** `createTask`, with `id` the generated id and `now` the creation instant. */
  function CreateTask(db: Db, req: TaskRequest, username: string, id: int, now: int): (r: Step<TaskResponse>)
    ensures r.result.Err? ==> r.db == db
    ensures r.result.Ok? <==> LoadUserAndProject(db, username, req.projectId).Ok?
                              && CanCreateTask(db, UserByUsername(db, username).value, ProjectById(db, req.projectId).value)
                              && AssigneeExists(db, req.assignedToId)
    ensures LoadUserAndProject(db, username, req.projectId).Ok?
            && !CanCreateTask(db, UserByUsername(db, username).value, ProjectById(db, req.projectId).value) ==>
              r.result == Err(Rejected("No tienes permisos para crear tareas en este proyecto"))
    ensures r.result.Ok? ==>
              var t := NewTask(db, req, UserByUsername(db, username).value.id, id, now);
              && r.db == db.(tasks := db.tasks + [t])
              && TaskRefsResolve(r.db, t)
              && r.result.value == TaskResponseOf(r.db, t)
  {
    match LoadUserAndProject(db, username, req.projectId)
    case Err(e) => Step(db, Err(e))
    case Ok((u, p)) =>
      if !CanCreateTask(db, u, p) then Fail(db, "No tienes permisos para crear tareas en este proyecto")
      else if !AssigneeExists(db, req.assignedToId) then Fail(db, "Usuario asignado no encontrado")
      else
        var t := NewTask(db, req, u.id, id, now);
        var after := db.(tasks := db.tasks + [t]);
        assert TaskRefsResolve(after, t) by {
          assert u in after.users && p in after.projects;
          assert HasUser(after, t.createdBy) && HasProject(after, t.projectId);
        }
        Step(after, Ok(TaskResponseOf(after, t)))
  }

  /** The project a stored task belongs to. */
  function ProjectOf(db: Db, t: Task): (p: Project)
    requires HasProject(db, t.projectId)
    ensures p in db.projects && p.id == t.projectId
  {
    ProjectById(db, t.projectId).value
  }

  /** `getTask`: the task, for anyone who may view its project. */
  function GetTask(db: Db, taskId: int, username: string): (r: Result<TaskResponse, Error>)
    requires Valid(db)
    ensures r.Ok? <==> UserByUsername(db, username).Some? && TaskById(db, taskId).Some?
                       && CanViewProject(db, UserByUsername(db, username).value, ProjectOf(db, TaskById(db, taskId).value))
    ensures r.Ok? ==> r.value == TaskResponseOf(db, TaskById(db, taskId).value) && r.value.id == taskId
  {
    match UserByUsername(db, username)
    case None => Err(Rejected("Usuario no encontrado"))
    case Some(u) =>
      match TaskById(db, taskId)
      case None => Err(Rejected("Tarea no encontrada"))
      case Some(t) =>
        if !CanViewProject(db, u, ProjectOf(db, t)) then Err(Rejected("No tienes permisos para ver esta tarea"))
        else Ok(TaskResponseOf(db, t))
  }

  /** The responses of stored tasks, in order. */
  function TaskResponses(db: Db, ts: seq<Task>): (r: seq<TaskResponse>)
    requires forall t :: t in ts ==> TaskRefsResolve(db, t)
    ensures |r| == |ts|
    ensures forall i :: 0 <= i < |ts| ==> r[i] == TaskResponseOf(db, ts[i])
  {
    if ts == [] then [] else [TaskResponseOf(db, ts[0])] + TaskResponses(db, ts[1..])
  }

  /** Every given task's response is among the responses. */
  lemma TaskResponsesCover(db: Db, ts: seq<Task>)
    requires forall t :: t in ts ==> TaskRefsResolve(db, t)
    ensures forall t :: t in ts ==> TaskResponseOf(db, t) in TaskResponses(db, ts)
  {
    var r := TaskResponses(db, ts);
    forall t | t in ts ensures TaskResponseOf(db, t) in r {
      var i :| 0 <= i < |ts| && ts[i] == t;
      assert r[i] == TaskResponseOf(db, t);
    }
  }

  /** Every response is the response of one of the given tasks. */
  lemma TaskResponsesOrigin(db: Db, ts: seq<Task>)
    requires forall t :: t in ts ==> TaskRefsResolve(db, t)
    ensures forall x :: x in TaskResponses(db, ts) ==> exists t :: t in ts && x == TaskResponseOf(db, t)
  {
    var r := TaskResponses(db, ts);
    forall x | x in r ensures exists t :: t in ts && x == TaskResponseOf(db, t) {
      var i :| 0 <= i < |r| && r[i] == x;
      assert ts[i] in ts;
    }
  }

  /** The responses of the stored tasks that satisfy `p`, in table order. */
  function ResponsesWhere(db: Db, p: Task -> bool): (r: seq<TaskResponse>)
    requires forall t :: t in db.tasks ==> TaskRefsResolve(db, t)
    ensures forall x :: x in r ==> exists t :: t in db.tasks && p(t) && x == TaskResponseOf(db, t)
    ensures forall t :: t in db.tasks && p(t) ==> TaskResponseOf(db, t) in r
    ensures |r| == |Filter(db.tasks, p)|
    ensures forall i :: 0 <= i < |r| ==> r[i] == TaskResponseOf(db, Filter(db.tasks, p)[i])
  {
    FilterMembers(db.tasks, p);
    TaskResponsesCover(db, Filter(db.tasks, p));
    TaskResponsesOrigin(db, Filter(db.tasks, p));
    TaskResponses(db, Filter(db.tasks, p))
  }

  /** The test "belongs to project `projectId`" as a function value. */
  function InProject(projectId: int): Task -> bool {
    (t: Task) => t.projectId == projectId
  }

  /** The test "is assigned to user `userId`" as a function value. */
  function AssignedTo(userId: int): Task -> bool {
    (t: Task) => t.assignedTo == Some(userId)
  }

  /** `getProjectTasks`: every task of the project, for anyone who may view it. */
  function GetProjectTasks(db: Db, projectId: int, username: string): (r: Result<seq<TaskResponse>, Error>)
    requires Valid(db)
    ensures r.Ok? <==> LoadUserAndProject(db, username, projectId).Ok?
                       && CanViewProject(db, UserByUsername(db, username).value, ProjectById(db, projectId).value)
    ensures r.Ok? ==> forall x :: x in r.value ==> exists t :: t in db.tasks && t.projectId == projectId && x == TaskResponseOf(db, t)
    ensures r.Ok? ==> forall t :: t in db.tasks && t.projectId == projectId ==> TaskResponseOf(db, t) in r.value
    ensures r.Ok? ==> |r.value| == |Filter(db.tasks, InProject(projectId))|
    ensures r.Ok? ==> forall i :: 0 <= i < |r.value| ==> r.value[i] == TaskResponseOf(db, Filter(db.tasks, InProject(projectId))[i])
  {
    match LoadUserAndProject(db, username, projectId)
    case Err(e) => Err(e)
    case Ok((u, p)) =>
      if !CanViewProject(db, u, p) then Err(Rejected("No tienes permisos para ver las tareas de este proyecto"))
      else Ok(ResponsesWhere(db, InProject(projectId)))
  }

  /** `getUserTasks`: every task assigned to the user, whatever the project; no permission is checked. */
  function GetUserTasks(db: Db, username: string): (r: Result<seq<TaskResponse>, Error>)
    requires Valid(db)
    ensures r.Ok? <==> UserByUsername(db, username).Some?
    ensures r.Ok? ==> forall x :: x in r.value ==>
              exists t :: t in db.tasks && t.assignedTo == Some(UserByUsername(db, username).value.id) && x == TaskResponseOf(db, t)
    ensures r.Ok? ==> forall t :: t in db.tasks && t.assignedTo == Some(UserByUsername(db, username).value.id) ==> TaskResponseOf(db, t) in r.value
    ensures r.Ok? ==> |r.value| == |Filter(db.tasks, AssignedTo(UserByUsername(db, username).value.id))|
    ensures r.Ok? ==> forall i :: 0 <= i < |r.value| ==>
              r.value[i] == TaskResponseOf(db, Filter(db.tasks, AssignedTo(UserByUsername(db, username).value.id))[i])
  {
    match UserByUsername(db, username)
    case None => Err(Rejected("Usuario no encontrado"))
    case Some(u) => Ok(ResponsesWhere(db, AssignedTo(u.id)))
  }

  /**
   * The row `updateTask` writes back: title and description always overwritten; status,
   * priority and due date only when given; the assignee always set from the request (so a
   * missing one unassigns); labels replaced only when a list is given.
   */
  function Updated(db: Db, t: Task, req: TaskRequest): (r: Task)
    ensures r.id == t.id && r.projectId == t.projectId && r.createdBy == t.createdBy && r.createdAt == t.createdAt
    ensures r.title == req.title && r.description == req.description
    ensures r.status == (if req.status.Some? then req.status.value else t.status)
    ensures r.priority == (if req.priority.Some? then req.priority.value else t.priority)
    ensures r.dueDate == (if req.dueDate.Some? then req.dueDate else t.dueDate)
    ensures r.assignedTo == req.assignedToId
    ensures r.labels == (if req.labelIds.Some? then Some(FoundLabels(db, req.labelIds.value)) else t.labels)
  {
    t.(title := req.title, description := req.description,
       status := req.status.GetOr(t.status), priority := req.priority.GetOr(t.priority),
       dueDate := if req.dueDate.Some? then req.dueDate else t.dueDate,
       assignedTo := req.assignedToId,
       labels := if req.labelIds.Some? then Some(FoundLabels(db, req.labelIds.value)) else t.labels)
  }

  /** The rows with id `id` are replaced by `t`. */
  function ReplaceTask(id: int, t: Task): Task -> Task {
    (x: Task) => if x.id == id then t else x
  }

  /** `updateTask`. */
  function UpdateTask(db: Db, taskId: int, req: TaskRequest, username: string): (r: Step<TaskResponse>)
    requires Valid(db)
    ensures r.result.Err? ==> r.db == db
    ensures r.result.Ok? <==> UserByUsername(db, username).Some? && TaskById(db, taskId).Some?
                              && CanEditTask(db, UserByUsername(db, username).value, TaskById(db, taskId).value)
                              && AssigneeExists(db, req.assignedToId)
    ensures UserByUsername(db, username).Some? && TaskById(db, taskId).Some?
            && !CanEditTask(db, UserByUsername(db, username).value, TaskById(db, taskId).value) ==>
              r.result == Err(Rejected("No tienes permisos para editar esta tarea"))
    ensures r.result.Ok? ==>
              var t := Updated(db, TaskById(db, taskId).value, req);
              && r.db == db.(tasks := Map(db.tasks, ReplaceTask(taskId, t)))
              && TaskRefsResolve(r.db, t)
              && r.result.value == TaskResponseOf(r.db, t)
  {
    match UserByUsername(db, username)
    case None => Fail(db, "Usuario no encontrado")
    case Some(u) =>
      match TaskById(db, taskId)
      case None => Fail(db, "Tarea no encontrada")
      case Some(t) =>
        if !CanEditTask(db, u, t) then Fail(db, "No tienes permisos para editar esta tarea")
        else if !AssigneeExists(db, req.assignedToId) then Fail(db, "Usuario asignado no encontrado")
        else
          var t' := Updated(db, t, req);
          var after := db.(tasks := Map(db.tasks, ReplaceTask(taskId, t')));
          assert TaskRefsResolve(db, t);
          assert TaskRefsResolve(after, t');
          Step(after, Ok(TaskResponseOf(after, t')))
  }

  /** The test "is not task `taskId`". */
  function OtherTask(taskId: int): Task -> bool {
    (t: Task) => t.id != taskId
  }

  /** `deleteTask`: the other tasks stay, in order and with their multiplicity. */
  function DeleteTask(db: Db, taskId: int, username: string): (r: Step<()>)
    ensures r.result.Err? ==> r.db == db
    ensures r.result.Ok? <==> UserByUsername(db, username).Some? && TaskById(db, taskId).Some?
                              && CanDeleteTask(db, UserByUsername(db, username).value, TaskById(db, taskId).value)
    ensures UserByUsername(db, username).Some? && TaskById(db, taskId).Some?
            && !CanDeleteTask(db, UserByUsername(db, username).value, TaskById(db, taskId).value) ==>
              r.result == Err(Rejected("No tienes permisos para eliminar esta tarea"))
    ensures r.result.Ok? ==> r.db == db.(tasks := r.db.tasks)
    ensures r.result.Ok? ==> forall t :: t in r.db.tasks <==> t in db.tasks && t.id != taskId
    ensures r.result.Ok? ==> KeepsOnly(r.db.tasks, db.tasks, OtherTask(taskId))
  {
    match UserByUsername(db, username)
    case None => Fail(db, "Usuario no encontrado")
    case Some(u) =>
      match TaskById(db, taskId)
      case None => Fail(db, "Tarea no encontrada")
      case Some(t) =>
        if !CanDeleteTask(db, u, t) then Fail(db, "No tienes permisos para eliminar esta tarea")
        else
          FilterKeepsOnly(db.tasks, OtherTask(taskId));
          Step(db.(tasks := Filter(db.tasks, OtherTask(taskId))), Ok(()))
  }

  /** A task just created under an unused id reads back as the response the creation returned. */
  lemma CreateThenGetTask(db: Db, req: TaskRequest, username: string, id: int, now: int)
    requires Valid(db) && TaskById(db, id).None?
    requires CreateTask(db, req, username, id, now).result.Ok?
    ensures var r := CreateTask(db, req, username, id, now);
            Valid(r.db) && GetTask(r.db, id, username) == r.result
  {
    var r := CreateTask(db, req, username, id, now);
    var u := UserByUsername(db, username).value;
    var t := NewTask(db, req, u.id, id, now);
    var after := db.(tasks := db.tasks + [t]);
    assert r.db == after && r.result == Ok(TaskResponseOf(after, t));
    CreateTaskKeepsValid(db, req, username, id, now);
    FirstAppend(db.tasks, [t], (x: Task) => x.id == id);
    assert TaskById(after, id) == Some(t);
    assert UserByUsername(after, username) == Some(u);
    assert ProjectOf(after, t) == ProjectById(db, req.projectId).value;
    assert MembershipOf(after, u.id, t.projectId) == MembershipOf(db, u.id, t.projectId);
    assert CanViewProject(after, u, ProjectOf(after, t));
  }

  /** A request that repeats a task's own fields and asks for no label change writes the row back unchanged. */
  lemma UpdateWithOwnFieldsIsIdentity(db: Db, t: Task, projectId: int)
    ensures Updated(db, t, TaskRequest(t.title, t.description, Some(t.status), Some(t.priority), t.assignedTo, projectId, t.dueDate, None)) == t
  {
  }

  /** The request's project is ignored: an update never moves a task to another project. */
  lemma UpdateNeverMovesTask(db: Db, taskId: int, req: TaskRequest, username: string)
    requires Valid(db)
    requires UpdateTask(db, taskId, req, username).result.Ok?
    ensures forall x :: x in UpdateTask(db, taskId, req, username).db.tasks ==>
              exists y :: y in db.tasks && y.id == x.id && y.projectId == x.projectId
  {
    var t' := Updated(db, TaskById(db, taskId).value, req);
    var after := Map(db.tasks, ReplaceTask(taskId, t'));
    forall x | x in after ensures exists y :: y in db.tasks && y.id == x.id && y.projectId == x.projectId {
      var i :| 0 <= i < |after| && after[i] == x;
      assert db.tasks[i] in db.tasks;
      if db.tasks[i].id == taskId {
        assert TaskById(db, taskId).value in db.tasks;
      }
    }
  }

  /**
   * Dropping a card on another column unassigns the task: the board's request carries no
   * assignee, so a successful update stores the new status and clears the assignee while
   * keeping the title, description, priority and due date.
   */
  lemma BoardDropUnassigns(db: Db, t: Task, status: TaskStatus, username: string)
    requires Valid(db) && t in db.tasks && TaskById(db, t.id) == Some(t)
    requires UpdateTask(db, t.id, Kanban.StatusRequest(TaskResponseOf(db, t), status, t.projectId), username).result.Ok?
    ensures var after := UpdateTask(db, t.id, Kanban.StatusRequest(TaskResponseOf(db, t), status, t.projectId), username).db;
            forall x :: x in after.tasks && x.id == t.id ==>
              && x.assignedTo.None? && x.status == status
              && x.title == t.title && x.description == t.description && x.priority == t.priority && x.dueDate == t.dueDate
  {
    var req := Kanban.StatusRequest(TaskResponseOf(db, t), status, t.projectId);
    var t' := Updated(db, t, req);
    ReplacedRowsAre(db.tasks, t.id, t');
  }

  /** After replacing the rows with id `id` by `t`, every row with that id is `t`. */
  lemma ReplacedRowsAre(tasks: seq<Task>, id: int, t: Task)
    requires t.id == id
    ensures forall x :: x in Map(tasks, ReplaceTask(id, t)) && x.id == id ==> x == t
  {
    var after := Map(tasks, ReplaceTask(id, t));
    forall x | x in after && x.id == id ensures x == t {
      var i :| 0 <= i < |after| && after[i] == x;
    }
  }

  /**
   * Saving a task from the dialog untouched also unassigns it: the dialog's edit form is the
   * board's request with the task's own status, which carries no assignee.
   */
  lemma DialogSaveUnassigns(db: Db, t: Task, form: TaskRequest, username: string)
    requires Valid(db) && t in db.tasks && TaskById(db, t.id) == Some(t)
    requires UpdateTask(db, t.id, TaskDialog.OnOpen(form, true, Some(TaskResponseOf(db, t)), t.projectId), username).result.Ok?
    ensures var after := UpdateTask(db, t.id, TaskDialog.OnOpen(form, true, Some(TaskResponseOf(db, t)), t.projectId), username).db;
            forall x :: x in after.tasks && x.id == t.id ==> x.assignedTo.None? && x.status == t.status
  {
    TaskDialog.EditFormAgreesWithBoard(TaskResponseOf(db, t), t.projectId, t.status);
    BoardDropUnassigns(db, t, t.status, username);
  }

  /** Appending a task whose references resolve keeps the database's integrity. */
  lemma AppendTaskKeepsValid(db: Db, t: Task)
    requires Valid(db) && TaskRefsResolve(db, t)
    ensures Valid(db.(tasks := db.tasks + [t]))
  {
    var after := db.(tasks := db.tasks + [t]);
    forall x | x in after.tasks ensures TaskRefsResolve(after, x) {
      assert x == t || x in db.tasks;
      assert TaskRefsResolve(db, x);
    }
  }

  /** Replacing the rows with one id by a task whose references resolve keeps the database's integrity. */
  lemma ReplaceTaskKeepsValid(db: Db, id: int, t: Task)
    requires Valid(db) && TaskRefsResolve(db, t)
    ensures Valid(db.(tasks := Map(db.tasks, ReplaceTask(id, t))))
  {
    var after := db.(tasks := Map(db.tasks, ReplaceTask(id, t)));
    forall x | x in after.tasks ensures TaskRefsResolve(after, x) {
      var i :| 0 <= i < |after.tasks| && after.tasks[i] == x;
      assert db.tasks[i] in db.tasks;
      assert TaskRefsResolve(db, x);
    }
  }

  /** Creating a task keeps the database's integrity. */
  lemma CreateTaskKeepsValid(db: Db, req: TaskRequest, username: string, id: int, now: int)
    requires Valid(db)
    ensures Valid(CreateTask(db, req, username, id, now).db)
  {
    if CreateTask(db, req, username, id, now).result.Ok? {
      var t := NewTask(db, req, UserByUsername(db, username).value.id, id, now);
      assert TaskRefsResolve(db.(tasks := db.tasks + [t]), t);
      assert TaskRefsResolve(db, t);
      AppendTaskKeepsValid(db, t);
    }
  }

  /** Updating a task keeps the database's integrity: the new assignee and labels exist. */
  lemma UpdateTaskKeepsValid(db: Db, taskId: int, req: TaskRequest, username: string)
    requires Valid(db)
    ensures Valid(UpdateTask(db, taskId, req, username).db)
  {
    if UpdateTask(db, taskId, req, username).result.Ok? {
      var t' := Updated(db, TaskById(db, taskId).value, req);
      var after := db.(tasks := Map(db.tasks, ReplaceTask(taskId, t')));
      assert TaskRefsResolve(after, t');
      assert TaskRefsResolve(db, t');
      ReplaceTaskKeepsValid(db, taskId, t');
    }
  }

  /** Deleting a task keeps the database's integrity: no row refers to a task. */
  lemma DeleteTaskKeepsValid(db: Db, taskId: int, username: string)
    requires Valid(db)
    ensures Valid(DeleteTask(db, taskId, username).db)
  {
    var r := DeleteTask(db, taskId, username);
    if r.result.Ok? {
      KeepTasksKeepsValid(db, r.db.tasks);
    }
  }

  /** Keeping only some of the task rows keeps the database's integrity: no other table refers to a task. */
  lemma KeepTasksKeepsValid(db: Db, kept: seq<Task>)
    requires Valid(db) && forall t :: t in kept ==> t in db.tasks
    ensures Valid(db.(tasks := kept))
  {
    var after := db.(tasks := kept);
    forall x | x in kept ensures TaskRefsResolve(after, x) {
      assert TaskRefsResolve(db, x);
    }
  }
}

=== FILE: text.dfy ===
/** Strings as the JavaScript and Java code uses them: case mapping, `includes`, ordering and blank checks. */
module Text {

  /** Case mapping of one character, restricted to ASCII letters. */
  function LowerChar(c: char): char {
    if 'A' <= c <= 'Z' then (c as int + 32) as char else c
  }

  function UpperChar(c: char): char {
    if 'a' <= c <= 'z' then (c as int - 32) as char else c
  }

  /** `s.toLowerCase()` (ASCII letters only). */
  function Lower(s: string): (r: string)
    ensures |r| == |s|
    ensures forall i :: 0 <= i < |r| ==> !('A' <= r[i] <= 'Z')
  {
    seq(|s|, i requires 0 <= i < |s| => LowerChar(s[i]))
  }

  /** `s.toUpperCase()` (ASCII letters only). */
  function Upper(s: string): (r: string)
    ensures |r| == |s|
    ensures forall i :: 0 <= i < |r| ==> !('a' <= r[i] <= 'z')
  {
    seq(|s|, i requires 0 <= i < |s| => UpperChar(s[i]))
  }

  predicate StartsWith(s: string, prefix: string) {
    |prefix| <= |s| && s[..|prefix|] == prefix
  }

  /** `s.includes(needle)`: the needle starts at some position of `s` (the empty needle always matches). */
  predicate Includes(s: string, needle: string)
    decreases |s|
  {
    StartsWith(s, needle) || (|s| > 0 && Includes(s[1..], needle))
  }

  /** `needle` occupies positions `i .. i + |needle|` of `s`. */
  ghost predicate OccursAt(s: string, needle: string, i: int) {
    0 <= i && i + |needle| <= |s| && s[i..i + |needle|] == needle
  }

  /** `Includes` is exactly "occurs at some position". */
  lemma {:induction false} IncludesIff(s: string, needle: string)
    ensures Includes(s, needle) <==> exists i :: OccursAt(s, needle, i)
    decreases |s|
  {
    if |s| > 0 {
      IncludesIff(s[1..], needle);
    }
    if Includes(s, needle) {
      if StartsWith(s, needle) {
        assert OccursAt(s, needle, 0);
      } else {
        var i :| OccursAt(s[1..], needle, i);
        assert s[1..][i..i + |needle|] == s[i + 1..i + 1 + |needle|];
        assert OccursAt(s, needle, i + 1);
      }
    }
    forall i | OccursAt(s, needle, i) ensures Includes(s, needle) {
      if i > 0 {
        assert s[1..][i - 1..i - 1 + |needle|] == s[i..i + |needle|];
        assert OccursAt(s[1..], needle, i - 1);
      }
    }
  }

  /** Lexicographic order on characters, as JavaScript's `<` compares strings. */
  predicate LexLe(a: string, b: string)
    decreases |a|
  {
    if a == [] then true
    else if b == [] then false
    else if a[0] != b[0] then a[0] < b[0]
    else LexLe(a[1..], b[1..])
  }

  lemma LexLeTotal(a: string, b: string)
    ensures LexLe(a, b) || LexLe(b, a)
  {
  }

  lemma LexLeAntisymmetric(a: string, b: string)
    ensures LexLe(a, b) && LexLe(b, a) ==> a == b
  {
    if a != [] && b != [] && a[0] == b[0] {
      LexLeAntisymmetric(a[1..], b[1..]);
      assert a == [a[0]] + a[1..] && b == [b[0]] + b[1..];
    }
  }

  lemma LexLeTransitive(a: string, b: string, c: string)
    ensures LexLe(a, b) && LexLe(b, c) ==> LexLe(a, c)
  {
    if a != [] && b != [] && c != [] {
      LexLeTransitive(a[1..], b[1..], c[1..]);
    }
  }

  /** Java's `s.trim().isEmpty()`: `trim` strips every character up to U+0020 from both ends. */
  predicate JavaBlank(s: string) {
    forall i :: 0 <= i < |s| ==> s[i] <= ' '
  }

  /** The characters JavaScript's `String.prototype.trim` strips: white space and line terminators. */
  predicate JsWhitespace(c: char) {
    var n := c as int;
    (0x09 <= n <= 0x0D) || n == 0x20 || n == 0xA0 || n == 0x1680 || (0x2000 <= n <= 0x200A)
    || n == 0x2028 || n == 0x2029 || n == 0x202F || n == 0x205F || n == 0x3000 || n == 0xFEFF
  }

  /** JavaScript's `!s.trim()`: nothing is left once white space is stripped. */
  predicate JsBlank(s: string) {
    forall i :: 0 <= i < |s| ==> JsWhitespace(s[i])
  }
}

=== FILE: wire.dfy ===
/**
 * The JSON shapes exchanged between the browser client and the REST backend: the client's
 * request/response interfaces and the backend's response DTOs describe the same records.
 */
module Wire {
  import opened Wrappers

  datatype TaskStatus = Todo | InProgress | Review | Done {
    /** The enum constant as it travels over the wire. */
    function Name(): string {
      match this
      case Todo => "TODO"
      case InProgress => "IN_PROGRESS"
      case Review => "REVIEW"
      case Done => "DONE"
    }
  }

  datatype TaskPriority = Low | Medium | High | Urgent {
    function Name(): string {
      match this
      case Low => "LOW"
      case Medium => "MEDIUM"
      case High => "HIGH"
      case Urgent => "URGENT"
    }
  }

  datatype ProjectStatus = Active | Completed | OnHold | Cancelled {
    function Name(): string {
      match this
      case Active => "ACTIVE"
      case Completed => "COMPLETED"
      case OnHold => "ON_HOLD"
      case Cancelled => "CANCELLED"
    }
  }

  datatype ProjectRole = Owner | Admin | ProjectManager | TeamMember | Viewer {
    function Name(): string {
      match this
      case Owner => "OWNER"
      case Admin => "ADMIN"
      case ProjectManager => "PROJECT_MANAGER"
      case TeamMember => "TEAM_MEMBER"
      case Viewer => "VIEWER"
    }
  }

  /** A label: also the backend's label entity, which has no other persistent fields. */
  datatype Label = Label(id: int, name: string, color: string)

  /** Timestamps (`createdAt`, `dueDate`, `joinedAt`) are milliseconds since the epoch. */
  datatype TaskResponse = TaskResponse(
    id: int,
    title: string,
    description: string,
    status: TaskStatus,
    priority: TaskPriority,
    assignedTo: Option<string>,
    projectName: string,
    createdBy: string,
    createdAt: int,
    dueDate: Option<int>,
    labels: seq<Label>)

  datatype ProjectResponse = ProjectResponse(
    id: int,
    name: string,
    description: string,
    status: ProjectStatus,
    createdBy: string,
    createdAt: int,
    taskCount: int,
    memberCount: int,
    members: seq<string>)

  datatype ProjectMemberResponse = ProjectMemberResponse(username: string, email: string, role: ProjectRole, joinedAt: int)

  /**
   * A task request. The client always sends status and priority; the backend also accepts
   * requests without them, so every optional member is an `Option`.
   */
  datatype TaskRequest = TaskRequest(
    title: string,
    description: string,
    status: Option<TaskStatus>,
    priority: Option<TaskPriority>,
    assignedToId: Option<int>,
    projectId: int,
    dueDate: Option<int>,
    labelIds: Option<seq<int>>)

  /** A project request; the client always sends a status, the backend defaults a missing one. */
  datatype ProjectRequest = ProjectRequest(name: string, description: string, status: Option<ProjectStatus>)

  datatype AuthRequest = AuthRequest(usernameOrEmail: string, password: string)

  datatype RegisterRequest = RegisterRequest(username: string, email: string, password: string)

  datatype AuthResponse = AuthResponse(token: string, refreshToken: string)
}

=== FILE: wrappers.dfy ===
/** Failure-compatible wrappers shared by every module of the model. */
module Wrappers {

  /** A value that may be absent: JavaScript's `undefined`/`null` and Java's `null`/`Optional.empty()`. */
  datatype Option<+T> = None | Some(value: T) {
    function GetOr(default: T): T {
      match this
      case Some(v) => v
      case None => default
    }
  }

  /** Either a value or the error that was raised instead. */
  datatype Result<+T, +E> = Ok(value: T) | Err(error: E)
}
